=== FILE: README.md ===
# CapacityReport, modelled in Dafny

CapacityReport is a FastAPI service. It takes uploaded capacity-report
workbooks and CSV exports, converts the sheets to CSV, and keeps only the
columns its field map knows. It cleans every cell and loads the rows into
MySQL tables named after the `4G`/`5G` directories they came from. Then it
runs a post-processing SQL script. A JSON history file records every run.
A global task lock is consulted by lock requests, new upload sessions and
script runs, each of which is refused while the lock is held. A packaging
script picks the Docker base images.

This project models the deterministic rules under that plumbing as pure
Dafny functions over strings, sequences and insertion-ordered dictionaries.
It proves what those rules promise. The library calls (pandas, openpyxl,
chardet, sqlparse, pymysql) become inputs to the functions: a list of sheet
names, the detected encoding, the list of statements, and which statements
fail.

| file | module | models |
|---|---|---|
| `text.dfy` | `Text` | the Python `str` methods the code relies on: `isspace`, `strip`, `lower`/`upper`, `startswith`/`endswith`, `in`, `split`, `join`, `replace` |
| `dict.dfy` | `Dict` | Python's insertion-ordered `dict` as a sequence of entries: assignment, lookup, `update`, `pop` |
| `json.dfy` | `Json` | JSON values as `json.load` returns them, and `dict.get` with a default |
| `processor.dfy` | `Processor` | `app/processor.py`: field map, sheet conversion, encoding choice, column mapping and cell cleaning, table names from directories, the SQL script loop |
| `database.dfy` | `Database` | `app/database.py`: INSERT and CREATE TABLE text, `bulk_insert` batching, pagination, the LIKE filter, SELECT classification |
| `history.dfy` | `History` | `app/history.py`: the bounded, newest-first list of run records and its operations, the log-line filter, the delete and clear guards |
| `build.dfy` | `Build` | `build/build.py`: `int()` on digit strings, `parse_version`, range checks, the Dockerfile `FROM python:` tag, image choice, newline normalisation |
| `tasklock.dfy` | `TaskLock` | `app/main.py`: the global task lock across `lock_task`, `unlock_task`, the status endpoint, `upload_files` and `execute_script` |
| `config.dfy` | `Config` | `app/config.py` (`load`, `save`, `to_dict`, `to_dict_full`) and the merge of `upload_config` in `app/main.py` |

## Model

| member | source | states |
|---|---|---|
| Dict.GetPutAll | app/history.py:102 | after `rec.update(kwargs)`, a key that `kwargs` holds reads back the value `kwargs` gives it; every other key reads back its old value |
| Dict.Remove | app/history.py:125 | `pop(key, None)` leaves no entry under the key, keeps every other entry, and changes nothing when the key is absent |
| Dict.RemoveAppend | app/history.py:125 | removing a key from two runs of entries removes it from each, so the entries kept stay in their order |
| Processor.BuildFieldMap | app/processor.py:88-95 | every alias in any definition's `Extract` list is a key, every key is such an alias, and each key maps to the `Field` of the last definition that lists it |
| Processor.AliasResolvesToLastDefinition | app/processor.py:88-95 | an alias whose last mention is in definition `i` maps to definition `i`'s `Field`: a later duplicate alias wins |
| Processor.Eligible | app/processor.py:190-191 | a sheet is converted exactly when it is in the workbook and not in the sheet filter |
| Processor.EligibleAppend | app/processor.py:190-191 | the sheets converted from two runs of the sheet list are those of the first run followed by those of the second: the workbook's order is kept |
| Processor.WriteSheets | app/processor.py:190-196 | the files written are `<stem>_<sheet>.csv` beside the workbook, for the unfiltered sheets in order; when every unfiltered sheet converts, all of them are written; when one fails, exactly the unfiltered sheets before the first failing one are written |
| Processor.ConvertWorkbook | app/processor.py:181-204 | an unreadable workbook yields nothing and 0; otherwise the count is the number of unfiltered sheets when none fails; when one fails the count is 0 and the files of the unfiltered sheets before the first failing one stay written |
| Processor.ConvertAllAppend | app/processor.py:219-230 | the total over two groups of workbooks is the sum of their totals |
| Processor.ConvertAllOrderIndependent | app/processor.py:219-230 | the total does not depend on the order in which the parallel conversions finish: any permutation of the workbooks gives the same sum |
| Processor.NormaliseEncoding | app/processor.py:239-251 | the codec is always `utf-8` or `gbk`, and it is `gbk` exactly when a detection exists whose lower-cased name contains `gb` and not `utf` |
| Processor.ColumnMapping | app/processor.py:274-277 | the mapping holds exactly the headers that the field map knows, in header order and without duplicates, each mapped to its canonical field |
| Processor.CleanCell | app/processor.py:293-302 | a missing cell becomes `0`; otherwise the result is the first 200 characters of the cell with every `%` removed: it has exactly that length, and a clean short cell is unchanged |
| Processor.CleanCellIdempotent | app/processor.py:293-302 | cleaning a cleaned cell changes nothing |
| Text.DeleteCharAppend | app/processor.py:298 | removing `%` from two joined texts removes it from each, so the characters kept stay in their order |
| Processor.ProcessCsv | app/processor.py:253-314 | more than three mapped columns load the file: the table columns are the mapped fields, and every row has that width and holds the cleaned source cells pairwise; otherwise a path containing `kpis` is skipped and any other file is rejected |
| Processor.TagTables | app/processor.py:327-338 | each table name is `4G_UD` or `5G_UD` for a found directory named `4G`, `5G`, `4g` or `5g`; every such directory's table is present, with no table twice |
| Processor.TagTablesFirstWins | app/processor.py:335-338 | a table's directory is the first one found with that table name |
| Processor.ChildTables | app/processor.py:340-345 | with no tagged directory, every immediate subdirectory maps from `<name>_UD`, and every entry is such a subdirectory |
| Processor.FindDataDirectories | app/processor.py:316-347 | the tagged tables are used when any tagged directory exists, and the subdirectory tables only when none does |
| Processor.RunFrom | app/processor.py:407-420 | each step executes the stripped statement at its 1-based position; positions strictly increase, only statements neither blank nor starting with `#` get a step, and there are as many steps as such statements, so each of them runs once, in order; a step succeeds exactly when its position is not among the failing ones |
| Processor.ExecuteScript | app/processor.py:392-426 | a missing script does nothing; a failing connection raises before any statement; otherwise every runnable statement is sent in order, whatever happened to earlier ones; one commit comes last, unless the commit itself raises, in which case there is none |
| Processor.FailuresDoNotStopScript | app/processor.py:417-422 | which statements are sent does not depend on which of them fail |
| Database.ParseItemsRoundTrip | app/database.py:223-224 | a list of backtick-quoted names joined by a separator reads back as the same names, so the column list of the statement text is unambiguous |
| Database.InsertPlaceholders | app/database.py:222-225 | the INSERT statement holds exactly one `%s` per column |
| Database.InsertListsColumns | app/database.py:222-225 | the INSERT statement's column list reads back as the given columns, in order |
| Database.CreateTableSql | app/database.py:248-251 | the DDL starts with ``CREATE TABLE IF NOT EXISTS `table` (`` |
| Database.CreateTableDeclaresColumns | app/database.py:248-251 | the DDL's column definitions read back as the given columns, in order, each typed `VARCHAR(255)` |
| Database.BulkInsert | app/database.py:213-246 | empty data sends nothing and returns 0; a zero batch size raises; a negative one sends no batch and returns 0; a positive one gives batches that are non-empty, at most the batch size, all full but the last, and concatenate to the data, and returns the number of rows |
| Database.FloorDiv | app/database.py:171 | Python's `//`: the quotient rounded towards negative infinity, for either sign of divisor |
| Database.TotalPages | app/database.py:171 | a zero page size raises; for a positive page size the result is the least page count that covers all rows |
| Database.PagesCoverRows | app/database.py:135-171 | every page from 1 to `total_pages` starts at a row that exists, and the page after the last starts past the end |
| Database.Qualifying | app/database.py:144-145 | exactly the filter entries with a non-empty value take part |
| Database.QualifyingAppend | app/database.py:144-145 | the filters kept from two runs are those of the first run followed by those of the second, so the kept filters stay in order |
| Database.BuildWhere | app/database.py:140-149 | one `%value%` parameter per qualifying entry, in order; no clause exactly when no entry qualifies, and a clause that starts with `WHERE ` otherwise |
| Database.WhereConditions | app/database.py:140-149 | the conditions after `WHERE ` read back as the qualifying columns, in order, each followed by ` LIKE %s` |
| Database.WherePlaceholders | app/database.py:140-149 | the clause holds exactly as many `%s` as there are parameters |
| Database.ExecuteSql | app/database.py:199-211 | a failing connection raises; a failing statement returns `(False, message)` without commit; otherwise the rows come back exactly when the statement is a query, and a commit with the affected-row count happens exactly when it is not |
| Database.IsSelectByLeadingWord | app/database.py:205 | a statement counts as a query exactly when its first six characters after leading whitespace spell SELECT in any letter case |
| History.ToDict | app/history.py:29-30 | `asdict` gives the eight fields in declaration order, with no key twice |
| History.Clean | app/history.py:82-94 | each of the eight fields is the stored value when the dictionary has the key; when it does not, `file_count` is 0, `elapsed_time` 0.0, `result_tables` `[]` and the others `None` |
| History.CleanToDict | app/history.py:82-94 | cleaning a record's own dictionary gives the record back |
| History.ToDictClean | app/history.py:82-94 | cleaning keeps every known field's stored value and drops every other key, such as an old `logs` |
| History.FirstWithId | app/history.py:112-113 | the position of the first record with the id, or -1 exactly when none has it |
| History.Create | app/history.py:59-80 | the new record is pending, stamped with the current time, with the given or generated id, at the front; the older records follow in order; the list is cut to 100 |
| History.GetRecord | app/history.py:109-116 | `None` exactly when no record has the id; otherwise the cleaned first record with it |
| History.GetAfterCreate | app/history.py:59-116 | `get` of a newly created id returns the new record |
| History.Update | app/history.py:96-107 | `None` and no change when no record has the id; otherwise only the first such record is updated, and every other record and the length stay the same |
| History.GetAfterUpdate | app/history.py:96-116 | after an update that does not touch `id`, `get` returns the record that `update` returned |
| History.ListRecords | app/history.py:118-127 | each listed record is the stored one at that position without its `logs` key |
| History.ListRecordsLimit | app/history.py:118-127 | a limit up to the length lists that many leading records and a larger one lists all; a negative limit drops that many trailing records, and all of them when it exceeds the length |
| History.LogLines | app/history.py:142 | every line returned is non-empty, stripped and holds no newline |
| History.LogLinesOneLine | app/history.py:140-142 | a file without a newline gives its stripped text as the one line, or no line when that is empty |
| History.LogLinesAppend | app/history.py:140-142 | the lines of two texts joined by a newline are the lines of the first followed by those of the second |
| History.LogLinesOfWritten | app/history.py:142 | a log written one stripped, non-empty entry per line reads back as exactly those entries, in order |
| History.GetLogs | app/history.py:129-146 | no lines for an unknown id or an unreadable file; otherwise the filtered lines of the record's `log.txt` |
| History.Without | app/history.py:160 | the records without the id, in order, and shorter exactly when the id was present |
| History.WithoutAppend | app/history.py:160 | removing an id from two runs of records removes it from each, so the records kept stay in their order |
| History.Delete | app/history.py:148-186 | returns True exactly when a record had the id; afterwards no record has it, and the others stay in order; the work directory of the first such record is handed to the removal guard |
| History.WithoutUnlisted | app/history.py:160-163 | deleting an absent id leaves the list as it was |
| History.AsWrittenRemovesCache | app/history.py:172-177 | a record whose `work_dir` is the cache directory itself passes that guard, and the removal takes `history.json` with it |
| History.GuardsDifferOnlyAtCache | app/history.py:166-180 | the intended guard (a directory strictly inside the cache) and the guard as written (`relative_to(cache)` succeeds) decide alike on every path except the cache directory itself, which only the guard as written removes |
| History.RemovedDirSparesHistory | app/history.py:171-177 | under the intended guard the history file is never inside the directory removed |
| History.Clear | app/history.py:188-221 | returns the former record count and leaves an empty list; it removes exactly the cache items that resolve inside the cache and are directories or files other than `history.json` |
| History.ClearedItemsAppend | app/history.py:198-215 | the items removed from two runs of the listing are those of the first run followed by those of the second, so removal follows the listing order |
| History.ClearEmpties | app/history.py:190-194 | after `clear`, no id is found and the list is empty |
| Build.ParseInt | build/build.py:124-128 | `int()` succeeds only on text made of digits, signs, underscores and whitespace |
| Build.ParseIntOfNat | build/build.py:124-128 | `int()` reads a decimal numeral back as its number |
| Build.ParseIntRejectsLetters | build/build.py:130-131 | a letter anywhere makes `int()` fail |
| Build.ParseVersionText | build/build.py:118-131 | `a.b.c` and `a.b.c-suffix` parse to `(a, b, c)`: the suffix after the first `-` is dropped |
| Build.ParseVersionMajorOnly | build/build.py:123-126 | a lone major number parses with minor and patch 0 |
| Build.ParseVersionNoPatch | build/build.py:125-128 | `a.b` parses with patch 0 |
| Build.ParseVersionRejectsLetters | build/build.py:130-131 | a letter in the major component gives `None` |
| Build.DefaultPythonVersionParses | build/build.py:23 | the default Python tag `3.13.11-slim` parses to `(3, 13, 11)` |
| Build.DefaultMysqlVersionParses | build/build.py:22 | the default MySQL version `8.0.44` parses to `(8, 0, 44)` |
| Build.LessIsStrictTotal | build/build.py:137 | tuple order on versions is irreflexive, transitive, asymmetric and total |
| Build.RangeHalfOpen | build/build.py:133-137 | the range check accepts its lower bound, rejects its upper bound, and rejects `None` |
| Build.MatchFromLine | build/build.py:150-152 | a line `FROM`, whitespace, `python:`, a tag and then whitespace or the end matches case-insensitively, and its group is exactly the tag |
| Build.PythonTag | build/build.py:139-157 | the tag comes from the first matching line and holds no whitespace; there is none exactly when no line matches |
| Build.PythonImageInRange | build/build.py:159-175 | the chosen Python image always carries a tag whose version is in [3.10, 3.14): the Dockerfile's own tag, or the default |
| Build.MysqlImageChosen | build/build.py:177-189 | the MySQL default is in [8.0, 9.0), so the image is `mysql:8.0.44` and the script does not exit |
| Build.NormaliseNewlines | build/build.py:215 | the normalised text holds no carriage return and is no longer than the input |
| Build.NormaliseIdempotent | build/build.py:215 | normalising twice is normalising once |
| Build.NormaliseUnix | build/build.py:215 | text without carriage returns is unchanged |
| Build.NormaliseCrlf | build/build.py:215 | lines joined by CRLF come out joined by LF |
| Build.NormaliseCr | build/build.py:215 | lines joined by a lone CR come out joined by LF |
| TaskLock.LockTask | app/main.py:346-356 | a held lock refuses with 409; a free lock becomes held by the given id at the uploading stage |
| TaskLock.UnlockTask | app/main.py:360-371 | 403 exactly when a non-empty id is given that is not the holder's; otherwise all four fields are reset |
| TaskLock.LockUnlockRoundTrip | app/main.py:346-371 | after taking a free lock, its holder can release it to the free state and any other id is refused with 403 |
| TaskLock.FirstProcessing | app/main.py:329-331 | the task reported is a processing one and every task before it in insertion order is not; none exactly when no task is processing |
| TaskLock.Status | app/main.py:292-342 | a held lock whose holder has finished, by its history record or its in-memory task, is released and nothing is active; a held lock otherwise reports its holder unchanged; a free lock stays free and reports the first processing task in insertion order, and nothing exactly when none is processing |
| TaskLock.StatusReleasesFinished | app/main.py:295-317 | a status query keeps the lock well formed, never takes it, and never leaves it held by a finished holder |
| TaskLock.UploadFiles | app/main.py:154-237 | no files gives 400; a new session under a held lock, or another holder's session, gives 409; a new session takes the lock under the new id and is registered before saving, so it stays known even when the save fails; a failed save gives the lock back when the session was new; a successful save is reported as a new session exactly when the request started one |
| TaskLock.UploadFailureRestores | app/main.py:230-236 | a failed upload leaves the lock exactly as it was before the request |
| TaskLock.UploadKeepsHolder | app/main.py:192-198 | an upload under a held lock never changes the lock, and succeeds only for the holder's own session |
| TaskLock.StaleSessionUploadsUnlocked | app/main.py:166-198 | after a new session's failed save, a retry under that session id is taken as an existing session and saves files while the lock stays free |
| TaskLock.ExecuteScript | app/main.py:1175-1242 | 409 exactly when locked; otherwise the lock is held by a `script_` id at the processing stage while the script runs and is free afterwards, and the task ends completed or failed as the script did |
| TaskLock.ScriptEndsIdle | app/main.py:1218-1237 | once a script run has finished and its `processing_tasks` entry records the result, a status query finds nothing active whenever no other task is processing, whether or not the `finally` has freed the lock yet |
| TaskLock.TransitionsWellFormed | app/main.py:56-61 | every transition keeps the lock's four fields consistent: a held lock has a holder, a stage and a start time, and a free lock has none |
| TaskLock.HeldLockExcludes | app/main.py:169-171 | while the lock is held, a new upload session (here), `lock_task` (app/main.py:348-349) and `execute_script` (app/main.py:1180-1181) are all refused |
| Config.LoadMysql | app/config.py:42-49 | each MySQL key present is taken as stored; each missing key independently takes its default |
| Config.LoadMysqlEmpty | app/config.py:42-49 | an empty `MySQL_DBInfo` gives `localhost`, 3306, `root`, an empty password and `CapacityReport` |
| Config.Load | app/config.py:33-56 | no file gives all defaults; a file that is not a JSON object, or whose `MySQL_DBInfo` is not one, raises; otherwise each top-level key is taken or defaults to `""`, `[]`, `[]` |
| Config.Save | app/config.py:58-76 | saving sets `update` to the new stamp and writes the four keys in order, with no key twice |
| Config.SaveLoadRoundTrip | app/config.py:58-76 | loading what was saved gives back the configuration, with `update` equal to the new stamp |
| Config.LoadMysqlFields | app/config.py:42-49 | the saved MySQL object loads back as the same five fields |
| Config.ToDictFull | app/config.py:92-105 | the full projection has the four keys in order; `update`, `sheet_filter` and `extract_fields` read back the configuration's values; its `mysql` object carries the password and loads back as exactly the configuration's connection settings |
| Config.ToDict | app/config.py:78-90 | the public projection has the same four keys; `update`, `sheet_filter` and `extract_fields` read back the configuration's values; its `mysql` object gives the configuration's host, port, user and dbname and has no `passwd` |
| Config.ToDictHidesOnlyPassword | app/config.py:78-105 | the public projection is the full one with only `mysql.passwd` removed |
| Config.MergeMysql | app/main.py:813-824 | each MySQL key the upload carries replaces the old value, and every other key keeps it |
| Config.ListOrEmpty | app/main.py:827-832 | a list is kept as it is, and anything else becomes `[]` |
| Config.Merge | app/main.py:813-832 | `MySQL_DBInfo` is merged key by key only when it is an object; `SheetFilter` and `ExtractField` are replaced only when present, by themselves when lists and by `[]` otherwise; `update` is untouched |
| Config.MergeIdempotent | app/main.py:813-832 | merging the same upload twice is merging it once |
| Config.MergeNothing | app/main.py:813-832 | an upload with none of the three keys changes nothing |
| Config.UploadConfig | app/main.py:792-848 | a name not ending in `.json`, a body that is not JSON, or a body that is not an object is refused with 400; otherwise the merged configuration is saved under the new stamp |
| Config.UploadThenLoad | app/main.py:792-848 | after an accepted upload, loading the configuration file gives the merged configuration with the new stamp |

## Left out

- HTTP routing, responses, static files, the health check and service restarts are request handling and process control. The model keeps only the status codes and the state the handlers change.
- Clocks, UUIDs and timestamps are parameters (`stamp`, `now`, `token`). The eight-hex-digit UUID slice in the script id is not modelled; the id is `script_` followed by the token.
- Filesystem walking and JSON file persistence are not modelled. Directory listings, workbook sheet lists and the history list are inputs and results. JSON encoding and decoding are taken as the identity on `Json.Value`, and decoded objects are assumed to have no duplicate keys.
- Library calls are not modelled: pandas and openpyxl reading, chardet, zip extraction, `sqlparse.split` and the MySQL drivers. Their outputs are abstract inputs: sheet lists, the detected encoding, the statement list, and the set of failing statements or sheets.
- The thread pool and background threads are not modelled. Excel conversion is a sequential sum, and `ConvertAllOrderIndependent` covers the order in which results arrive.
- `format_size` is left out (floating-point formatting). So are `dist/build.py`, the Docker commands and the shell-script templates, which are external commands and fixed text.
- Text.Lower: Python's `lower` and `upper` are modelled for ASCII letters only. The regular expression's `IGNORECASE` is handled the same way.
- Build.ParseInt: non-ASCII digits, which Python's `int()` also accepts, are not modelled. Text that uses them parses to `None` here.
- Processor.ProcessCsv: pandas' `thousands=','` conversion is not modelled, because every column is read as a string. A cell is therefore taken as the text pandas hands over.
- Processor.ColumnMapping: a definition without `Field` maps its aliases to `None` in Python. In the model, `Field` is always a string.
- TaskLock.UploadFiles: the history create-or-update done on a successful upload is not composed into the lock model. `History.Create` and `History.Update` cover it separately. A failed save is a flag and is not tied to a particular exception, and it is the only 500 path modelled.
- Config.UploadConfig: the 500 answer for unexpected exceptions is not modelled; content that does not decode is the absent body.
- TaskLock: `start_processing` (app/main.py:381-416) takes the lock without checking it, and its thread frees the lock whoever holds it (app/main.py:437-450). This handler is not modelled, so processing can overlap an upload or a script run.
- TaskLock.Status: the reply's `started_at`, `logs` and `has_active` fields are reduced to the `Report` cases.
- History operations that match records by id assume each record has an `id` key. Python raises `KeyError` on a record without one.
- Database.BulkInsert: a failed connection or `executemany` raises out of `bulk_insert` and is not modelled; the model describes the batches a run that does not raise sends.
- Processor.ExecuteScript: a script file that cannot be read or decoded raises before the connection and is not modelled.
- History.GetLogs: a record without `work_dir` makes `Path(None)` raise `TypeError` in Python; the model passes the `None` on to the log-reader parameter instead of raising.
- Build.MysqlImageChosen: the result is stated with the default-version constant, not a spelled-out `mysql:8.0.44` literal.

## Findings

| source | as written | input that shows it | evidently intended | confidence | as-written member | corrected member |
|---|---|---|---|---|---|---|
| app/history.py:172-177 | `delete` removes the record's work directory when `relative_to(cache)` succeeds, and that also succeeds for the cache directory itself | a history record whose `work_dir` is the cache directory: deleting it runs `rmtree` on the whole cache, `history.json` included | only a directory strictly inside the cache directory is removed, so the history file survives | low, not executed | History.AsWrittenRemovesCache | History.RemovedDirSparesHistory |

=== FILE: build.dfy ===
/**
 The pure helpers of the packaging script `build/build.py`: version strings
 and their half-open range checks, the choice of the Python and MySQL base
 images, the `FROM python:` line of the Dockerfile, and the newline
 normalisation applied to generated shell scripts.
 */
module Build {
  import opened Text

  // ---------------------------------------------------------------------
  // Python's int() on a string
  // ---------------------------------------------------------------------

  predicate IsDigit(c: char) {
    '0' <= c <= '9'
  }

  function DigitValue(c: char): nat
    requires IsDigit(c)
  {
    c as int - '0' as int
  }

  /** Digits, with single underscores allowed between them, as `int()`
      accepts them. */
  predicate DigitGroups(s: string) {
    && |s| > 0
    && IsDigit(s[0]) && IsDigit(s[|s| - 1])
    && (forall i :: 0 <= i < |s| ==> IsDigit(s[i]) || s[i] == '_')
    && (forall i :: 0 <= i < |s| - 1 ==> s[i] == '_' ==> s[i + 1] != '_')
  }

  /** The number the digits spell, underscores skipped. */
  function DigitsValue(s: string): nat
    requires forall i :: 0 <= i < |s| ==> IsDigit(s[i]) || s[i] == '_'
  {
    if |s| == 0 then 0
    else if s[|s| - 1] == '_' then DigitsValue(s[..|s| - 1])
    else DigitsValue(s[..|s| - 1]) * 10 + DigitValue(s[|s| - 1])
  }

  /** A character `int()` may meet in a valid integer literal. */
  predicate IntChar(c: char) {
    IsDigit(c) || c == '_' || c == '+' || c == '-' || IsSpace(c)
  }

  /** Python's `int(s)` for ASCII digits: surrounding whitespace, one sign and
      single underscores between digits are accepted; anything else is a
      ValueError (None). */
  function ParseInt(s: string): (r: Option<int>)
    ensures r.Some? ==> forall i :: 0 <= i < |s| ==> IntChar(s[i])
  {
    var t := Strip(s);
    assert forall i :: 0 <= i < |t| ==> t[i] in s by {
      var l := LStrip(s);
      forall i | 0 <= i < |t| ensures t[i] in s {
        assert t[i] == l[i] == s[|s| - |l| + i];
      }
    }
    var neg := |t| > 0 && t[0] == '-';
    var body := if |t| > 0 && (t[0] == '-' || t[0] == '+') then t[1..] else t;
    if !DigitGroups(body) then None
    else
      assert forall i :: 0 <= i < |s| ==> IntChar(s[i]) by {
        forall i | 0 <= i < |s| ensures IntChar(s[i]) {
          StripKeepsOnly(s, i);
          if !IsSpace(s[i]) {
            var j :| 0 <= j < |t| && t[j] == s[i];
            if j > 0 || body == t {
              assert body[if body == t then j else j - 1] == s[i];
            }
          }
        }
      }
      Some(if neg then -(DigitsValue(body) as int) else DigitsValue(body))
  }

  /** Every character `strip` drops is whitespace. */
  lemma StripKeepsOnly(s: string, i: nat)
    requires i < |s|
    ensures IsSpace(s[i]) || exists j :: 0 <= j < |Strip(s)| && Strip(s)[j] == s[i]
  {
    var l := LStrip(s);
    var t := Strip(s);
    var off := |s| - |l|;
    if !IsSpace(s[i]) {
      assert i >= off;
      assert l[i - off] == s[i];
      assert i - off < |t|;
      assert t[i - off] == s[i];
    }
  }

  /** Decimal digits of a natural number, as `str(n)` writes them. */
  function NatToString(n: nat): (s: string)
    ensures |s| > 0
    ensures forall i :: 0 <= i < |s| ==> IsDigit(s[i])
  {
    var d := ['0' + (n % 10) as char];
    if n < 10 then d else NatToString(n / 10) + d
  }

  lemma {:induction false} DigitsValueOfNat(n: nat)
    ensures DigitsValue(NatToString(n)) == n
  {
    var s := NatToString(n);
    if n >= 10 {
      DigitsValueOfNat(n / 10);
      assert s[..|s| - 1] == NatToString(n / 10);
    }
  }

  /** `int(str(n)) == n`. */
  lemma ParseIntOfNat(n: nat)
    ensures ParseInt(NatToString(n)) == Some(n)
  {
    var s := NatToString(n);
    assert HasNoSpace(s) by {
      forall i | 0 <= i < |s| ensures !IsSpace(s[i]) {
        assert IsDigit(s[i]);
      }
    }
    StripOfSpaceless(s);
    DigitsValueOfNat(n);
    assert DigitGroups(s);
  }

  /** A component with a letter in it is a ValueError. */
  lemma ParseIntRejectsLetters(s: string, i: nat)
    requires i < |s| && ('a' <= s[i] <= 'z' || 'A' <= s[i] <= 'Z')
    ensures ParseInt(s).None?
  {
    assert !IntChar(s[i]);
  }

  // ---------------------------------------------------------------------
  // Versions (`parse_version`, `check_version_in_range`)
  // ---------------------------------------------------------------------

  datatype Version = Version(major: int, minor: int, patch: int)

  const DefaultMysqlVersion := "8.0.44"
  const DefaultPythonVersion := "3.13.11-slim"
  const MysqlMin := Version(8, 0, 0)
  const MysqlMax := Version(9, 0, 0)
  const PythonMin := Version(3, 10, 0)
  const PythonMax := Version(3, 14, 0)

  /** `parse_version`: the first three dot-separated components as integers,
      the third cut at its first `-`, missing ones 0, later ones ignored;
      None when a component used is not an integer. */
  function ParseVersion(v: string): Option<Version> {
    var parts := Split(v, '.');
    var patchText := if |parts| > 2 then parts[2] else "0";
    match (ParseInt(parts[0]), if |parts| > 1 then ParseInt(parts[1]) else Some(0), ParseInt(Split(patchText, '-')[0]))
    case (Some(major), Some(minor), Some(patch)) => Some(Version(major, minor, patch))
    case _ => None
  }

  /** The version text for components `a.b.c`, optionally with `-suffix`. */
  function VersionText(a: nat, b: nat, c: nat, suffix: Option<string>): string {
    NatToString(a) + "." + NatToString(b) + "." + NatToString(c) + match suffix case None => "" case Some(x) => "-" + x
  }

  /** `parse_version` on text whose pieces are known to parse. */
  lemma ParseVersionOfPieces(v: string, a: int, b: int, c: int)
    requires var parts := Split(v, '.');
      && |parts| >= 3
      && ParseInt(parts[0]) == Some(a) && ParseInt(parts[1]) == Some(b)
      && ParseInt(Split(parts[2], '-')[0]) == Some(c)
    ensures ParseVersion(v) == Some(Version(a, b, c))
  {
  }

  lemma SplitTwo(x: string, y: string, sep: char)
    requires sep !in x && sep !in y
    ensures Split(x + [sep] + y, sep) == [x, y]
  {
    SplitAfterPiece(x, sep, y);
    SplitNoSep(y, sep);
  }

  lemma SplitThree(x: string, y: string, z: string, sep: char)
    requires sep !in x && sep !in y && sep !in z
    ensures Split(x + [sep] + y + [sep] + z, sep) == [x, y, z]
  {
    assert x + [sep] + y + [sep] + z == x + [sep] + (y + [sep] + z);
    SplitAfterPiece(x, sep, y + [sep] + z);
    SplitAfterPiece(y, sep, z);
    SplitNoSep(z, sep);
  }

  /** The patch text cut at its first `-` is the number. */
  lemma PatchPiece(c: nat, suffix: Option<string>)
    ensures var sc := NatToString(c);
      Split(sc + (match suffix case None => "" case Some(x) => "-" + x), '-')[0] == sc
  {
    var sc := NatToString(c);
    NoDash(sc);
    if suffix.Some? {
      var tail := "-" + suffix.value;
      assert sc + tail == sc + ['-'] + suffix.value;
      SplitAfterPiece(sc, '-', suffix.value);
      assert Split(sc + tail, '-')[0] == sc;
    } else {
      assert sc + "" == sc;
      SplitNoSep(sc, '-');
    }
  }

  /** Writing three numbers as a version, with or without a dot-free
      suffix, and parsing it gives the numbers back. */
  lemma ParseVersionText(a: nat, b: nat, c: nat, suffix: Option<string>)
    requires suffix.Some? ==> '.' !in suffix.value
    ensures ParseVersion(VersionText(a, b, c, suffix)) == Some(Version(a, b, c))
  {
    var sa, sb, sc := NatToString(a), NatToString(b), NatToString(c);
    var tail := match suffix case None => "" case Some(x) => "-" + x;
    NoDot(sa); NoDot(sb); NoDot(sc);
    assert '.' !in sc + tail;
    var v := VersionText(a, b, c, suffix);
    assert v == sa + ['.'] + sb + ['.'] + (sc + tail);
    SplitThree(sa, sb, sc + tail, '.');
    PatchPiece(c, suffix);
    ParseIntOfNat(a); ParseIntOfNat(b); ParseIntOfNat(c);
    ParseVersionOfPieces(v, a, b, c);
  }

  lemma NoDot(s: string)
    requires forall i :: 0 <= i < |s| ==> IsDigit(s[i])
    ensures '.' !in s
  {
  }

  lemma NoDash(s: string)
    requires forall i :: 0 <= i < |s| ==> IsDigit(s[i])
    ensures '-' !in s
  {
  }

  /** A lone major component: minor and patch count as 0. */
  lemma ParseVersionMajorOnly(a: nat)
    ensures ParseVersion(NatToString(a)) == Some(Version(a, 0, 0))
  {
    var sa := NatToString(a);
    NoDot(sa);
    ParseIntOfNat(0); ParseIntOfNat(a);
    assert NatToString(0) == "0";
    SplitNoSep("0", '-');
    SplitNoSep(sa, '.');
    ShortVersion(sa, None, a, 0);
  }

  /** No patch component: it counts as 0. */
  lemma ParseVersionNoPatch(a: nat, b: nat)
    ensures ParseVersion(NatToString(a) + "." + NatToString(b)) == Some(Version(a, b, 0))
  {
    var sa, sb := NatToString(a), NatToString(b);
    NoDot(sa); NoDot(sb);
    ParseIntOfNat(0); ParseIntOfNat(a); ParseIntOfNat(b);
    assert NatToString(0) == "0";
    SplitNoSep("0", '-');
    SplitTwo(sa, sb, '.');
    ShortVersion(sa + "." + sb, Some(sb), a, b);
  }

  lemma ShortVersion(v: string, minor: Option<string>, a: int, b: int)
    requires var parts := Split(v, '.');
      && |parts| == (if minor.None? then 1 else 2)
      && ParseInt(parts[0]) == Some(a)
      && (minor.Some? ==> parts[1] == minor.value && ParseInt(minor.value) == Some(b))
      && (minor.None? ==> b == 0)
    requires ParseInt(Split("0", '-')[0]) == Some(0)
    ensures ParseVersion(v) == Some(Version(a, b, 0))
  {
  }

  /** A version whose first component holds a letter does not parse. */
  lemma ParseVersionRejectsLetters(v: string, i: nat)
    requires var first := Split(v, '.')[0];
      i < |first| && ('a' <= first[i] <= 'z' || 'A' <= first[i] <= 'Z')
    ensures ParseVersion(v).None?
  {
    ParseIntRejectsLetters(Split(v, '.')[0], i);
  }

  /** Tuple order on versions. */
  predicate Less(a: Version, b: Version) {
    || a.major < b.major
    || (a.major == b.major && a.minor < b.minor)
    || (a.major == b.major && a.minor == b.minor && a.patch < b.patch)
  }

  predicate AtMost(a: Version, b: Version) {
    Less(a, b) || a == b
  }

  /** `check_version_in_range`: False for None, otherwise `lo <= v < hi`. */
  predicate InRange(v: Option<Version>, lo: Version, hi: Version) {
    v.Some? && AtMost(lo, v.value) && Less(v.value, hi)
  }

  /** Tuple order is a strict total order. */
  lemma LessIsStrictTotal(a: Version, b: Version, c: Version)
    ensures !Less(a, a)
    ensures Less(a, b) && Less(b, c) ==> Less(a, c)
    ensures a == b || Less(a, b) || Less(b, a)
    ensures !(Less(a, b) && Less(b, a))
  {
  }

  /** The range is half-open: the lower bound is in, the upper bound is out. */
  lemma RangeHalfOpen(lo: Version, hi: Version)
    requires Less(lo, hi)
    ensures InRange(Some(lo), lo, hi) && !InRange(Some(hi), lo, hi) && !InRange(None, lo, hi)
  {
  }

  // ---------------------------------------------------------------------
  // The Dockerfile's `FROM python:` line
  // ---------------------------------------------------------------------

  /** Length of the leading run of non-whitespace characters. */
  function SpanNoSpace(s: string): (n: nat)
    ensures n <= |s|
    ensures HasNoSpace(s[..n])
    ensures n < |s| ==> IsSpace(s[n])
  {
    if |s| == 0 || IsSpace(s[0]) then 0
    else
      var n := SpanNoSpace(s[1..]);
      assert s[..n + 1] == [s[0]] + s[1..][..n];
      n + 1
  }

  /** `re.match(r'^FROM\s+python:(.+?)(?:\s|$)', line, re.IGNORECASE)`
      and `group(1).strip()`: FROM in any case, at least one whitespace
      character, `python:` in any case, then the shortest non-empty group
      (no newline in it) followed by whitespace or the end of the line. */
  function MatchFrom(line: string): (tag: Option<string>)
    ensures tag.Some? ==> HasNoSpace(tag.value)
  {
    if |line| < 4 || Lower(line[..4]) != "from" then None
    else
      var afterFrom := line[4..];
      var r1 := LStrip(afterFrom);
      if |r1| == |afterFrom| then None
      else if |r1| < 7 || Lower(r1[..7]) != "python:" then None
      else
        var rest := r1[7..];
        if |rest| == 0 || rest[0] == '\n' then None
        else
          var k := 1 + SpanNoSpace(rest[1..]);
          var group := rest[..k];
          assert group[1..] == rest[1..][..k - 1];
          GroupStrip(group);
          Some(Strip(group))
  }

  /** A group whose characters after the first are not whitespace strips to
      a string without whitespace. */
  lemma GroupStrip(g: string)
    requires |g| > 0 && HasNoSpace(g[1..])
    ensures HasNoSpace(Strip(g))
  {
    if IsSpace(g[0]) {
      assert LStrip(g) == LStrip(g[1..]);
      StripOfSpaceless(g[1..]);
      assert LStrip(g[1..]) == g[1..] by {
        if |g[1..]| > 0 {
          assert !IsSpace(g[1..][0]);
        }
      }
    } else {
      assert HasNoSpace(g) by {
        forall i | 0 <= i < |g| ensures !IsSpace(g[i]) {
          if i > 0 {
            assert g[i] == g[1..][i - 1];
          }
        }
      }
      StripOfSpaceless(g);
    }
  }

  /** How `MatchFrom` reads a line whose keywords are in place. */
  lemma MatchFromSteps(line: string, afterFrom: string, r1: string, rest: string)
    requires |line| >= 4 && Lower(line[..4]) == "from" && afterFrom == line[4..]
    requires r1 == LStrip(afterFrom) && |r1| < |afterFrom|
    requires |r1| >= 7 && Lower(r1[..7]) == "python:" && rest == r1[7..]
    requires |rest| > 0 && rest[0] != '\n'
    ensures MatchFrom(line) == Some(Strip(rest[..1 + SpanNoSpace(rest[1..])]))
  {
  }

  /** A `FROM python:<tag>` line, keywords in any letter case, matches with
      exactly that tag. */
  lemma MatchFromLine(from: string, spaces: string, python: string, tag: string, tail: string)
    requires Lower(from) == "from" && Lower(python) == "python:"
    requires |spaces| > 0 && forall i :: 0 <= i < |spaces| ==> IsSpace(spaces[i])
    requires |tag| > 0 && HasNoSpace(tag)
    requires tail == "" || IsSpace(tail[0])
    ensures MatchFrom(from + spaces + python + tag + tail) == Some(tag)
  {
    var rest := tag + tail;
    var r1 := python + rest;
    var afterFrom := spaces + r1;
    var line := from + afterFrom;
    Regroup(from, spaces, python, tag, tail);
    SplitAt(from, afterFrom);
    SplitAt(python, rest);
    assert !IsSpace(r1[0]) by {
      assert LowerChar(r1[0]) == 'p';
    }
    LStripSpaces(spaces, r1);
    TagSpan(tag, tail);
    StripOfSpaceless(tag);
    MatchFromSteps(line, afterFrom, r1, rest);
  }

  lemma SplitAt(a: string, b: string)
    ensures (a + b)[..|a|] == a && (a + b)[|a|..] == b
  {
  }

  /** The group after `python:` ends where the tag does. */
  lemma TagSpan(tag: string, tail: string)
    requires |tag| > 0 && HasNoSpace(tag)
    requires tail == "" || IsSpace(tail[0])
    ensures 1 + SpanNoSpace((tag + tail)[1..]) == |tag|
    ensures (tag + tail)[..|tag|] == tag
  {
    assert (tag + tail)[1..] == tag[1..] + tail;
    SpacelessTail(tag);
    SpanOf(tag[1..], tail);
  }

  lemma Regroup(a: string, b: string, c: string, d: string, e: string)
    ensures a + b + c + d + e == a + (b + (c + (d + e)))
  {
  }

  lemma SpacelessTail(s: string)
    requires |s| > 0 && HasNoSpace(s)
    ensures HasNoSpace(s[1..])
  {
    forall i | 0 <= i < |s| - 1 ensures !IsSpace(s[1..][i]) {
      assert s[1..][i] == s[i + 1];
    }
  }

  lemma {:induction false} LStripSpaces(spaces: string, s: string)
    requires forall i :: 0 <= i < |spaces| ==> IsSpace(spaces[i])
    requires |s| > 0 && !IsSpace(s[0])
    ensures LStrip(spaces + s) == s
  {
    if |spaces| > 0 {
      assert (spaces + s)[1..] == spaces[1..] + s;
      LStripSpaces(spaces[1..], s);
    } else {
      assert spaces + s == s;
    }
  }

  lemma {:induction false} SpanOf(word: string, tail: string)
    requires HasNoSpace(word)
    requires tail == "" || IsSpace(tail[0])
    ensures SpanNoSpace(word + tail) == |word|
  {
    if |word| > 0 {
      assert (word + tail)[1..] == word[1..] + tail;
      SpanOf(word[1..], tail);
    } else {
      assert word + tail == tail;
    }
  }

  /** The first present value, with its position. */
  function FirstSome<T>(xs: seq<Option<T>>): (r: Option<T>)
    ensures r.None? <==> forall i :: 0 <= i < |xs| ==> xs[i].None?
    ensures r.Some? ==> exists i :: 0 <= i < |xs| && xs[i] == r && forall j :: 0 <= j < i ==> xs[j].None?
  {
    if |xs| == 0 then None
    else if xs[0].Some? then xs[0]
    else
      var r := FirstSome(xs[1..]);
      assert r.Some? ==> exists i :: 0 <= i < |xs| && xs[i] == r && forall j :: 0 <= j < i ==> xs[j].None? by {
        if r.Some? {
          var i :| 0 <= i < |xs[1..]| && xs[1..][i] == r && forall j :: 0 <= j < i ==> xs[1..][j].None?;
          assert xs[i + 1] == r;
          forall j | 0 <= j < i + 1 ensures xs[j].None? {
            if j > 0 {
              assert xs[j] == xs[1..][j - 1];
            }
          }
        }
      }
      assert (forall i :: 0 <= i < |xs| ==> xs[i].None?) <==> r.None? by {
        if r.None? {
          forall i | 0 <= i < |xs| ensures xs[i].None? {
            if i > 0 {
              assert xs[i] == xs[1..][i - 1];
            }
          }
        }
      }
      r
  }

  /** The match of every line, in order. */
  function Matches(lines: seq<string>): (m: seq<Option<string>>)
    ensures |m| == |lines|
    ensures forall i :: 0 <= i < |lines| ==> m[i] == MatchFrom(lines[i])
    ensures forall i :: 0 <= i < |m| && m[i].Some? ==> HasNoSpace(m[i].value)
  {
    seq(|lines|, i requires 0 <= i < |lines| => MatchFrom(lines[i]))
  }

  /** `get_python_tag_from_dockerfile`: the tag of the first matching line;
      None where the script exits because no line matches. */
  function PythonTag(lines: seq<string>): (tag: Option<string>)
    ensures tag.None? <==> forall i :: 0 <= i < |lines| ==> MatchFrom(lines[i]).None?
    ensures tag.Some? ==> HasNoSpace(tag.value)
    ensures tag.Some? ==> exists i :: (0 <= i < |lines| && MatchFrom(lines[i]) == tag
      && forall j :: 0 <= j < i ==> MatchFrom(lines[j]).None?)
  {
    var m := Matches(lines);
    var tag := FirstSome(m);
    assert tag.Some? ==> HasNoSpace(tag.value) by {
      if tag.Some? {
        var i :| 0 <= i < |m| && m[i] == tag && forall j :: 0 <= j < i ==> m[j].None?;
      }
    }
    tag
  }

  // ---------------------------------------------------------------------
  // Base images
  // ---------------------------------------------------------------------

  /** `parse_version('3.13.11-slim') == (3, 13, 11)`. */
  lemma DefaultPythonVersionParses()
    ensures ParseVersion(DefaultPythonVersion) == Some(Version(3, 13, 11))
  {
    assert NatToString(3) == "3";
    assert NatToString(13) == "13";
    assert NatToString(11) == "11";
    assert VersionText(3, 13, 11, Some("slim")) == DefaultPythonVersion;
    ParseVersionText(3, 13, 11, Some("slim"));
  }

  /** `parse_version('8.0.44') == (8, 0, 44)`. */
  lemma DefaultMysqlVersionParses()
    ensures ParseVersion(DefaultMysqlVersion) == Some(Version(8, 0, 44))
  {
    assert NatToString(8) == "8";
    assert NatToString(0) == "0";
    assert NatToString(44) == "44";
    assert VersionText(8, 0, 44, None) == DefaultMysqlVersion;
    ParseVersionText(8, 0, 44, None);
  }

  /** `check_and_get_python_image`: the Dockerfile's tag when it parses into
      [3.10, 3.14), the default tag otherwise; None where the script exits
      for want of a tag. */
  function PythonImage(dockerfile: seq<string>): (image: Option<string>)
    ensures image.None? <==> PythonTag(dockerfile).None?
    ensures image.Some? ==>
      var tag := PythonTag(dockerfile).value;
      image.value == if InRange(ParseVersion(tag), PythonMin, PythonMax) then "python:" + tag
                     else "python:" + DefaultPythonVersion
  {
    match PythonTag(dockerfile)
    case None => None
    case Some(tag) =>
      if InRange(ParseVersion(tag), PythonMin, PythonMax) then Some("python:" + tag)
      else Some("python:" + DefaultPythonVersion)
  }

  /** Whatever the Dockerfile says, the image chosen carries a version in the
      supported range. */
  lemma PythonImageInRange(dockerfile: seq<string>)
    requires PythonTag(dockerfile).Some?
    ensures exists tag :: (PythonImage(dockerfile) == Some("python:" + tag)
      && InRange(ParseVersion(tag), PythonMin, PythonMax))
  {
    DefaultPythonVersionParses();
    var tag := PythonTag(dockerfile).value;
    if InRange(ParseVersion(tag), PythonMin, PythonMax) {
      assert PythonImage(dockerfile) == Some("python:" + tag);
    } else {
      assert PythonImage(dockerfile) == Some("python:" + DefaultPythonVersion);
    }
  }

  /** `check_and_get_mysql_image`: the default MySQL image when its version
      is in [8.0, 9.0); None where the script would exit. */
  function MysqlImage(): (image: Option<string>)
    ensures image.Some? ==> InRange(ParseVersion(DefaultMysqlVersion), MysqlMin, MysqlMax)
  {
    if InRange(ParseVersion(DefaultMysqlVersion), MysqlMin, MysqlMax) then Some("mysql:" + DefaultMysqlVersion) else None
  }

  /** The shipped default is in range, so the script never exits here. */
  lemma MysqlImageChosen()
    ensures MysqlImage() == Some("mysql:" + DefaultMysqlVersion)
  {
    DefaultMysqlVersionParses();
    assert Less(MysqlMin, Version(8, 0, 44));
    assert Less(Version(8, 0, 44), MysqlMax);
    assert InRange(ParseVersion(DefaultMysqlVersion), MysqlMin, MysqlMax);
  }

  // ---------------------------------------------------------------------
  // Script newlines (`write_sh_script`)
  // ---------------------------------------------------------------------

  /** `content.replace('\r\n', '\n').replace('\r', '\n')`. */
  function NormaliseNewlines(content: string): (r: string)
    ensures '\r' !in r
    ensures |r| <= |content|
  {
    ReplaceAllShorter(content);
    ReplaceChar(ReplaceAll(content, "\r\n", "\n"), '\r', '\n')
  }

  lemma {:induction false} ReplaceAllShorter(s: string)
    ensures |ReplaceAll(s, "\r\n", "\n")| <= |s|
  {
    if |s| > 0 {
      if StartsWith(s, "\r\n") {
        ReplaceAllShorter(s[2..]);
      } else {
        ReplaceAllShorter(s[1..]);
      }
    }
  }

  /** Normalising twice is normalising once. */
  lemma NormaliseIdempotent(content: string)
    ensures NormaliseNewlines(NormaliseNewlines(content)) == NormaliseNewlines(content)
  {
    var once := NormaliseNewlines(content);
    ReplaceAllAbsent(once, "\r\n", "\n");
    assert ReplaceChar(once, '\r', '\n') == once;
  }

  /** Text without carriage returns is left alone. */
  lemma NormaliseUnix(content: string)
    requires '\r' !in content
    ensures NormaliseNewlines(content) == content
  {
    ReplaceAllAbsent(content, "\r\n", "\n");
    assert ReplaceChar(content, '\r', '\n') == content;
  }

  /** Lines joined with CRLF come out joined with LF, one newline per CRLF. */
  lemma {:induction false} NormaliseCrlf(lines: seq<string>)
    requires forall k :: 0 <= k < |lines| ==> '\r' !in lines[k]
    ensures NormaliseNewlines(Join(lines, "\r\n")) == Join(lines, "\n")
  {
    CrlfReplaced(lines);
    NoCarriageReturn(lines, "\n");
    assert ReplaceChar(Join(lines, "\n"), '\r', '\n') == Join(lines, "\n");
  }

  lemma {:induction false} CrlfReplaced(lines: seq<string>)
    requires forall k :: 0 <= k < |lines| ==> '\r' !in lines[k]
    ensures ReplaceAll(Join(lines, "\r\n"), "\r\n", "\n") == Join(lines, "\n")
    decreases |lines|
  {
    if |lines| == 1 {
      ReplaceAllAbsent(lines[0], "\r\n", "\n");
    } else if |lines| > 1 {
      var rest := Join(lines[1..], "\r\n");
      assert Join(lines, "\r\n") == lines[0] + ("\r\n" + rest);
      ReplaceAllPrefix(lines[0], "\r\n" + rest, "\r\n", "\n");
      assert ("\r\n" + rest)[2..] == rest;
      CrlfReplaced(lines[1..]);
      assert Join(lines, "\n") == lines[0] + ("\n" + Join(lines[1..], "\n"));
    }
  }

  lemma {:induction false} NoCarriageReturn(lines: seq<string>, sep: string)
    requires forall k :: 0 <= k < |lines| ==> '\r' !in lines[k]
    requires '\r' !in sep
    ensures '\r' !in Join(lines, sep)
    decreases |lines|
  {
    if |lines| > 1 {
      NoCarriageReturn(lines[1..], sep);
    }
  }

  /** Lines joined with lone CRs (no line feeds inside) come out joined with LF. */
  lemma NormaliseCr(lines: seq<string>)
    requires forall k :: 0 <= k < |lines| ==> '\r' !in lines[k] && '\n' !in lines[k]
    ensures NormaliseNewlines(Join(lines, "\r")) == Join(lines, "\n")
  {
    var joined := Join(lines, "\r");
    NoCrlf(lines);
    ReplaceAllNoMatch(joined);
    CrToLf(lines);
  }

  /** A CR-joined text with no LF holds no CRLF. */
  lemma {:induction false} NoCrlf(lines: seq<string>)
    requires forall k :: 0 <= k < |lines| ==> '\n' !in lines[k]
    ensures '\n' !in Join(lines, "\r")
    decreases |lines|
  {
    if |lines| > 1 {
      NoCrlf(lines[1..]);
    }
  }

  lemma {:induction false} ReplaceAllNoMatch(s: string)
    requires '\n' !in s
    ensures ReplaceAll(s, "\r\n", "\n") == s
  {
    if |s| > 0 {
      assert !StartsWith(s, "\r\n") by {
        if |s| >= 2 {
          assert s[1] != '\n';
        }
      }
      ReplaceAllNoMatch(s[1..]);
    }
  }

  lemma {:induction false} CrToLf(lines: seq<string>)
    requires forall k :: 0 <= k < |lines| ==> '\r' !in lines[k]
    ensures ReplaceChar(Join(lines, "\r"), '\r', '\n') == Join(lines, "\n")
    decreases |lines|
  {
    if |lines| == 1 {
      assert ReplaceChar(lines[0], '\r', '\n') == lines[0];
    } else if |lines| > 1 {
      var a := lines[0];
      var rest := Join(lines[1..], "\r");
      CrToLf(lines[1..]);
      var s := Join(lines, "\r");
      assert s == a + "\r" + rest;
      var r := ReplaceChar(s, '\r', '\n');
      var want := a + "\n" + Join(lines[1..], "\n");
      assert |r| == |want|;
      forall i | 0 <= i < |r| ensures r[i] == want[i] {
        if i < |a| {
        } else if i == |a| {
        } else {
          assert s[i] == rest[i - |a| - 1];
          assert ReplaceChar(rest, '\r', '\n')[i - |a| - 1] == want[i];
        }
      }
    }
  }
}

=== FILE: config.dfy ===
/**
 The service configuration (app/config.py) and the configuration upload
 (`upload_config` in app/main.py).  Python checks none of the field types,
 so every field holds whatever JSON value the file gave it.  Reading and
 writing `Configure.json` is the decoded JSON value itself; the clock that
 stamps a save is the parameter `stamp`.
 */
module Config {
  import opened Text
  import opened Dict
  import opened Json

  /** The `MySQLConfig` dataclass. */
  datatype MysqlConfig = MysqlConfig(host: Value, port: Value, user: Value, passwd: Value, dbname: Value)

  /** The `AppConfig` dataclass. */
  datatype AppConfig = AppConfig(update: Value, mysql: MysqlConfig, sheetFilter: Value, extractFields: Value)

  const DefaultMysql := MysqlConfig(Str("localhost"), Int(3306), Str("root"), Str(""), Str("CapacityReport"))

  /** `AppConfig()`: every field at its declared default. */
  const Default := AppConfig(Str(""), DefaultMysql, List([]), List([]))

  /** `Configure.json` as `load` finds it. */
  datatype ConfigFile = Missing | Malformed | Parsed(data: Value)

  // ---------------------------------------------------------------------
  // load
  // ---------------------------------------------------------------------

  /** The `MySQLConfig(...)` built in `load`: each key that is present
      gives its value, each absent key independently takes its default. */
  function LoadMysql(m: Obj): (c: MysqlConfig)
    ensures HasKey(m, "host") ==> Get(m, "host") == Some(c.host)
    ensures HasKey(m, "port") ==> Get(m, "port") == Some(c.port)
    ensures HasKey(m, "user") ==> Get(m, "user") == Some(c.user)
    ensures HasKey(m, "passwd") ==> Get(m, "passwd") == Some(c.passwd)
    ensures HasKey(m, "dbname") ==> Get(m, "dbname") == Some(c.dbname)
    ensures !HasKey(m, "host") ==> c.host == Str("localhost")
    ensures !HasKey(m, "port") ==> c.port == Int(3306)
    ensures !HasKey(m, "user") ==> c.user == Str("root")
    ensures !HasKey(m, "passwd") ==> c.passwd == Str("")
    ensures !HasKey(m, "dbname") ==> c.dbname == Str("CapacityReport")
  {
    MysqlConfig(
      GetOr(m, "host", DefaultMysql.host),
      GetOr(m, "port", DefaultMysql.port),
      GetOr(m, "user", DefaultMysql.user),
      GetOr(m, "passwd", DefaultMysql.passwd),
      GetOr(m, "dbname", DefaultMysql.dbname))
  }

  /** `AppConfig.load`: the defaults when there is no file; None where Python
      raises, that is for text that is not JSON, for a document that is not
      an object, and for a `MySQL_DBInfo` that is not an object (its `.get`
      fails).  Each missing key takes its default. */
  function Load(file: ConfigFile): (r: Option<AppConfig>)
    ensures file.Missing? ==> r == Some(Default)
    ensures file.Malformed? ==> r.None?
    ensures file.Parsed? ==>
      (r.Some? <==> file.data.Object? && GetOr(file.data.fields, "MySQL_DBInfo", Object([])).Object?)
    ensures file.Parsed? && r.Some? ==>
      var d := file.data.fields;
      && (HasKey(d, "Update") ==> Get(d, "Update") == Some(r.value.update))
      && (!HasKey(d, "Update") ==> r.value.update == Str(""))
      && (HasKey(d, "SheetFilter") ==> Get(d, "SheetFilter") == Some(r.value.sheetFilter))
      && (!HasKey(d, "SheetFilter") ==> r.value.sheetFilter == List([]))
      && (HasKey(d, "ExtractField") ==> Get(d, "ExtractField") == Some(r.value.extractFields))
      && (!HasKey(d, "ExtractField") ==> r.value.extractFields == List([]))
      && (!HasKey(d, "MySQL_DBInfo") ==> r.value.mysql == DefaultMysql)
      && (HasKey(d, "MySQL_DBInfo") ==> r.value.mysql == LoadMysql(Get(d, "MySQL_DBInfo").value.fields))
  {
    match file
    case Missing => Some(Default)
    case Malformed => None
    case Parsed(data) =>
      if !data.Object? then None
      else
        var d := data.fields;
        var m := GetOr(d, "MySQL_DBInfo", Object([]));
        if !m.Object? then None
        else
          LoadMysqlEmpty();
          Some(AppConfig(
            GetOr(d, "Update", Default.update),
            LoadMysql(m.fields),
            GetOr(d, "SheetFilter", Default.sheetFilter),
            GetOr(d, "ExtractField", Default.extractFields)))
  }

  /** An empty `MySQL_DBInfo` gives the default connection settings. */
  lemma LoadMysqlEmpty()
    ensures LoadMysql([]) == DefaultMysql
  {
  }

  // ---------------------------------------------------------------------
  // save
  // ---------------------------------------------------------------------

  /** The `MySQL_DBInfo` object as written, with or without the password. */
  function MysqlFields(m: MysqlConfig, withPasswd: bool): (d: Obj)
    ensures DistinctKeys(d)
    ensures HasKey(d, "passwd") <==> withPasswd
  {
    var d := [Entry("host", m.host), Entry("port", m.port), Entry("user", m.user)]
      + (if withPasswd then [Entry("passwd", m.passwd)] else [])
      + [Entry("dbname", m.dbname)];
    assert HasKey(d, "passwd") ==> withPasswd by {
      if HasKey(d, "passwd") {
        var i :| 0 <= i < |d| && d[i].key == "passwd";
        assert i == 3;
      }
    }
    assert withPasswd ==> d[3].key == "passwd";
    d
  }

  datatype Saved = Saved(config: AppConfig, data: Value)

  /** `AppConfig.save`: the configuration with its new `Update` stamp, and
      the JSON document written to `Configure.json`. */
  function Save(cfg: AppConfig, stamp: string): (s: Saved)
    ensures s.config == cfg.(update := Str(stamp))
    ensures s.data.Object? && DistinctKeys(s.data.fields)
    ensures Keys(s.data.fields) == ["Update", "MySQL_DBInfo", "SheetFilter", "ExtractField"]
  {
    var d := [
      Entry("Update", Str(stamp)),
      Entry("MySQL_DBInfo", Object(MysqlFields(cfg.mysql, true))),
      Entry("SheetFilter", cfg.sheetFilter),
      Entry("ExtractField", cfg.extractFields)];
    assert Keys(d) == ["Update", "MySQL_DBInfo", "SheetFilter", "ExtractField"];
    Saved(cfg.(update := Str(stamp)), Object(d))
  }

  /** Every connection setting written by `save` reads back under its key. */
  lemma LoadMysqlFields(m: MysqlConfig)
    ensures LoadMysql(MysqlFields(m, true)) == m
  {
    var d := MysqlFields(m, true);
    assert d == [Entry("host", m.host), Entry("port", m.port), Entry("user", m.user),
                 Entry("passwd", m.passwd), Entry("dbname", m.dbname)];
    GetDistinct(d, 0);
    GetDistinct(d, 1);
    GetDistinct(d, 2);
    GetDistinct(d, 3);
    GetDistinct(d, 4);
  }

  /** What `save` writes, `load` reads back: the same connection settings,
      sheet filter and extraction fields, with the new stamp as `update`. */
  lemma SaveLoadRoundTrip(cfg: AppConfig, stamp: string)
    ensures Load(Parsed(Save(cfg, stamp).data)) == Some(cfg.(update := Str(stamp)))
  {
    var d := Save(cfg, stamp).data.fields;
    GetDistinct(d, 0);
    GetDistinct(d, 1);
    GetDistinct(d, 2);
    GetDistinct(d, 3);
    LoadMysqlFields(cfg.mysql);
  }

  // ---------------------------------------------------------------------
  // to_dict / to_dict_full
  // ---------------------------------------------------------------------

  /** The shape both projections share: `update`, then the given `mysql`
      object, then the sheet filter and the extraction fields. */
  function Projection(cfg: AppConfig, mysql: Obj): (d: Obj)
    ensures Keys(d) == ["update", "mysql", "sheet_filter", "extract_fields"]
    ensures d[1].value == Object(mysql)
    ensures Get(d, "update") == Some(cfg.update)
    ensures Get(d, "sheet_filter") == Some(cfg.sheetFilter)
    ensures Get(d, "extract_fields") == Some(cfg.extractFields)
  {
    var d := [
      Entry("update", cfg.update),
      Entry("mysql", Object(mysql)),
      Entry("sheet_filter", cfg.sheetFilter),
      Entry("extract_fields", cfg.extractFields)];
    assert Keys(d) == ["update", "mysql", "sheet_filter", "extract_fields"];
    GetDistinct(d, 0);
    GetDistinct(d, 2);
    GetDistinct(d, 3);
    d
  }

  /** `to_dict_full`: the configuration for the edit form, password included. */
  function ToDictFull(cfg: AppConfig): (d: Obj)
    ensures Keys(d) == ["update", "mysql", "sheet_filter", "extract_fields"]
    ensures d[1].value.Object? && Get(d[1].value.fields, "passwd") == Some(cfg.mysql.passwd)
    ensures d[1].value.Object? && LoadMysql(d[1].value.fields) == cfg.mysql
    ensures Get(d, "update") == Some(cfg.update)
    ensures Get(d, "sheet_filter") == Some(cfg.sheetFilter)
    ensures Get(d, "extract_fields") == Some(cfg.extractFields)
  {
    var m := MysqlFields(cfg.mysql, true);
    GetDistinct(m, 3);
    LoadMysqlFields(cfg.mysql);
    Projection(cfg, m)
  }

  /** `to_dict`: the configuration sent to the browser, without the
      password. */
  function ToDict(cfg: AppConfig): (d: Obj)
    ensures Keys(d) == ["update", "mysql", "sheet_filter", "extract_fields"]
    ensures d[1].value.Object? && !HasKey(d[1].value.fields, "passwd")
    ensures d[1].value.Object? && Get(d[1].value.fields, "host") == Some(cfg.mysql.host)
    ensures d[1].value.Object? && Get(d[1].value.fields, "port") == Some(cfg.mysql.port)
    ensures d[1].value.Object? && Get(d[1].value.fields, "user") == Some(cfg.mysql.user)
    ensures d[1].value.Object? && Get(d[1].value.fields, "dbname") == Some(cfg.mysql.dbname)
    ensures Get(d, "update") == Some(cfg.update)
    ensures Get(d, "sheet_filter") == Some(cfg.sheetFilter)
    ensures Get(d, "extract_fields") == Some(cfg.extractFields)
  {
    var m := MysqlFields(cfg.mysql, false);
    assert m == [Entry("host", cfg.mysql.host), Entry("port", cfg.mysql.port),
                 Entry("user", cfg.mysql.user), Entry("dbname", cfg.mysql.dbname)];
    GetDistinct(m, 0);
    GetDistinct(m, 1);
    GetDistinct(m, 2);
    GetDistinct(m, 3);
    Projection(cfg, m)
  }

  /** `to_dict` is `to_dict_full` with `mysql.passwd` removed and nothing
      else changed. */
  lemma ToDictHidesOnlyPassword(cfg: AppConfig)
    ensures var full := ToDictFull(cfg);
      ToDict(cfg) == full[1 := Entry("mysql", Object(Remove(full[1].value.fields, "passwd")))]
  {
    var shown, all := MysqlFields(cfg.mysql, false), MysqlFields(cfg.mysql, true);
    RemovePasswd(cfg.mysql);
    assert ToDictFull(cfg) == Projection(cfg, all);
    assert ToDict(cfg) == Projection(cfg, shown);
    ProjectionSwap(cfg, all, shown);
  }

  /** Replacing the `mysql` object of a projection gives the projection of
      the replacement. */
  lemma ProjectionSwap(cfg: AppConfig, m: Obj, m': Obj)
    ensures Projection(cfg, m)[1 := Entry("mysql", Object(m'))] == Projection(cfg, m')
  {
    var a, b := Projection(cfg, m), Projection(cfg, m');
    assert a == [a[0], a[1], a[2], a[3]] && b == [b[0], b[1], b[2], b[3]];
  }

  /** Dropping `passwd` from the written connection settings leaves the
      settings `to_dict` shows. */
  lemma RemovePasswd(m: MysqlConfig)
    ensures Remove(MysqlFields(m, true), "passwd") == MysqlFields(m, false)
  {
    var host, port, user := Entry("host", m.host), Entry("port", m.port), Entry("user", m.user);
    var pw, db := Entry("passwd", m.passwd), Entry("dbname", m.dbname);
    assert MysqlFields(m, true) == [host] + ([port] + ([user] + ([pw] + [db])));
    assert MysqlFields(m, false) == [host] + ([port] + ([user] + [db]));
    assert Remove([db], "passwd") == [db];
    RemoveCons(pw, [db], "passwd");
    RemoveCons(user, [pw] + [db], "passwd");
    RemoveCons(port, [user] + ([pw] + [db]), "passwd");
    RemoveCons(host, [port] + ([user] + ([pw] + [db])), "passwd");
  }

  // ---------------------------------------------------------------------
  // upload_config
  // ---------------------------------------------------------------------

  /** The MySQL part of the merge: each key present in the upload replaces
      the current value, each absent key keeps it. */
  function MergeMysql(m: MysqlConfig, upload: Obj): (r: MysqlConfig)
    ensures HasKey(upload, "host") ==> Get(upload, "host") == Some(r.host)
    ensures HasKey(upload, "port") ==> Get(upload, "port") == Some(r.port)
    ensures HasKey(upload, "user") ==> Get(upload, "user") == Some(r.user)
    ensures HasKey(upload, "passwd") ==> Get(upload, "passwd") == Some(r.passwd)
    ensures HasKey(upload, "dbname") ==> Get(upload, "dbname") == Some(r.dbname)
    ensures !HasKey(upload, "host") ==> r.host == m.host
    ensures !HasKey(upload, "port") ==> r.port == m.port
    ensures !HasKey(upload, "user") ==> r.user == m.user
    ensures !HasKey(upload, "passwd") ==> r.passwd == m.passwd
    ensures !HasKey(upload, "dbname") ==> r.dbname == m.dbname
  {
    MysqlConfig(
      GetOr(upload, "host", m.host),
      GetOr(upload, "port", m.port),
      GetOr(upload, "user", m.user),
      GetOr(upload, "passwd", m.passwd),
      GetOr(upload, "dbname", m.dbname))
  }

  /** A `SheetFilter` or `ExtractField` from an upload: kept when it is a
      list, replaced by `[]` otherwise. */
  function ListOrEmpty(v: Value): (r: Value)
    ensures r.List?
    ensures v.List? ==> r == v
    ensures !v.List? ==> r == List([])
  {
    if v.List? then v else List([])
  }

  /** The merge in `upload_config`: only `MySQL_DBInfo` (when it is an
      object), `SheetFilter` and `ExtractField` are looked at; a key that is
      absent leaves its part of the configuration as it was. */
  function Merge(cfg: AppConfig, upload: Obj): (r: AppConfig)
    ensures r.update == cfg.update
    ensures !(HasKey(upload, "MySQL_DBInfo") && Get(upload, "MySQL_DBInfo").value.Object?) ==> r.mysql == cfg.mysql
    ensures HasKey(upload, "MySQL_DBInfo") && Get(upload, "MySQL_DBInfo").value.Object? ==>
      r.mysql == MergeMysql(cfg.mysql, Get(upload, "MySQL_DBInfo").value.fields)
    ensures !HasKey(upload, "SheetFilter") ==> r.sheetFilter == cfg.sheetFilter
    ensures HasKey(upload, "SheetFilter") ==> r.sheetFilter == ListOrEmpty(Get(upload, "SheetFilter").value)
    ensures !HasKey(upload, "ExtractField") ==> r.extractFields == cfg.extractFields
    ensures HasKey(upload, "ExtractField") ==> r.extractFields == ListOrEmpty(Get(upload, "ExtractField").value)
  {
    var mysql :=
      match Get(upload, "MySQL_DBInfo")
      case Some(v) => if v.Object? then MergeMysql(cfg.mysql, v.fields) else cfg.mysql
      case None => cfg.mysql;
    var sheets :=
      match Get(upload, "SheetFilter")
      case Some(v) => ListOrEmpty(v)
      case None => cfg.sheetFilter;
    var fields :=
      match Get(upload, "ExtractField")
      case Some(v) => ListOrEmpty(v)
      case None => cfg.extractFields;
    AppConfig(cfg.update, mysql, sheets, fields)
  }

  /** Applying the same upload twice is applying it once. */
  lemma MergeIdempotent(cfg: AppConfig, upload: Obj)
    ensures Merge(Merge(cfg, upload), upload) == Merge(cfg, upload)
  {
  }

  /** An upload with none of the three keys changes nothing. */
  lemma MergeNothing(cfg: AppConfig, upload: Obj)
    requires !HasKey(upload, "MySQL_DBInfo") && !HasKey(upload, "SheetFilter") && !HasKey(upload, "ExtractField")
    ensures Merge(cfg, upload) == cfg
  {
  }

  /** The answer to a configuration upload. */
  datatype ConfigUpload = Rejected(code: int) | Accepted(saved: Saved)

  /** `upload_config`: 400 for a file name that does not end in `.json`, for
      content that is not UTF-8 JSON (`body` None) and for a document that
      is not an object; otherwise the merged configuration is saved. */
  function UploadConfig(cfg: AppConfig, filename: string, body: Option<Value>, stamp: string): (r: ConfigUpload)
    ensures r.Rejected? ==> r.code == 400
    ensures r.Accepted? <==> EndsWith(filename, ".json") && body.Some? && body.value.Object?
    ensures r.Accepted? ==> r.saved.config == Merge(cfg, body.value.fields).(update := Str(stamp))
  {
    if !EndsWith(filename, ".json") then Rejected(400)
    else if body.None? || !body.value.Object? then Rejected(400)
    else Accepted(Save(Merge(cfg, body.value.fields), stamp))
  }

  /** After an accepted upload the service would load exactly the
      configuration it now holds. */
  lemma UploadThenLoad(cfg: AppConfig, filename: string, body: Option<Value>, stamp: string)
    requires UploadConfig(cfg, filename, body, stamp).Accepted?
    ensures var s := UploadConfig(cfg, filename, body, stamp).saved;
      Load(Parsed(s.data)) == Some(s.config)
  {
    SaveLoadRoundTrip(Merge(cfg, body.value.fields), stamp);
  }
}

=== FILE: database.dfy ===
/**
 The SQL text and arithmetic of `DatabaseManager`: the INSERT and CREATE
 TABLE statements built from column lists, the batching of `bulk_insert`,
 the LIMIT/OFFSET arithmetic and WHERE clause of `query_table`, and how
 `execute_sql` tells a query from a statement.

 The connection itself is an input: what the server answers to a statement
 (rows, an affected-row count, or an error) is given, not computed.
 */
module Database {
  import opened Text
  import opened Dict

  // ---------------------------------------------------------------------
  // Quoted identifier lists
  // ---------------------------------------------------------------------

  /** An identifier in backticks followed by `suffix`: `` `name` `` for the
      INSERT column list, `` `name` VARCHAR(255) `` for CREATE TABLE and
      `` `name` LIKE %s `` for a filter condition. */
  function Item(name: string, suffix: string): string {
    "`" + name + "`" + suffix
  }

  /** `sep.join(f"`{n}`{suffix}" for n in names)`. */
  function Items(names: seq<string>, suffix: string, sep: string): string
    decreases |names|
  {
    if |names| == 0 then ""
    else if |names| == 1 then Item(names[0], suffix)
    else Item(names[0], suffix) + sep + Items(names[1..], suffix, sep)
  }

  predicate Unquoted(names: seq<string>) {
    forall i :: 0 <= i < |names| ==> '`' !in names[i]
  }

  predicate NoPercent(names: seq<string>) {
    forall i :: 0 <= i < |names| ==> '%' !in names[i]
  }

  /** Reads one item off the front of `s`: the identifier up to the next
      backtick, and what follows the suffix. */
  function ParseItem(s: string, suffix: string): (r: Option<(string, string)>)
    ensures r.Some? ==> |r.value.1| < |s|
  {
    if |s| == 0 || s[0] != '`' || '`' !in s[1..] then None
    else
      var j := 1 + IndexOf(s[1..], '`');
      var after := s[j + 1..];
      if !StartsWith(after, suffix) then None
      else Some((s[1..j], after[|suffix|..]))
  }

  /** Reads back a list written by `Items`: the identifier between each pair
      of backticks, each pair followed by `suffix`, pairs separated by `sep`. */
  function ParseItems(s: string, suffix: string, sep: string): Option<seq<string>>
    decreases |s|
  {
    match ParseItem(s, suffix)
    case None => None
    case Some((name, rest)) =>
      if rest == "" then Some([name])
      else if |sep| == 0 || !StartsWith(rest, sep) then None
      else
        match ParseItems(rest[|sep|..], suffix, sep)
        case None => None
        case Some(names) => Some([name] + names)
  }

  lemma {:induction false} IndexOfAfterPiece(name: string, rest: string)
    requires '`' !in name
    ensures '`' in name + "`" + rest
    ensures IndexOf(name + "`" + rest, '`') == |name|
  {
    var s := name + "`" + rest;
    assert s[|name|] == '`';
    if |name| > 0 {
      assert s[1..] == name[1..] + "`" + rest;
      IndexOfAfterPiece(name[1..], rest);
    }
  }

  /** An item whose identifier holds no backtick reads back as itself. */
  lemma ParseItemOf(name: string, suffix: string, rest: string)
    requires '`' !in name
    ensures ParseItem(Item(name, suffix) + rest, suffix) == Some((name, rest))
  {
    var s := Item(name, suffix) + rest;
    assert s == "`" + (name + "`" + (suffix + rest));
    assert s[1..] == name + "`" + (suffix + rest);
    IndexOfAfterPiece(name, suffix + rest);
    var j := 1 + |name|;
    assert s[1..j] == name;
    assert s[j + 1..] == suffix + rest;
    assert (suffix + rest)[|suffix|..] == rest;
  }

  lemma ParseItemsLast(s: string, suffix: string, sep: string, name: string)
    requires ParseItem(s, suffix) == Some((name, ""))
    ensures ParseItems(s, suffix, sep) == Some([name])
  {
  }

  lemma ParseItemsMore(s: string, suffix: string, sep: string, name: string, rest: string, names: seq<string>)
    requires ParseItem(s, suffix) == Some((name, rest))
    requires |sep| > 0 && |rest| > 0 && StartsWith(rest, sep)
    requires ParseItems(rest[|sep|..], suffix, sep) == Some(names)
    ensures ParseItems(s, suffix, sep) == Some([name] + names)
  {
  }

  /** Writing identifiers free of backticks and reading them back gives the
      same identifiers, in the same order. */
  lemma {:induction false} ParseItemsRoundTrip(names: seq<string>, suffix: string, sep: string)
    requires |names| > 0 && Unquoted(names) && |sep| > 0
    ensures ParseItems(Items(names, suffix, sep), suffix, sep) == Some(names)
    decreases |names|
  {
    var s := Items(names, suffix, sep);
    if |names| == 1 {
      ParseItemOf(names[0], suffix, "");
      assert s == Item(names[0], suffix) + "";
      ParseItemsLast(s, suffix, sep, names[0]);
      assert names == [names[0]];
    } else {
      var tail := names[1..];
      var restText := sep + Items(tail, suffix, sep);
      assert s == Item(names[0], suffix) + restText;
      ParseItemOf(names[0], suffix, restText);
      assert restText[|sep|..] == Items(tail, suffix, sep);
      ParseItemsRoundTrip(tail, suffix, sep);
      ParseItemsMore(s, suffix, sep, names[0], restText, tail);
      assert [names[0]] + tail == names;
    }
  }

  /** The number of `%` characters in an `Items` list is the number of `%`
      in the suffixes, when the identifiers hold none. */
  lemma {:induction false} ItemsPercentCount(names: seq<string>, suffix: string, sep: string)
    requires NoPercent(names) && '%' !in sep
    ensures CountChar(Items(names, suffix, sep), '%') == |names| * CountChar(suffix, '%')
    decreases |names|
  {
    if |names| > 0 {
      var head := Item(names[0], suffix);
      CountCharAppend("`" + names[0], "`", '%');
      CountCharAppend("`", names[0], '%');
      CountCharAppend("`" + names[0] + "`", suffix, '%');
      CountCharAbsent(names[0], '%');
      assert CountChar(head, '%') == CountChar(suffix, '%');
      if |names| > 1 {
        var tail := names[1..];
        ItemsPercentCount(tail, suffix, sep);
        CountCharAppend(head, sep, '%');
        CountCharAppend(head + sep, Items(tail, suffix, sep), '%');
        CountCharAbsent(sep, '%');
        assert |names| * CountChar(suffix, '%') == CountChar(suffix, '%') + |tail| * CountChar(suffix, '%');
      }
    }
  }

  // ---------------------------------------------------------------------
  // Statement text (`bulk_insert`, `create_table_from_columns`)
  // ---------------------------------------------------------------------

  function Quote(name: string): string {
    "`" + name + "`"
  }

  /** `%s, %s, ...`, one placeholder per column. */
  function Placeholders(n: nat): (r: string)
    ensures CountChar(r, '%') == n
  {
    if n == 0 then ""
    else if n == 1 then "%s"
    else
      CountCharAppend("%s, ", Placeholders(n - 1), '%');
      "%s, " + Placeholders(n - 1)
  }

  const InsertPrefix := "INSERT INTO "
  const CreatePrefix := "CREATE TABLE IF NOT EXISTS "
  const ColumnType := " VARCHAR(255)"
  const TableOptions := " ENGINE=InnoDB DEFAULT CHARSET=utf8mb4"

  /** The INSERT of `bulk_insert`: the quoted columns in the given order and
      one `%s` placeholder per column. */
  function InsertSql(table: string, columns: seq<string>): (sql: string)
    ensures StartsWith(sql, InsertPrefix + Quote(table) + " (")
  {
    InsertHead(table) + Items(columns, "", ", ") + InsertTail(|columns|)
  }

  function InsertHead(table: string): string {
    InsertPrefix + Quote(table) + " ("
  }

  function InsertTail(n: nat): string {
    ") VALUES (" + Placeholders(n) + ")"
  }

  /** The INSERT carries exactly one `%s` placeholder per column, when no
      identifier holds a `%` of its own. */
  lemma InsertPlaceholders(table: string, columns: seq<string>)
    requires NoPercent(columns) && '%' !in table
    ensures CountChar(InsertSql(table, columns), '%') == |columns|
  {
    var head := InsertHead(table);
    var cols := Items(columns, "", ", ");
    ItemsPercentCount(columns, "", ", ");
    NoPercentCount(head);
    TailPercents(|columns|);
    CountCharAppend(head, cols, '%');
    CountCharAppend(head + cols, InsertTail(|columns|), '%');
  }

  lemma NoPercentCount(s: string)
    requires '%' !in s
    ensures CountChar(s, '%') == 0
  {
    CountCharAbsent(s, '%');
  }

  /** The text after the column list holds the placeholders' `%` and no
      other. */
  lemma TailPercents(n: nat)
    ensures CountChar(InsertTail(n), '%') == n
  {
    var ph := Placeholders(n);
    CountCharAbsent(") VALUES (", '%');
    CountCharAbsent(")", '%');
    CountCharAppend(") VALUES (", ph, '%');
    CountCharAppend(") VALUES (" + ph, ")", '%');
  }

  /** The middle part of a three-part concatenation. */
  lemma Middle(a: string, b: string, c: string)
    ensures |a| + |b| <= |a + b + c|
    ensures (a + b + c)[|a|..|a| + |b|] == b
  {
    assert a + b + c == a + (b + c);
    assert (a + (b + c))[|a|..] == b + c;
    assert (b + c)[..|b|] == b;
  }

  /** The column list of the INSERT reads back as the given columns. */
  lemma InsertListsColumns(table: string, columns: seq<string>)
    requires |columns| > 0 && Unquoted(columns)
    ensures var sql := InsertSql(table, columns);
      var start := |InsertPrefix + Quote(table) + " ("|;
      var end := start + |Items(columns, "", ", ")|;
      && end <= |sql|
      && ParseItems(sql[start..end], "", ", ") == Some(columns)
  {
    Middle(InsertHead(table), Items(columns, "", ", "), InsertTail(|columns|));
    ParseItemsRoundTrip(columns, "", ", ");
  }

  /** The DDL of `create_table_from_columns`: IF NOT EXISTS, and every column
      declared `VARCHAR(255)` in the given order. */
  function CreateTableSql(table: string, columns: seq<string>): (sql: string)
    ensures StartsWith(sql, CreatePrefix + Quote(table) + " (")
  {
    CreateHead(table) + Items(columns, ColumnType, ", ") + (")" + TableOptions)
  }

  function CreateHead(table: string): string {
    CreatePrefix + Quote(table) + " ("
  }

  /** The column definitions of the DDL read back as the given columns, each
      typed `VARCHAR(255)`. */
  lemma CreateTableDeclaresColumns(table: string, columns: seq<string>)
    requires |columns| > 0 && Unquoted(columns)
    ensures var sql := CreateTableSql(table, columns);
      var start := |CreatePrefix + Quote(table) + " ("|;
      var end := start + |Items(columns, ColumnType, ", ")|;
      && end <= |sql|
      && ParseItems(sql[start..end], ColumnType, ", ") == Some(columns)
  {
    Middle(CreateHead(table), Items(columns, ColumnType, ", "), ")" + TableOptions);
    ParseItemsRoundTrip(columns, ColumnType, ", ");
  }

  // ---------------------------------------------------------------------
  // Batching (`bulk_insert`)
  // ---------------------------------------------------------------------

  type Row = seq<string>

  function Concat(batches: seq<seq<Row>>): seq<Row> {
    if |batches| == 0 then [] else Concat(batches[..|batches| - 1]) + batches[|batches| - 1]
  }

  function Min(a: int, b: int): int {
    if a < b then a else b
  }

  /** Appending a batch appends its rows. */
  lemma ConcatSnoc(batches: seq<seq<Row>>, batch: seq<Row>)
    ensures Concat(batches + [batch]) == Concat(batches) + batch
  {
    assert (batches + [batch])[..|batches|] == batches;
  }

  lemma PrefixSnoc(data: seq<Row>, i: nat, end: nat)
    requires i <= end <= |data|
    ensures data[..end] == data[..i] + data[i..end]
  {
  }

  lemma MulStep(n: nat, b: int)
    ensures (n + 1) * b == n * b + b
  {
  }

  datatype BulkResult =
    | NoData                         // empty data: returns 0, opens no connection
    | BadBatchSize                   // `range` with step 0 raises ValueError
    | Sent(sql: string, batches: seq<seq<Row>>, inserted: nat)

  /** `bulk_insert`: one `executemany` per slice `data[i:i+batch_size]` for
      `i` in `range(0, len(data), batch_size)`, then one commit. */
  method BulkInsert(table: string, columns: seq<string>, data: seq<Row>, batchSize: int) returns (r: BulkResult)
    ensures |data| == 0 <==> r == NoData
    ensures |data| > 0 && batchSize == 0 <==> r == BadBatchSize
    ensures |data| > 0 && batchSize < 0 ==> r == Sent(InsertSql(table, columns), [], 0)
    ensures |data| > 0 && batchSize > 0 ==>
      && r.Sent?
      && r.sql == InsertSql(table, columns)
      && Concat(r.batches) == data
      && (forall k :: 0 <= k < |r.batches| ==> 0 < |r.batches[k]| <= batchSize)
      && (forall k :: 0 <= k < |r.batches| - 1 ==> |r.batches[k]| == batchSize)
      && (|r.batches| - 1) * batchSize < |data| <= |r.batches| * batchSize
      && r.inserted == |data|
  {
    if |data| == 0 {
      return NoData;
    }
    if batchSize == 0 {
      return BadBatchSize;
    }
    var sql := InsertSql(table, columns);
    var batches: seq<seq<Row>> := [];
    var inserted := 0;
    if batchSize < 0 {
      return Sent(sql, batches, inserted);
    }
    var i := 0;
    while i < |data|
      invariant i == |batches| * batchSize
      invariant |batches| > 0 ==> i - batchSize < |data|
      invariant Concat(batches) == data[..Min(i, |data|)]
      invariant inserted == |Concat(batches)|
      invariant forall k :: 0 <= k < |batches| ==> 0 < |batches[k]| <= batchSize
      invariant forall k :: 0 <= k < |batches| - 1 ==> |batches[k]| == batchSize
      invariant |batches| > 0 && i < |data| ==> |batches[|batches| - 1]| == batchSize
      decreases |data| - i
    {
      var end := Min(i + batchSize, |data|);
      var batch := data[i..end];
      ConcatSnoc(batches, batch);
      PrefixSnoc(data, i, end);
      MulStep(|batches|, batchSize);
      batches := batches + [batch];
      inserted := inserted + |batch|;
      i := i + batchSize;
    }
    return Sent(sql, batches, inserted);
  }

  // ---------------------------------------------------------------------
  // Pagination and filters (`query_table`)
  // ---------------------------------------------------------------------

  /** The OFFSET of a page: rows before page `page` (pages count from 1). */
  function Offset(page: int, pageSize: int): int {
    (page - 1) * pageSize
  }

  /** Python's `a // b`: the quotient rounded towards negative infinity. */
  function FloorDiv(a: int, b: int): (q: int)
    requires b != 0
    ensures b > 0 ==> q * b <= a < q * b + b
    ensures b < 0 ==> q * b >= a > q * b + b
  {
    if b > 0 then a / b else (-a) / (-b)
  }

  /** `total_pages`: `(total + page_size - 1) // page_size`, which raises
      ZeroDivisionError (None here) when `page_size` is 0.  For a positive
      page size it is the number of pages needed for `total` rows. */
  function TotalPages(total: nat, pageSize: int): (r: Option<int>)
    ensures r.None? <==> pageSize == 0
    ensures pageSize > 0 ==> r.Some? && r.value >= 0 && (r.value - 1) * pageSize < total <= r.value * pageSize
  {
    if pageSize == 0 then None else Some(FloorDiv(total + pageSize - 1, pageSize))
  }

  /** With a positive page size, pages 1..total_pages each start at a row
      that exists, and the page after the last starts past the end. */
  lemma PagesCoverRows(total: nat, pageSize: int, page: int)
    requires pageSize > 0
    ensures var n := TotalPages(total, pageSize).value;
      && (1 <= page <= n ==> 0 <= Offset(page, pageSize) < total)
      && Offset(n + 1, pageSize) >= total
  {
    var n := TotalPages(total, pageSize).value;
    if 1 <= page <= n {
      assert Offset(page, pageSize) <= Offset(n, pageSize) by {
        assert (n - page) * pageSize >= 0;
      }
    }
  }

  /** Filter entries with a non-empty value, in dictionary order. */
  function Qualifying(filters: seq<Entry<string, string>>): (r: seq<Entry<string, string>>)
    ensures forall k :: 0 <= k < |r| ==> r[k] in filters && r[k].value != ""
    ensures forall e :: e in filters && e.value != "" ==> e in r
  {
    if |filters| == 0 then []
    else if filters[0].value != "" then [filters[0]] + Qualifying(filters[1..])
    else Qualifying(filters[1..])
  }

  /** The filters kept from two runs are those of the first run followed
      by those of the second, so the kept filters stay in their order. */
  lemma {:induction false} QualifyingAppend(a: seq<Entry<string, string>>, b: seq<Entry<string, string>>)
    ensures Qualifying(a + b) == Qualifying(a) + Qualifying(b)
  {
    if |a| == 0 {
      assert a + b == b;
    } else {
      assert (a + b)[0] == a[0];
      assert (a + b)[1..] == a[1..] + b;
      QualifyingAppend(a[1..], b);
    }
  }

  /** One filter is kept exactly when its value is non-empty. */
  lemma QualifyingOne(e: Entry<string, string>)
    ensures Qualifying([e]) == if e.value != "" then [e] else []
  {
    assert [e][1..] == [];
  }

  datatype Where = Where(clause: string, params: seq<string>)

  const LikeSuffix := " LIKE %s"
  const AndSep := " AND "
  const WherePrefix := "WHERE "

  /** The WHERE clause and its parameters: one `` `col` LIKE %s `` condition
      and one `%val%` parameter per entry with a non-empty value, conditions
      joined by AND; no clause at all when no entry qualifies (or there are
      no filters). */
  function BuildWhere(filters: Option<seq<Entry<string, string>>>): (w: Where)
    ensures var q := if filters.None? then [] else Qualifying(filters.value);
      && |w.params| == |q|
      && (forall k :: 0 <= k < |q| ==> w.params[k] == "%" + q[k].value + "%")
      && (w.clause == "" <==> |q| == 0)
      && (|q| > 0 ==> StartsWith(w.clause, WherePrefix))
  {
    var q := if filters.None? then [] else Qualifying(filters.value);
    var cols := seq(|q|, k requires 0 <= k < |q| => q[k].key);
    var params := seq(|q|, k requires 0 <= k < |q| => "%" + q[k].value + "%");
    if |q| == 0 then Where("", params)
    else Where(WherePrefix + Items(cols, LikeSuffix, AndSep), params)
  }

  /** Qualifying filter entries whose column names hold neither a backtick
      nor a `%`. */
  predicate PlainColumns(filters: seq<Entry<string, string>>) {
    var q := Qualifying(filters);
    forall k :: 0 <= k < |q| ==> '`' !in q[k].key && '%' !in q[k].key
  }

  /** The conditions read back as the qualifying columns, in order. */
  lemma WhereConditions(filters: seq<Entry<string, string>>)
    requires |Qualifying(filters)| > 0 && PlainColumns(filters)
    ensures var q := Qualifying(filters);
      var w := BuildWhere(Some(filters));
      ParseItems(w.clause[|WherePrefix|..], LikeSuffix, AndSep) == Some(seq(|q|, k requires 0 <= k < |q| => q[k].key))
  {
    var q := Qualifying(filters);
    var cols := seq(|q|, k requires 0 <= k < |q| => q[k].key);
    var w := BuildWhere(Some(filters));
    assert w.clause == WherePrefix + Items(cols, LikeSuffix, AndSep);
    assert w.clause[|WherePrefix|..] == Items(cols, LikeSuffix, AndSep);
    ParseItemsRoundTrip(cols, LikeSuffix, AndSep);
  }

  /** The clause holds exactly one `%s` per parameter. */
  lemma WherePlaceholders(filters: seq<Entry<string, string>>)
    requires PlainColumns(filters)
    ensures var w := BuildWhere(Some(filters));
      CountChar(w.clause, '%') == |w.params|
  {
    var q := Qualifying(filters);
    var cols := seq(|q|, k requires 0 <= k < |q| => q[k].key);
    if |q| > 0 {
      assert NoPercent(cols);
      ClausePercents(WherePrefix, cols);
    }
  }

  /** A prefix without `%` followed by the conditions holds one `%` per
      condition. */
  lemma ClausePercents(prefix: string, cols: seq<string>)
    requires NoPercent(cols) && '%' !in prefix
    ensures CountChar(prefix + Items(cols, LikeSuffix, AndSep), '%') == |cols|
  {
    LikeItemsPercents(cols);
    NoPercentCount(prefix);
    PrefixedPercents(prefix, Items(cols, LikeSuffix, AndSep));
  }

  lemma LikeItemsPercents(cols: seq<string>)
    requires NoPercent(cols)
    ensures CountChar(Items(cols, LikeSuffix, AndSep), '%') == |cols|
  {
    ItemsPercentCount(cols, LikeSuffix, AndSep);
    LikeSuffixPercent();
  }

  lemma PrefixedPercents(prefix: string, s: string)
    requires CountChar(prefix, '%') == 0
    ensures CountChar(prefix + s, '%') == CountChar(s, '%')
  {
    CountCharAppend(prefix, s, '%');
  }

  lemma LikeSuffixPercent()
    ensures CountChar(LikeSuffix, '%') == 1
  {
    assert LikeSuffix == " LIKE " + "%s";
    NoPercentCount(" LIKE ");
    CountCharAppend(" LIKE ", "%s", '%');
    assert "%s"[1..] == "s";
    NoPercentCount("s");
  }

  // ---------------------------------------------------------------------
  // Ad-hoc SQL (`execute_sql`)
  // ---------------------------------------------------------------------

  /** What the server does with the statement. */
  datatype ServerAnswer =
    | ConnectFailed(reason: string)          // raised by `get_connection`, outside the try
    | StatementFailed(reason: string)        // raised by `cursor.execute`
    | Answered(rows: seq<Row>, affected: int)

  datatype SqlPayload = Rows(rows: seq<Row>) | AffectedRows(count: int) | Message(text: string)

  datatype SqlOutcome =
    | Raises(reason: string)
    | Returned(ok: bool, payload: SqlPayload, committed: bool)

  /** A statement is a query when its stripped, upper-cased text starts with SELECT. */
  predicate IsSelect(sql: string) {
    StartsWith(Upper(Strip(sql)), "SELECT")
  }

  /** `execute_sql`: a query returns its rows; anything else is committed and
      returns the affected-row count; a failing statement returns
      `(False, message)`; a failing connection raises. */
  function ExecuteSql(sql: string, answer: ServerAnswer): (r: SqlOutcome)
    ensures r.Raises? <==> answer.ConnectFailed?
    ensures answer.StatementFailed? ==> r == Returned(false, Message(answer.reason), false)
    ensures answer.Answered? ==>
      && r.Returned? && r.ok
      && (r.payload.Rows? <==> IsSelect(sql))
      && (r.committed <==> !IsSelect(sql))
      && (r.payload.Rows? ==> r.payload.rows == answer.rows)
      && (r.payload.AffectedRows? ==> r.payload.count == answer.affected)
  {
    match answer
    case ConnectFailed(reason) => Raises(reason)
    case StatementFailed(reason) => Returned(false, Message(reason), false)
    case Answered(rows, affected) =>
      if IsSelect(sql) then Returned(true, Rows(rows), false)
      else Returned(true, AffectedRows(affected), true)
  }

  /** A statement is a query exactly when, after its leading whitespace, its
      first six characters spell SELECT in any letter case. */
  lemma IsSelectByLeadingWord(sql: string)
    ensures IsSelect(sql) <==> |LStrip(sql)| >= 6 && Upper(LStrip(sql)[..6]) == "SELECT"
  {
    var l := LStrip(sql);
    if |l| >= 6 && Upper(l[..6]) == "SELECT" {
      LeadingWordSelects(sql);
    }
    if IsSelect(sql) {
      SelectHasLeadingWord(sql);
    }
  }

  /** Stripping the right end does not touch the first six characters of a
      text whose sixth character is not whitespace. */
  lemma SamePrefix(sql: string)
    requires |LStrip(sql)| >= 6 && !IsSpace(LStrip(sql)[5])
    ensures |Strip(sql)| >= 6 && Strip(sql)[..6] == LStrip(sql)[..6]
  {
    assert Strip(sql) == RStrip(LStrip(sql));
    RStripKeeps(LStrip(sql), 6);
  }

  lemma LeadingWordSelects(sql: string)
    requires |LStrip(sql)| >= 6 && Upper(LStrip(sql)[..6]) == "SELECT"
    ensures IsSelect(sql)
  {
    var l := LStrip(sql);
    assert !IsSpace(l[5]) by {
      assert UpperChar(l[5]) == Upper(l[..6])[5] == 'T';
    }
    SamePrefix(sql);
    UpperPrefix(Strip(sql), 6);
  }

  lemma SelectHasLeadingWord(sql: string)
    requires IsSelect(sql)
    ensures |LStrip(sql)| >= 6 && Upper(LStrip(sql)[..6]) == "SELECT"
  {
    var l := LStrip(sql);
    var s := Strip(sql);
    assert Strip(sql) == RStrip(l);
    assert |l| >= |s| >= 6;
    assert UpperChar(s[5]) == 'T';
    assert !IsSpace(s[5]);
    SamePrefix(sql);
    UpperPrefix(s, 6);
  }
}

=== FILE: dict.dfy ===
/**
 Python's insertion-ordered `dict`, as a sequence of entries with distinct
 keys.  Assigning `d[k] = v` keeps the position of an existing key and
 appends a new one; iteration (`keys()`, `values()`, `items()`) follows that
 order.  The ingestion code relies on this order: the columns it selects
 and the tables it fills come out of such dictionaries.
 */
module Dict {
  import opened Text

  datatype Entry<K, V> = Entry(key: K, value: V)

  function Keys<K, V>(d: seq<Entry<K, V>>): (ks: seq<K>)
    ensures |ks| == |d|
    ensures forall i :: 0 <= i < |d| ==> ks[i] == d[i].key
  {
    seq(|d|, i requires 0 <= i < |d| => d[i].key)
  }

  function Values<K, V>(d: seq<Entry<K, V>>): (vs: seq<V>)
    ensures |vs| == |d|
    ensures forall i :: 0 <= i < |d| ==> vs[i] == d[i].value
  {
    seq(|d|, i requires 0 <= i < |d| => d[i].value)
  }

  /** No key occurs twice: the shape every Python dict has. */
  predicate DistinctKeys<K(==), V>(d: seq<Entry<K, V>>) {
    forall i, j :: 0 <= i < j < |d| ==> d[i].key != d[j].key
  }

  predicate HasKey<K(==), V>(d: seq<Entry<K, V>>, k: K) {
    exists i :: 0 <= i < |d| && d[i].key == k
  }

  /** Position of `k` among the keys, or -1 when it is absent. */
  function KeyIndex<K(==), V>(d: seq<Entry<K, V>>, k: K): (i: int)
    ensures -1 <= i < |d|
    ensures i >= 0 ==> d[i].key == k && forall j :: 0 <= j < i ==> d[j].key != k
    ensures i < 0 <==> !HasKey(d, k)
  {
    if |d| == 0 then -1
    else if d[0].key == k then 0
    else
      var i := KeyIndex(d[1..], k);
      assert HasKey(d, k) ==> HasKey(d[1..], k) by {
        if HasKey(d, k) {
          var j :| 0 <= j < |d| && d[j].key == k;
          assert d[1..][j - 1].key == k;
        }
      }
      if i < 0 then -1 else i + 1
  }

  /** Python's `d[k] = v`: overwrite in place when `k` is present, append otherwise. */
  function Put<K(==), V>(d: seq<Entry<K, V>>, k: K, v: V): (r: seq<Entry<K, V>>)
    ensures HasKey(d, k) ==> |r| == |d|
    ensures !HasKey(d, k) ==> r == d + [Entry(k, v)]
    ensures forall i :: 0 <= i < |d| ==> r[i].key == d[i].key
    ensures forall i :: 0 <= i < |d| && d[i].key != k ==> r[i] == d[i]
    ensures DistinctKeys(d) ==> forall i :: 0 <= i < |d| && d[i].key == k ==> r[i].value == v
    ensures DistinctKeys(d) ==> DistinctKeys(r)
    ensures HasKey(r, k)
  {
    var i := KeyIndex(d, k);
    if i >= 0 then
      var r := d[i := Entry(k, v)];
      assert r[i].key == k;
      r
    else
      var r := d + [Entry(k, v)];
      assert r[|d|].key == k;
      r
  }

  /** Assigning a key adds exactly that key. */
  lemma PutHasKey<K, V>(d: seq<Entry<K, V>>, k: K, v: V, x: K)
    ensures HasKey(Put(d, k, v), x) <==> HasKey(d, x) || x == k
  {
    var r := Put(d, k, v);
    if HasKey(d, x) {
      var i :| 0 <= i < |d| && d[i].key == x;
      assert r[i].key == x;
    }
    if HasKey(r, x) && x != k {
      var i :| 0 <= i < |r| && r[i].key == x;
      if i < |d| {
        assert d[i].key == x;
      }
    }
  }

  /** The value stored under `k`, if any (Python's `d.get(k)`). */
  function Get<K(==), V>(d: seq<Entry<K, V>>, k: K): (r: Option<V>)
    ensures r.Some? <==> HasKey(d, k)
    ensures r.Some? ==> exists i :: 0 <= i < |d| && d[i] == Entry(k, r.value)
  {
    var i := KeyIndex(d, k);
    if i < 0 then None
    else
      assert d[i] == Entry(k, d[i].value);
      Some(d[i].value)
  }

  /** In a dictionary with distinct keys every entry is found under its key. */
  lemma GetDistinct<K, V>(d: seq<Entry<K, V>>, i: nat)
    requires DistinctKeys(d) && i < |d|
    ensures Get(d, d[i].key) == Some(d[i].value)
  {
    assert KeyIndex(d, d[i].key) == i;
  }

  /** After `d[k] = v`, `k` reads `v` and every other key reads as before. */
  lemma GetPut<K, V>(d: seq<Entry<K, V>>, k: K, v: V, x: K)
    requires DistinctKeys(d)
    ensures Get(Put(d, k, v), x) == if x == k then Some(v) else Get(d, x)
  {
    var r := Put(d, k, v);
    var i := KeyIndex(d, x);
    var j := KeyIndex(r, x);
    if x == k {
      if i >= 0 {
        assert r[i].key == k;
      } else {
        assert r[|d|].key == k;
      }
    } else {
      if i >= 0 {
        assert r[i] == d[i];
      }
      if j >= 0 && j < |d| {
        assert d[j] == r[j];
      }
    }
  }

  /** Python's `d.update(changes)`: the assignments `d[k] = v` in the order
      of `changes`. */
  function PutAll<K(==), V>(d: seq<Entry<K, V>>, changes: seq<Entry<K, V>>): (r: seq<Entry<K, V>>)
    ensures DistinctKeys(d) ==> DistinctKeys(r)
    ensures |r| >= |d|
    ensures forall i :: 0 <= i < |d| ==> r[i].key == d[i].key
    decreases |changes|
  {
    if |changes| == 0 then d
    else
      var last := changes[|changes| - 1];
      Put(PutAll(d, changes[..|changes| - 1]), last.key, last.value)
  }

  /** After an update, a key the changes name reads the last value they give
      it; every other key reads as before. */
  lemma {:induction false} GetPutAll<K, V>(d: seq<Entry<K, V>>, changes: seq<Entry<K, V>>, x: K)
    requires DistinctKeys(d)
    ensures Get(PutAll(d, changes), x) == if HasKey(changes, x) then Get(Reversed(changes), x) else Get(d, x)
    decreases |changes|
  {
    if |changes| > 0 {
      var init := changes[..|changes| - 1];
      var last := changes[|changes| - 1];
      GetPutAll(d, init, x);
      GetPut(PutAll(d, init), last.key, last.value, x);
      var rev := Reversed(changes);
      assert rev[0] == last;
      assert rev[1..] == Reversed(init);
      if x == last.key {
        assert KeyIndex(rev, x) == 0;
      } else {
        assert HasKey(changes, x) <==> HasKey(init, x) by {
          if HasKey(changes, x) {
            var i :| 0 <= i < |changes| && changes[i].key == x;
            assert init[i].key == x;
          }
          if HasKey(init, x) {
            var i :| 0 <= i < |init| && init[i].key == x;
            assert changes[i].key == x;
          }
        }
        GetTail(rev, x);
      }
    }
  }

  function Reversed<T>(s: seq<T>): (r: seq<T>)
    ensures |r| == |s|
    ensures forall i :: 0 <= i < |s| ==> r[i] == s[|s| - 1 - i]
  {
    seq(|s|, i requires 0 <= i < |s| => s[|s| - 1 - i])
  }

  /** Looking a key up past a first entry with another key. */
  lemma GetTail<K, V>(d: seq<Entry<K, V>>, x: K)
    requires |d| > 0 && d[0].key != x
    ensures Get(d, x) == Get(d[1..], x)
  {
    var i := KeyIndex(d, x);
    var j := KeyIndex(d[1..], x);
    if i >= 0 {
      assert d[1..][i - 1].key == x;
    }
    if j >= 0 {
      assert d[j + 1].key == x;
    }
  }

  /** Python's `d.pop(k, None)` for the resulting dictionary: every entry
      with key `k` is dropped, the rest keep their order. */
  function Remove<K(==), V>(d: seq<Entry<K, V>>, k: K): (r: seq<Entry<K, V>>)
    ensures |r| <= |d|
    ensures !HasKey(r, k)
    ensures forall i :: 0 <= i < |r| ==> r[i] in d
    ensures forall e :: e in d && e.key != k ==> e in r
    ensures !HasKey(d, k) ==> r == d
  {
    if |d| == 0 then []
    else
      var rest := Remove(d[1..], k);
      assert !HasKey(d, k) ==> !HasKey(d[1..], k) by {
        if HasKey(d[1..], k) {
          var i :| 0 <= i < |d[1..]| && d[1..][i].key == k;
          assert d[i + 1].key == k;
        }
      }
      if d[0].key == k then rest else [d[0]] + rest
  }

  /** `Remove` looks at the entries one at a time, from the front. */
  lemma RemoveCons<K, V>(e: Entry<K, V>, rest: seq<Entry<K, V>>, k: K)
    ensures Remove([e] + rest, k) == if e.key == k then Remove(rest, k) else [e] + Remove(rest, k)
  {
    assert ([e] + rest)[1..] == rest;
  }

  /** Removing a key from two runs of entries is removing it from each, so
      the kept entries stay in their order. */
  lemma {:induction false} RemoveAppend<K, V>(a: seq<Entry<K, V>>, b: seq<Entry<K, V>>, k: K)
    ensures Remove(a + b, k) == Remove(a, k) + Remove(b, k)
  {
    if |a| == 0 {
      assert a + b == b;
    } else {
      assert (a + b)[0] == a[0];
      assert (a + b)[1..] == a[1..] + b;
      RemoveAppend(a[1..], b, k);
    }
  }
}

=== FILE: history.dfy ===
/**
 `HistoryManager`: the list of processing records kept in `history.json`,
 most recent first and at most 100 long, with create, update, get, list,
 delete and clear; the reading of a record's `log.txt`; and the guard that
 decides whether a deleted record's work directory may be removed.

 The stored list is passed in and handed back rather than read from and
 written to the file; clocks, file contents and resolved paths are inputs.
 */
module History {
  import opened Text
  import opened Dict
  import opened Json

  /** Records kept after `create`. */
  const MaxRecords := 100

  const HistoryFileName := "history.json"

  /** The `HistoryRecord` dataclass.  Its fields are annotated but not
      checked, so each holds whatever JSON value the file had. */
  datatype HistoryRecord = HistoryRecord(
    id: Value,
    timestamp: Value,
    status: Value,
    workDir: Value,
    fileCount: Value,
    elapsedTime: Value,
    error: Value,
    resultTables: Value)

  const FieldNames: seq<string> :=
    ["id", "timestamp", "status", "work_dir", "file_count", "elapsed_time", "error", "result_tables"]

  /** `HistoryRecord.to_dict` (`dataclasses.asdict`): one key per field, in
      declaration order. */
  function ToDict(r: HistoryRecord): (d: Obj)
    ensures Keys(d) == FieldNames
    ensures DistinctKeys(d)
  {
    [ Entry("id", r.id), Entry("timestamp", r.timestamp), Entry("status", r.status),
      Entry("work_dir", r.workDir), Entry("file_count", r.fileCount),
      Entry("elapsed_time", r.elapsedTime), Entry("error", r.error),
      Entry("result_tables", r.resultTables) ]
  }

  /** `v` is the stored value under `key` when the dictionary has the key,
      and `default` when it does not. */
  predicate FieldFrom(rec: Obj, key: string, default: Value, v: Value) {
    if HasKey(rec, key) then Get(rec, key) == Some(v) else v == default
  }

  /** `_clean_record` followed by `HistoryRecord(**cleaned)`: the eight
      known fields, with `file_count` 0, `elapsed_time` 0.0 and
      `result_tables` [] when absent and None for the others; any other key
      (such as an old `logs`) is dropped. */
  function Clean(rec: Obj): (r: HistoryRecord)
    ensures FieldFrom(rec, "id", Null, r.id)
    ensures FieldFrom(rec, "timestamp", Null, r.timestamp)
    ensures FieldFrom(rec, "status", Null, r.status)
    ensures FieldFrom(rec, "work_dir", Null, r.workDir)
    ensures FieldFrom(rec, "file_count", Int(0), r.fileCount)
    ensures FieldFrom(rec, "elapsed_time", Num(0.0), r.elapsedTime)
    ensures FieldFrom(rec, "error", Null, r.error)
    ensures FieldFrom(rec, "result_tables", List([]), r.resultTables)
  {
    HistoryRecord(
      GetOr(rec, "id", Null),
      GetOr(rec, "timestamp", Null),
      GetOr(rec, "status", Null),
      GetOr(rec, "work_dir", Null),
      GetOr(rec, "file_count", Int(0)),
      GetOr(rec, "elapsed_time", Num(0.0)),
      GetOr(rec, "error", Null),
      GetOr(rec, "result_tables", List([])))
  }

  /** A record written by `to_dict` reads back unchanged. */
  lemma CleanToDict(r: HistoryRecord)
    ensures Clean(ToDict(r)) == r
  {
    var d := ToDict(r);
    forall i | 0 <= i < |d| ensures Get(d, d[i].key) == Some(d[i].value) {
      GetDistinct(d, i);
    }
    assert d[0].key == "id" && d[1].key == "timestamp" && d[2].key == "status" && d[3].key == "work_dir";
    assert d[4].key == "file_count" && d[5].key == "elapsed_time" && d[6].key == "error" && d[7].key == "result_tables";
  }

  /** Reading a stored dictionary and writing it back keeps every known
      field it has and drops every other key. */
  lemma ToDictClean(rec: Obj, key: string)
    ensures key in FieldNames && HasKey(rec, key) ==> Get(ToDict(Clean(rec)), key) == Get(rec, key)
    ensures key !in FieldNames ==> !HasKey(ToDict(Clean(rec)), key)
  {
    var d := ToDict(Clean(rec));
    if key in FieldNames {
      var i := IndexOf(FieldNames, key);
      GetDistinct(d, i);
      if HasKey(rec, key) {
        CleanField(rec, i);
      }
    }
  }

  /** A field the stored dictionary has is written back with its value. */
  lemma CleanField(rec: Obj, i: nat)
    requires i < |FieldNames| && HasKey(rec, FieldNames[i])
    ensures Get(rec, FieldNames[i]) == Some(ToDict(Clean(rec))[i].value)
  {
    var k := FieldNames[i];
    assert GetOr(rec, k, Null) == Get(rec, k).value;
  }

  // ---------------------------------------------------------------------
  // The stored list
  // ---------------------------------------------------------------------

  /** `rec['id'] == record_id`. */
  predicate IsId(rec: Obj, id: string) {
    Get(rec, "id") == Some(Str(id))
  }

  /** Every stored record has an `id` key, so scanning never raises KeyError. */
  predicate HasIds(records: seq<Obj>) {
    forall i :: 0 <= i < |records| ==> HasKey(records[i], "id")
  }

  predicate Listed(records: seq<Obj>, id: string) {
    exists i :: 0 <= i < |records| && IsId(records[i], id)
  }

  lemma ListedCons(records: seq<Obj>, id: string)
    requires |records| > 0
    ensures Listed(records, id) <==> IsId(records[0], id) || Listed(records[1..], id)
  {
    if Listed(records[1..], id) {
      var j :| 0 <= j < |records[1..]| && IsId(records[1..][j], id);
      assert IsId(records[j + 1], id);
    }
    if Listed(records, id) && !IsId(records[0], id) {
      var j :| 0 <= j < |records| && IsId(records[j], id);
      assert IsId(records[1..][j - 1], id);
    }
  }

  /** Position of the first record with the id, or -1. */
  function FirstWithId(records: seq<Obj>, id: string): (i: int)
    ensures -1 <= i < |records|
    ensures i >= 0 ==> IsId(records[i], id) && forall j :: 0 <= j < i ==> !IsId(records[j], id)
    ensures i < 0 <==> !Listed(records, id)
  {
    if |records| == 0 then -1
    else if IsId(records[0], id) then 0
    else
      var i := FirstWithId(records[1..], id);
      ListedCons(records, id);
      if i < 0 then -1 else i + 1
  }

  datatype Created = Created(record: HistoryRecord, records: seq<Obj>)

  /** `create`: a pending record (id given or the clock stamp) goes to the
      front and the list is cut to the first 100. */
  function Create(records: seq<Obj>, workDir: string, fileCount: int, recordId: Option<string>,
                  stamp: string, now: string): (c: Created)
    ensures c.record.id == Str(recordId.GetOr(stamp))
    ensures c.record.timestamp == Str(now) && c.record.status == Str("pending")
    ensures c.record.workDir == Str(workDir) && c.record.fileCount == Int(fileCount)
    ensures c.record.elapsedTime == Num(0.0) && c.record.error == Null && c.record.resultTables == List([])
    ensures |c.records| == if |records| < MaxRecords then |records| + 1 else MaxRecords
    ensures c.records[0] == ToDict(c.record)
    ensures c.records[1..] == records[..|c.records| - 1]
    ensures HasIds(records) ==> HasIds(c.records)
  {
    var record := HistoryRecord(Str(recordId.GetOr(stamp)), Str(now), Str("pending"), Str(workDir),
                                Int(fileCount), Num(0.0), Null, List([]));
    var all := [ToDict(record)] + records;
    assert HasKey(all[0], "id") by { assert all[0][0].key == "id"; }
    var kept := if |all| <= MaxRecords then all else all[..MaxRecords];
    assert kept[1..] == records[..|kept| - 1];
    Created(record, kept)
  }

  /** `get`: the first record with the id, cleaned, or None. */
  function GetRecord(records: seq<Obj>, id: string): (r: Option<HistoryRecord>)
    ensures r.None? <==> !Listed(records, id)
    ensures r.Some? ==> r.value == Clean(records[FirstWithId(records, id)])
  {
    var i := FirstWithId(records, id);
    if i < 0 then None else Some(Clean(records[i]))
  }

  /** The record just created is the one `get` finds under its id. */
  lemma GetAfterCreate(records: seq<Obj>, workDir: string, fileCount: int, recordId: Option<string>,
                       stamp: string, now: string)
    ensures var c := Create(records, workDir, fileCount, recordId, stamp, now);
      GetRecord(c.records, recordId.GetOr(stamp)) == Some(c.record)
  {
    var c := Create(records, workDir, fileCount, recordId, stamp, now);
    var d := c.records[0];
    assert d[0].key == "id";
    assert KeyIndex(d, "id") == 0;
    assert IsId(d, recordId.GetOr(stamp));
    CleanToDict(c.record);
  }

  datatype Updated = Updated(record: Option<HistoryRecord>, records: seq<Obj>)

  /** `update`: `rec.update(changes)` on the first record with the id only;
      None, and nothing changed, when no record has it. */
  function Update(records: seq<Obj>, id: string, changes: Obj): (u: Updated)
    ensures |u.records| == |records|
    ensures u.record.None? <==> !Listed(records, id)
    ensures u.record.None? ==> u.records == records
    ensures u.record.Some? ==>
      var i := FirstWithId(records, id);
      && u.records[i] == PutAll(records[i], changes)
      && u.record.value == Clean(u.records[i])
      && (forall j :: 0 <= j < |records| && j != i ==> u.records[j] == records[j])
    ensures HasIds(records) ==> HasIds(u.records)
  {
    var i := FirstWithId(records, id);
    if i < 0 then Updated(None, records)
    else
      var rec := PutAll(records[i], changes);
      var updated := records[i := rec];
      assert HasKey(records[i], "id") ==> HasKey(rec, "id") by {
        if HasKey(records[i], "id") {
          var k :| 0 <= k < |records[i]| && records[i][k].key == "id";
          assert rec[k].key == "id";
        }
      }
      Updated(Some(Clean(rec)), updated)
  }

  /** After an update that leaves `id` alone, `get` returns what `update`
      returned. */
  lemma GetAfterUpdate(records: seq<Obj>, id: string, changes: Obj)
    requires Listed(records, id)
    requires forall k :: 0 <= k < |records| ==> DistinctKeys(records[k])
    requires !HasKey(changes, "id")
    ensures var u := Update(records, id, changes);
      GetRecord(u.records, id) == u.record
  {
    var u := Update(records, id, changes);
    var i := FirstWithId(records, id);
    GetPutAll(records[i], changes, "id");
    assert IsId(u.records[i], id);
    assert FirstWithId(u.records, id) == i by {
      forall j | 0 <= j < i ensures !IsId(u.records[j], id) {
        assert u.records[j] == records[j];
      }
    }
  }

  /** Python's stop index for `s[:stop]` on a list of length `n`. */
  function SliceStop(n: nat, stop: int): (k: nat)
    ensures k <= n
    ensures 0 <= stop ==> k == if stop < n then stop else n
    ensures stop < 0 ==> k == if n + stop > 0 then n + stop else 0
  {
    if stop >= 0 then (if stop < n then stop else n)
    else if n + stop > 0 then n + stop else 0
  }

  /** `list`: `records[:limit]`, each without a `logs` key. */
  function ListRecords(records: seq<Obj>, limit: int): (r: seq<Obj>)
    ensures |r| == SliceStop(|records|, limit)
    ensures forall k :: 0 <= k < |r| ==> r[k] == Remove(records[k], "logs") && !HasKey(r[k], "logs")
  {
    var n := SliceStop(|records|, limit);
    seq(n, k requires 0 <= k < n => Remove(records[k], "logs"))
  }

  /** A limit keeps that many leading records (all of them when it is
      larger); a negative limit drops that many trailing records, and
      everything when it exceeds the length. */
  lemma ListRecordsLimit(records: seq<Obj>, limit: int)
    ensures var all := ListRecords(records, |records|);
      && (0 <= limit <= |records| ==> ListRecords(records, limit) == all[..limit])
      && (limit > |records| ==> ListRecords(records, limit) == all)
      && (limit < 0 && -limit <= |records| ==> ListRecords(records, limit) == all[..|records| + limit])
      && (-limit > |records| ==> ListRecords(records, limit) == [])
  {
  }

  // ---------------------------------------------------------------------
  // Logs
  // ---------------------------------------------------------------------

  /** Stripped, non-empty pieces, in order. */
  function NonBlank(pieces: seq<string>): (r: seq<string>)
    ensures |r| <= |pieces|
    ensures forall k :: 0 <= k < |r| ==> r[k] != "" && Trimmed(r[k])
  {
    if |pieces| == 0 then []
    else
      var s := Strip(pieces[0]);
      var rest := NonBlank(pieces[1..]);
      if s == "" then rest
      else
        PrependLine(s, rest);
        [s] + rest
  }

  lemma PrependLine(s: string, lines: seq<string>)
    requires s != "" && Trimmed(s)
    requires forall k :: 0 <= k < |lines| ==> lines[k] != "" && Trimmed(lines[k])
    ensures forall k :: 0 <= k < |[s] + lines| ==> ([s] + lines)[k] != "" && Trimmed(([s] + lines)[k])
  {
    forall k | 0 <= k < |[s] + lines|
      ensures ([s] + lines)[k] != "" && Trimmed(([s] + lines)[k])
    {
      if k > 0 {
        assert ([s] + lines)[k] == lines[k - 1];
      }
    }
  }

  /** The lines `get_logs` returns for a log file's content. */
  function LogLines(content: string): (lines: seq<string>)
    ensures forall k :: 0 <= k < |lines| ==> lines[k] != "" && '\n' !in lines[k] && Trimmed(lines[k])
  {
    var pieces := Split(content, '\n');
    NonBlankKeepsOut(pieces, '\n');
    NonBlank(pieces)
  }

  /** A log file with no newline is one line once stripped, or none. */
  lemma LogLinesOneLine(s: string)
    requires '\n' !in s
    ensures LogLines(s) == if Strip(s) == "" then [] else [Strip(s)]
  {
    SplitNoSep(s, '\n');
    assert [s][1..] == [];
  }

  /** The lines of two texts joined by a newline are the lines of the first
      followed by those of the second. */
  lemma LogLinesAppend(a: string, b: string)
    ensures LogLines(a + "\n" + b) == LogLines(a) + LogLines(b)
  {
    SplitAppend(a, '\n', b);
    NonBlankAppend(Split(a, '\n'), Split(b, '\n'));
  }

  lemma {:induction false} NonBlankAppend(p: seq<string>, q: seq<string>)
    ensures NonBlank(p + q) == NonBlank(p) + NonBlank(q)
  {
    if |p| == 0 {
      assert p + q == q;
    } else {
      assert (p + q)[0] == p[0];
      assert (p + q)[1..] == p[1..] + q;
      NonBlankAppend(p[1..], q);
    }
  }

  lemma {:induction false} NonBlankKeepsOut(pieces: seq<string>, c: char)
    requires forall j :: 0 <= j < |pieces| ==> c !in pieces[j]
    ensures forall k :: 0 <= k < |NonBlank(pieces)| ==> c !in NonBlank(pieces)[k]
  {
    if |pieces| > 0 {
      StripKeepsOut(pieces[0], c);
      NonBlankKeepsOut(pieces[1..], c);
    }
  }

  /** Stripping adds no character. */
  lemma StripKeepsOut(s: string, c: char)
    ensures c !in s ==> c !in Strip(s)
  {
    if c !in s {
      var l := LStrip(s);
      forall i | 0 <= i < |l| ensures l[i] != c {
        assert l[i] == s[|s| - |l| + i];
      }
      var r := RStrip(l);
      forall i | 0 <= i < |r| ensures r[i] != c {
        assert r[i] == l[i];
      }
    }
  }

  lemma NonBlankCons(e: string, pieces: seq<string>)
    requires e != "" && Trimmed(e)
    ensures NonBlank([e] + pieces) == [e] + NonBlank(pieces)
  {
    StripOfStripped(e);
    assert ([e] + pieces)[1..] == pieces;
  }

  /** What `ProcessLogger.log` leaves in the file: each entry and a newline. */
  function Written(entries: seq<string>): string {
    if |entries| == 0 then "" else entries[0] + "\n" + Written(entries[1..])
  }

  /** A log entry as the logger formats it: one line with no whitespace at
      either end. */
  predicate LogEntry(e: string) {
    e != "" && '\n' !in e && Trimmed(e)
  }

  /** Reading back a log file the logger wrote returns its entries. */
  lemma {:induction false} LogLinesOfWritten(entries: seq<string>)
    requires forall k :: 0 <= k < |entries| ==> LogEntry(entries[k])
    ensures LogLines(Written(entries)) == entries
    decreases |entries|
  {
    if |entries| == 0 {
      assert Split("", '\n') == [""];
      assert NonBlank([""]) == [];
    } else {
      var e := entries[0];
      var rest := entries[1..];
      assert Written(entries) == e + ['\n'] + Written(rest);
      SplitAfterPiece(e, '\n', Written(rest));
      NonBlankCons(e, Split(Written(rest), '\n'));
      LogLinesOfWritten(rest);
      assert [e] + rest == entries;
    }
  }

  /** `get_logs`: no record, no file or an unreadable one all give []. */
  function GetLogs(records: seq<Obj>, id: string, readLog: Value -> Option<string>): (lines: seq<string>)
    ensures !Listed(records, id) ==> lines == []
    ensures Listed(records, id) ==>
      var r := GetRecord(records, id).value;
      lines == match readLog(r.workDir) case None => [] case Some(content) => LogLines(content)
  {
    match GetRecord(records, id)
    case None => []
    case Some(r) =>
      match readLog(r.workDir)
      case None => []
      case Some(content) => LogLines(content)
  }

  // ---------------------------------------------------------------------
  // Delete and clear
  // ---------------------------------------------------------------------

  /** The records without the id, in their order. */
  function Without(records: seq<Obj>, id: string): (r: seq<Obj>)
    ensures |r| <= |records|
    ensures forall k :: 0 <= k < |r| ==> !IsId(r[k], id) && r[k] in records
    ensures forall k :: 0 <= k < |records| && !IsId(records[k], id) ==> records[k] in r
    ensures |r| < |records| <==> Listed(records, id)
  {
    if |records| == 0 then []
    else
      var rest := Without(records[1..], id);
      ListedCons(records, id);
      if IsId(records[0], id) then rest else [records[0]] + rest
  }

  /** Removing the id from two runs of records is removing it from each,
      so the kept records stay in their order. */
  lemma {:induction false} WithoutAppend(a: seq<Obj>, b: seq<Obj>, id: string)
    ensures Without(a + b, id) == Without(a, id) + Without(b, id)
  {
    if |a| == 0 {
      assert a + b == b;
    } else {
      assert (a + b)[0] == a[0];
      assert (a + b)[1..] == a[1..] + b;
      WithoutAppend(a[1..], b, id);
    }
  }

  /** One record is dropped exactly when it carries the id. */
  lemma WithoutOne(rec: Obj, id: string)
    ensures Without([rec], id) == if IsId(rec, id) then [] else [rec]
  {
    assert [rec][1..] == [];
  }

  datatype Deleted = Deleted(deleted: bool, records: seq<Obj>, workDir: Option<Value>)

  /** `delete`: every record with the id goes, the rest keep their order;
      True exactly when something went.  `workDir` is the first such
      record's `work_dir`, the directory considered for removal. */
  function Delete(records: seq<Obj>, id: string): (r: Deleted)
    ensures r.deleted <==> Listed(records, id)
    ensures r.records == Without(records, id)
    ensures !Listed(r.records, id)
    ensures r.deleted ==> r.workDir == Some(GetOr(records[FirstWithId(records, id)], "work_dir", Null))
    ensures !r.deleted ==> r.records == records && r.workDir.None?
  {
    var kept := Without(records, id);
    if |kept| < |records| then
      Deleted(true, kept, Some(GetOr(records[FirstWithId(records, id)], "work_dir", Null)))
    else
      assert !Listed(records, id);
      assert kept == records by {
        WithoutUnlisted(records, id);
      }
      Deleted(false, kept, None)
  }

  lemma {:induction false} WithoutUnlisted(records: seq<Obj>, id: string)
    requires !Listed(records, id)
    ensures Without(records, id) == records
  {
    if |records| > 0 {
      ListedCons(records, id);
      WithoutUnlisted(records[1..], id);
    }
  }

  /** Deleting keeps every stored record an id-carrying one. */
  lemma DeleteKeepsIds(records: seq<Obj>, id: string)
    requires HasIds(records)
    ensures HasIds(Delete(records, id).records)
  {
    var r := Delete(records, id).records;
    forall k | 0 <= k < |r| ensures HasKey(r[k], "id") {
      var j :| 0 <= j < |records| && records[j] == r[k];
    }
  }

  /** A resolved path, as its components. */
  type Path = seq<string>

  /** `Path.relative_to(base)` succeeds: `base` is a leading part of `p`,
      the whole of it included. */
  predicate RelativeTo(p: Path, base: Path) {
    |base| <= |p| && p[..|base|] == base
  }

  /** `p` lies below `base` and is not `base` itself. */
  predicate StrictlyInside(p: Path, base: Path) {
    RelativeTo(p, base) && |p| > |base|
  }

  /** The removal guard of `delete` as written: a truthy `work_dir` whose
      resolved path is an existing directory passing `relative_to(cache)`. */
  function RemovedDirAsWritten(workDir: Option<Value>, resolved: Path, isDir: bool, cache: Path): (r: Option<Path>)
    ensures r.Some? <==> workDir.Some? && Truthy(workDir.value) && isDir && RelativeTo(resolved, cache)
    ensures r.Some? ==> r.value == resolved
  {
    if workDir.Some? && Truthy(workDir.value) && isDir && RelativeTo(resolved, cache) then Some(resolved) else None
  }

  /** A record whose `work_dir` is the cache directory itself passes the
      guard as written, and `rmtree` of that path takes `history.json` with it. */
  lemma AsWrittenRemovesCache(cache: Path)
    ensures var r := RemovedDirAsWritten(Some(Str("cache")), cache, true, cache);
      r == Some(cache) && RelativeTo(cache + [HistoryFileName], r.value)
  {
    assert (cache + [HistoryFileName])[..|cache|] == cache;
  }

  /** The guard as intended: only a directory strictly inside the cache
      directory is removed. */
  function RemovedDir(workDir: Option<Value>, resolved: Path, isDir: bool, cache: Path): (r: Option<Path>)
    ensures r.Some? <==> workDir.Some? && Truthy(workDir.value) && isDir && StrictlyInside(resolved, cache)
    ensures r.Some? ==> r.value == resolved
  {
    if workDir.Some? && Truthy(workDir.value) && isDir && StrictlyInside(resolved, cache) then Some(resolved) else None
  }

  /** The two guards disagree on one path only: the cache directory itself,
      which the guard as written lets through and the intended one does
      not. */
  lemma GuardsDifferOnlyAtCache(workDir: Option<Value>, resolved: Path, isDir: bool, cache: Path)
    ensures RemovedDir(workDir, resolved, isDir, cache)
         == if resolved == cache then None else RemovedDirAsWritten(workDir, resolved, isDir, cache)
  {
    if RelativeTo(resolved, cache) && |resolved| == |cache| {
      assert resolved == resolved[..|cache|];
    }
  }

  /** Whatever the intended guard lets through, the history file survives
      unless the directory removed is the history file's own path. */
  lemma RemovedDirSparesHistory(workDir: Option<Value>, resolved: Path, isDir: bool, cache: Path)
    requires resolved != cache + [HistoryFileName]
    ensures var r := RemovedDir(workDir, resolved, isDir, cache);
      r.Some? ==> StrictlyInside(r.value, cache) && !RelativeTo(cache + [HistoryFileName], r.value)
  {
  }

  datatype ItemKind = Directory | File | OtherKind

  /** An entry of the cache directory listing and where it resolves to. */
  datatype CacheItem = CacheItem(name: string, resolved: Path, kind: ItemKind)

  /** An item `clear` removes: it resolves inside the cache directory and is
      a directory, or a file other than `history.json`. */
  predicate Cleared(item: CacheItem, cache: Path) {
    && RelativeTo(item.resolved, cache)
    && (item.kind == Directory || (item.kind == File && item.name != HistoryFileName))
  }

  datatype ClearResult = ClearResult(count: nat, records: seq<Obj>, removed: seq<CacheItem>)

  /** `clear`: the former number of records, an empty list, and the cache
      items removed, in listing order. */
  function Clear(records: seq<Obj>, cache: Path, items: seq<CacheItem>): (r: ClearResult)
    ensures r.count == |records| && r.records == []
    ensures forall k :: 0 <= k < |r.removed| ==> r.removed[k] in items && Cleared(r.removed[k], cache)
    ensures forall it :: it in items && Cleared(it, cache) ==> it in r.removed
    ensures forall k :: 0 <= k < |r.removed| ==> !(r.removed[k].kind == File && r.removed[k].name == HistoryFileName)
  {
    ClearResult(|records|, [], ClearedItems(items, cache))
  }

  function ClearedItems(items: seq<CacheItem>, cache: Path): (r: seq<CacheItem>)
    ensures forall k :: 0 <= k < |r| ==> r[k] in items && Cleared(r[k], cache)
    ensures forall it :: it in items && Cleared(it, cache) ==> it in r
  {
    if |items| == 0 then []
    else if Cleared(items[0], cache) then [items[0]] + ClearedItems(items[1..], cache)
    else ClearedItems(items[1..], cache)
  }

  /** The items cleared from two runs of the listing are those of the
      first run followed by those of the second. */
  lemma {:induction false} ClearedItemsAppend(a: seq<CacheItem>, b: seq<CacheItem>, cache: Path)
    ensures ClearedItems(a + b, cache) == ClearedItems(a, cache) + ClearedItems(b, cache)
  {
    if |a| == 0 {
      assert a + b == b;
    } else {
      assert (a + b)[0] == a[0];
      assert (a + b)[1..] == a[1..] + b;
      ClearedItemsAppend(a[1..], b, cache);
    }
  }

  /** One item is cleared exactly when `clear` removes it. */
  lemma ClearedItemsOne(item: CacheItem, cache: Path)
    ensures ClearedItems([item], cache) == if Cleared(item, cache) then [item] else []
  {
    assert [item][1..] == [];
  }

  /** After `clear` no id is found and the list is empty. */
  lemma ClearEmpties(records: seq<Obj>, cache: Path, items: seq<CacheItem>, id: string, limit: int)
    ensures var r := Clear(records, cache, items);
      GetRecord(r.records, id).None? && ListRecords(r.records, limit) == []
  {
  }
}

=== FILE: json.dfy ===
/**
 The JSON values the service keeps on disk and exchanges over HTTP: the
 history file, the configuration file and request bodies.  Objects keep
 their key order, as Python's `json` module does.
 */
module Json {
  import opened Text
  import opened Dict

  datatype Value =
    | Null
    | Bool(b: bool)
    | Int(i: int)
    | Num(r: real)
    | Str(s: string)
    | List(items: seq<Value>)
    | Object(fields: seq<Entry<string, Value>>)

  /** A JSON object as Python holds it: a dict keyed by strings. */
  type Obj = seq<Entry<string, Value>>

  /** Python's truth value of the decoded value (`if value:`). */
  predicate Truthy(v: Value) {
    match v
    case Null => false
    case Bool(b) => b
    case Int(i) => i != 0
    case Num(r) => r != 0.0
    case Str(s) => s != ""
    case List(items) => items != []
    case Object(fields) => fields != []
  }

  /** Python's `d.get(key, default)`. */
  function GetOr(d: Obj, key: string, default: Value): (v: Value)
    ensures HasKey(d, key) ==> Get(d, key) == Some(v)
    ensures !HasKey(d, key) ==> v == default
  {
    match Get(d, key)
    case Some(x) => x
    case None => default
  }
}

=== FILE: processor.dfy ===
/**
 The ingestion rules of `DataProcessor`: the alias table built from the
 `ExtractField` configuration, sheet-to-CSV naming with the sheet filter,
 the encoding choice, column selection and cell cleaning for one CSV file,
 the choice of destination tables from directory names, and the
 statement loop of the SQL script.

 The libraries the processor calls are inputs here: the sheet names a
 workbook reports, the encoding `chardet` guesses, the header and cells
 `pandas` reads, the statements `sqlparse.split` returns, and which
 statements the database rejects.
 */
module Processor {
  import opened Text
  import opened Dict

  // ---------------------------------------------------------------------
  // Field map (`_build_field_map`)
  // ---------------------------------------------------------------------

  /** One `ExtractField` entry: the canonical column `Field` and the header
      aliases listed under `Extract`. */
  datatype FieldDef = FieldDef(field: string, extract: seq<string>)

  predicate Mentions(defs: seq<FieldDef>, i: int, alias: string) {
    0 <= i < |defs| && alias in defs[i].extract
  }

  /** `defs[i]` lists `alias` and no later definition does. */
  predicate LastMention(defs: seq<FieldDef>, i: int, alias: string) {
    Mentions(defs, i, alias) && forall j :: i < j < |defs| ==> alias !in defs[j].extract
  }

  /** Assigns `field` to every alias in turn, as the inner loop does. */
  function AddAliases(m: map<string, string>, aliases: seq<string>, field: string): (r: map<string, string>)
    ensures r.Keys == m.Keys + set a | a in aliases
    ensures forall a :: a in aliases ==> r[a] == field
    ensures forall a :: a in m && a !in aliases ==> r[a] == m[a]
    decreases |aliases|
  {
    if |aliases| == 0 then m else AddAliases(m[aliases[0] := field], aliases[1..], field)
  }

  /** `m` has an entry for exactly the aliases some definition lists. */
  ghost predicate CoversAliases(defs: seq<FieldDef>, m: map<string, string>) {
    forall a :: a in m <==> exists i :: Mentions(defs, i, a)
  }

  /** Every alias in `m` maps to the field of the last definition listing it. */
  ghost predicate ResolvesToLast(defs: seq<FieldDef>, m: map<string, string>) {
    forall a :: a in m ==> exists i :: LastMention(defs, i, a) && m[a] == defs[i].field
  }

  /** The alias table: every alias of every definition, mapped to the field of
      the last definition that lists it (later assignments overwrite). */
  function BuildFieldMap(defs: seq<FieldDef>): (m: map<string, string>)
    ensures CoversAliases(defs, m)
    ensures ResolvesToLast(defs, m)
  {
    if |defs| == 0 then map[]
    else
      var init := defs[..|defs| - 1];
      var last := defs[|defs| - 1];
      var m0 := BuildFieldMap(init);
      assert defs == init + [last];
      AddLastDefinition(init, last, m0);
      AddAliases(m0, last.extract, last.field)
  }

  /** Adding the aliases of one more definition to the table of the ones
      before it gives the table of all of them. */
  lemma AddLastDefinition(init: seq<FieldDef>, last: FieldDef, m0: map<string, string>)
    requires CoversAliases(init, m0) && ResolvesToLast(init, m0)
    ensures CoversAliases(init + [last], AddAliases(m0, last.extract, last.field))
    ensures ResolvesToLast(init + [last], AddAliases(m0, last.extract, last.field))
  {
    var defs := init + [last];
    var m := AddAliases(m0, last.extract, last.field);
    forall a | exists i :: Mentions(defs, i, a)
      ensures a in m
    {
      var i :| Mentions(defs, i, a);
      if i < |defs| - 1 {
        assert Mentions(init, i, a);
      }
    }
    forall a | a in m
      ensures exists i :: Mentions(defs, i, a)
    {
      if a in last.extract {
        assert Mentions(defs, |defs| - 1, a);
      } else {
        var i :| Mentions(init, i, a);
        assert Mentions(defs, i, a);
      }
    }
    forall a | a in m
      ensures exists i :: LastMention(defs, i, a) && m[a] == defs[i].field
    {
      if a in last.extract {
        assert LastMention(defs, |defs| - 1, a);
      } else {
        var i :| LastMention(init, i, a) && m0[a] == init[i].field;
        assert LastMention(defs, i, a);
      }
    }
  }

  /** An alias resolves to the field of the last definition listing it; in
      particular an alias listed once resolves to its own definition. */
  lemma AliasResolvesToLastDefinition(defs: seq<FieldDef>, i: int, alias: string)
    requires LastMention(defs, i, alias)
    ensures alias in BuildFieldMap(defs)
    ensures BuildFieldMap(defs)[alias] == defs[i].field
  {
    var m := BuildFieldMap(defs);
    assert alias in m;
    var j :| LastMention(defs, j, alias) && m[alias] == defs[j].field;
    assert i == j;
  }

  // ---------------------------------------------------------------------
  // Workbook conversion (`_process_single_excel`)
  // ---------------------------------------------------------------------

  /** A workbook as the converter sees it: the directory and stem of its path,
      the sheet names it reports (None when it cannot be opened), and the
      sheets whose parse or CSV write raises. */
  datatype Workbook = Workbook(parent: string, stem: string, sheets: Option<seq<string>>, failing: set<string>)

  /** The CSV written for `sheet`: `<stem>_<sheet>.csv` beside the workbook. */
  function CsvName(parent: string, stem: string, sheet: string): string {
    parent + "/" + stem + "_" + sheet + ".csv"
  }

  /** The sheets the filter lets through, in workbook order. */
  function Eligible(sheets: seq<string>, filter: set<string>): (r: seq<string>)
    ensures forall s :: s in r <==> s in sheets && s !in filter
    ensures |r| <= |sheets|
  {
    if |sheets| == 0 then []
    else if sheets[0] in filter then Eligible(sheets[1..], filter)
    else [sheets[0]] + Eligible(sheets[1..], filter)
  }

  /** Filtering a concatenation filters each part. */
  lemma {:induction false} EligibleAppend(a: seq<string>, b: seq<string>, filter: set<string>)
    ensures Eligible(a + b, filter) == Eligible(a, filter) + Eligible(b, filter)
  {
    if |a| == 0 {
      assert a + b == b;
    } else {
      assert (a + b)[0] == a[0];
      assert (a + b)[1..] == a[1..] + b;
      EligibleAppend(a[1..], b, filter);
    }
  }

  /** A single sheet is kept exactly when the filter does not name it. */
  lemma EligibleOne(sheet: string, filter: set<string>)
    ensures Eligible([sheet], filter) == if sheet in filter then [] else [sheet]
  {
  }

  function CsvNames(parent: string, stem: string, sheets: seq<string>): (r: seq<string>)
    ensures |r| == |sheets|
    ensures forall k :: 0 <= k < |sheets| ==> r[k] == CsvName(parent, stem, sheets[k])
  {
    seq(|sheets|, k requires 0 <= k < |sheets| => CsvName(parent, stem, sheets[k]))
  }

  /** The sheet loop: writes one CSV per eligible sheet in order and stops at
      the first sheet that raises; `ok` tells whether the loop finished. */
  function WriteSheets(parent: string, stem: string, sheets: seq<string>, filter: set<string>, failing: set<string>)
    : (r: (seq<string>, bool))
    ensures r.1 <==> forall s :: s in sheets && s !in filter ==> s !in failing
    ensures |r.0| <= |Eligible(sheets, filter)|
    ensures r.0 == CsvNames(parent, stem, Eligible(sheets, filter))[..|r.0|]
    ensures r.1 ==> r.0 == CsvNames(parent, stem, Eligible(sheets, filter))
    ensures !r.1 ==> var e := Eligible(sheets, filter);
      && |r.0| < |e|
      && e[|r.0|] in failing
      && forall k :: 0 <= k < |r.0| ==> e[k] !in failing
  {
    if |sheets| == 0 then ([], true)
    else
      SheetsCons(sheets, filter, failing);
      if sheets[0] in filter then WriteSheets(parent, stem, sheets[1..], filter, failing)
      else if sheets[0] in failing then ([], false)
      else
        var rest := WriteSheets(parent, stem, sheets[1..], filter, failing);
        WriteSheetsCons(parent, stem, sheets, filter, failing, rest.0, rest.1);
        ([CsvName(parent, stem, sheets[0])] + rest.0, rest.1)
  }

  /** A sheet list is its first sheet and the rest. */
  lemma SheetsCons(sheets: seq<string>, filter: set<string>, failing: set<string>)
    requires |sheets| > 0
    ensures (forall s :: s in sheets && s !in filter ==> s !in failing) <==>
      ((sheets[0] in filter || sheets[0] !in failing)
       && forall s :: s in sheets[1..] && s !in filter ==> s !in failing)
    ensures sheets[0] in filter ==> Eligible(sheets, filter) == Eligible(sheets[1..], filter)
  {
    assert forall s :: s in sheets <==> s == sheets[0] || s in sheets[1..] by {
      assert sheets == [sheets[0]] + sheets[1..];
    }
  }

  /** Writing a converted first sheet before what the rest of the loop
      wrote keeps the loop's contract. */
  lemma WriteSheetsCons(parent: string, stem: string, sheets: seq<string>, filter: set<string>, failing: set<string>,
                        written: seq<string>, ok: bool)
    requires |sheets| > 0 && sheets[0] !in filter && sheets[0] !in failing
    requires ok <==> forall s :: s in sheets[1..] && s !in filter ==> s !in failing
    requires |written| <= |Eligible(sheets[1..], filter)|
    requires written == CsvNames(parent, stem, Eligible(sheets[1..], filter))[..|written|]
    requires ok ==> written == CsvNames(parent, stem, Eligible(sheets[1..], filter))
    requires !ok ==> var e := Eligible(sheets[1..], filter);
      && |written| < |e|
      && e[|written|] in failing
      && forall k :: 0 <= k < |written| ==> e[k] !in failing
    ensures var r := [CsvName(parent, stem, sheets[0])] + written;
      && (ok <==> forall s :: s in sheets && s !in filter ==> s !in failing)
      && |r| <= |Eligible(sheets, filter)|
      && r == CsvNames(parent, stem, Eligible(sheets, filter))[..|r|]
      && (ok ==> r == CsvNames(parent, stem, Eligible(sheets, filter)))
      && (!ok ==> var e := Eligible(sheets, filter);
            && |r| < |e|
            && e[|r|] in failing
            && forall k :: 0 <= k < |r| ==> e[k] !in failing)
  {
    SheetsCons(sheets, filter, failing);
    EligibleNamesCons(parent, stem, sheets, filter, |written|);
    FailurePrefixCons(sheets, filter, failing, |written|, ok);
  }

  /** A first sheet that is converted moves the first failing eligible
      sheet of the rest one place on. */
  lemma FailurePrefixCons(sheets: seq<string>, filter: set<string>, failing: set<string>, n: nat, ok: bool)
    requires |sheets| > 0 && sheets[0] !in filter && sheets[0] !in failing
    requires !ok ==> var e := Eligible(sheets[1..], filter);
      n < |e| && e[n] in failing && forall k :: 0 <= k < n ==> e[k] !in failing
    ensures !ok ==> var e := Eligible(sheets, filter);
      n + 1 < |e| && e[n + 1] in failing && forall k :: 0 <= k < n + 1 ==> e[k] !in failing
  {
    var e := Eligible(sheets, filter);
    var tail := Eligible(sheets[1..], filter);
    assert e == [sheets[0]] + tail;
    if !ok {
      forall k | 0 <= k < n + 1 ensures e[k] !in failing {
        if k > 0 {
          assert e[k] == tail[k - 1];
        }
      }
    }
  }

  /** The CSV names of an eligible first sheet and of the rest. */
  lemma EligibleNamesCons(parent: string, stem: string, sheets: seq<string>, filter: set<string>, n: nat)
    requires |sheets| > 0 && sheets[0] !in filter
    requires n <= |Eligible(sheets[1..], filter)|
    ensures var all := CsvNames(parent, stem, Eligible(sheets, filter));
      var tail := CsvNames(parent, stem, Eligible(sheets[1..], filter));
      && all == [CsvName(parent, stem, sheets[0])] + tail
      && all[..1 + n] == [CsvName(parent, stem, sheets[0])] + tail[..n]
  {
    var all := CsvNames(parent, stem, Eligible(sheets, filter));
    var tail := CsvNames(parent, stem, Eligible(sheets[1..], filter));
    assert all == [CsvName(parent, stem, sheets[0])] + tail;
  }

  datatype Conversion = Conversion(written: seq<string>, count: nat)

  /** One workbook: the files written (kept even when a later sheet fails) and
      the count returned, which is the number of eligible sheets, or 0 when
      the workbook cannot be opened or any sheet raises. */
  function ConvertWorkbook(b: Workbook, filter: set<string>): (c: Conversion)
    ensures b.sheets.None? ==> c == Conversion([], 0)
    ensures b.sheets.Some? ==> |c.written| <= |Eligible(b.sheets.value, filter)|
    ensures b.sheets.Some? ==>
      var expected := CsvNames(b.parent, b.stem, Eligible(b.sheets.value, filter));
      && c.written == expected[..|c.written|]
      && ((forall s :: s in b.sheets.value && s !in filter ==> s !in b.failing)
          ==> c.written == expected && c.count == |Eligible(b.sheets.value, filter)|)
      && ((exists s :: s in b.sheets.value && s !in filter && s in b.failing) ==> c.count == 0)
    ensures b.sheets.Some? && (exists s :: s in b.sheets.value && s !in filter && s in b.failing) ==>
      var e := Eligible(b.sheets.value, filter);
      && |c.written| < |e|
      && e[|c.written|] in b.failing
      && forall k :: 0 <= k < |c.written| ==> e[k] !in b.failing
  {
    match b.sheets
    case None => Conversion([], 0)
    case Some(sheets) =>
      var (written, ok) := WriteSheets(b.parent, b.stem, sheets, filter, b.failing);
      Conversion(written, if ok then |written| else 0)
  }

  /** The fan-in total of `_process_excel_files_parallel`. */
  function ConvertAll(books: seq<Workbook>, filter: set<string>): nat {
    if |books| == 0 then 0 else ConvertWorkbook(books[0], filter).count + ConvertAll(books[1..], filter)
  }

  lemma {:induction false} ConvertAllAppend(a: seq<Workbook>, b: seq<Workbook>, filter: set<string>)
    ensures ConvertAll(a + b, filter) == ConvertAll(a, filter) + ConvertAll(b, filter)
  {
    if |a| > 0 {
      assert (a + b)[1..] == a[1..] + b;
      ConvertAllAppend(a[1..], b, filter);
    } else {
      assert a + b == b;
    }
  }

  /** Taking one workbook out of the list takes exactly its count out of the total. */
  lemma ConvertAllRemove(b: seq<Workbook>, k: int, filter: set<string>)
    requires 0 <= k < |b|
    ensures ConvertAll(b, filter) == ConvertWorkbook(b[k], filter).count + ConvertAll(b[..k] + b[k + 1..], filter)
  {
    assert b == b[..k] + ([b[k]] + b[k + 1..]);
    ConvertAllAppend(b[..k], [b[k]] + b[k + 1..], filter);
    ConvertAllAppend(b[..k], b[k + 1..], filter);
    assert ([b[k]] + b[k + 1..])[1..] == b[k + 1..];
  }

  /** The worker pool finishes workbooks in any order; the reported total is
      the same for every order, so the sequential sum is a faithful model. */
  lemma {:induction false} ConvertAllOrderIndependent(a: seq<Workbook>, b: seq<Workbook>, filter: set<string>)
    requires multiset(a) == multiset(b)
    ensures ConvertAll(a, filter) == ConvertAll(b, filter)
    decreases |a|
  {
    if |a| == 0 {
      assert |multiset(b)| == 0;
    } else {
      assert a[0] in multiset(b);
      var k := IndexOf(b, a[0]);
      var rest := b[..k] + b[k + 1..];
      MultisetRemove(a, b, k);
      ConvertAllOrderIndependent(a[1..], rest, filter);
      ConvertAllRemove(b, k, filter);
    }
  }

  /** Removing the first element of one list and an equal element of a
      permutation of it leaves permutations of each other. */
  lemma MultisetRemove<T>(a: seq<T>, b: seq<T>, k: nat)
    requires multiset(a) == multiset(b) && |a| > 0 && k < |b| && b[k] == a[0]
    ensures multiset(a[1..]) == multiset(b[..k] + b[k + 1..])
  {
    var rest := b[..k] + b[k + 1..];
    assert b == b[..k] + [b[k]] + b[k + 1..];
    assert a == [a[0]] + a[1..];
    assert multiset(b) == multiset(b[..k]) + multiset([b[k]]) + multiset(b[k + 1..]);
    assert multiset(rest) == multiset(b[..k]) + multiset(b[k + 1..]);
    assert multiset{a[0]} + multiset(a[1..]) == multiset{a[0]} + multiset(rest);
    forall x
      ensures multiset(a[1..])[x] == multiset(rest)[x]
    {
      assert (multiset{a[0]} + multiset(a[1..]))[x] == (multiset{a[0]} + multiset(rest))[x];
    }
  }

  // ---------------------------------------------------------------------
  // Encoding (`_detect_encoding`)
  // ---------------------------------------------------------------------

  /** The codec a CSV is read with, from the encoding `chardet` reports (None
      when it reports none). */
  function NormaliseEncoding(detected: Option<string>): (r: string)
    ensures r == "utf-8" || r == "gbk"
    ensures r == "gbk" <==>
      detected.Some? && !Contains(Lower(detected.value), "utf") && Contains(Lower(detected.value), "gb")
  {
    var name := if detected.None? || detected.value == "" then "utf-8" else detected.value;
    var lowered := Lower(name);
    assert Lower("utf-8") == "utf-8";
    assert StartsWith(Lower("utf-8"), "utf");
    assert !Contains(Lower(""), "gb");
    if Contains(lowered, "utf") then "utf-8"
    else if Contains(lowered, "gb") then "gbk"
    else "utf-8"
  }

  // ---------------------------------------------------------------------
  // One CSV file (`_process_csv_file_fast`)
  // ---------------------------------------------------------------------

  /** Files matching at most this many known columns are not loaded. */
  const MaxRejectedMatches := 3
  /** Cells longer than this are cut to this length. */
  const MaxCellLength := 200
  /** What a missing cell becomes. */
  const MissingCell := "0"

  /** `col_mapping`: the headers found in the field map, keyed by header in
      header order, each mapped to its canonical column. */
  function ColumnMapping(headers: seq<string>, fieldMap: map<string, string>): (d: seq<Entry<string, string>>)
    ensures DistinctKeys(d)
    ensures forall k :: 0 <= k < |d| ==>
      d[k].key in headers && d[k].key in fieldMap && d[k].value == fieldMap[d[k].key]
    ensures forall h :: h in headers && h in fieldMap ==> HasKey(d, h)
    ensures forall k, l :: 0 <= k < l < |d| ==> IndexOf(headers, d[k].key) < IndexOf(headers, d[l].key)
  {
    if |headers| == 0 then []
    else
      var init := headers[..|headers| - 1];
      var h := headers[|headers| - 1];
      var d0 := ColumnMapping(init, fieldMap);
      assert headers == init + [h];
      MappingKeepsPositions(init, h, d0);
      if h !in fieldMap then d0
      else
        MappingPut(init, h, fieldMap, d0);
        Put(d0, h, fieldMap[h])
  }

  /** Appending a header moves none of the earlier keys. */
  lemma MappingKeepsPositions(init: seq<string>, h: string, d0: seq<Entry<string, string>>)
    requires forall k :: 0 <= k < |d0| ==> d0[k].key in init
    ensures forall k :: 0 <= k < |d0| ==> IndexOf(init + [h], d0[k].key) == IndexOf(init, d0[k].key)
  {
    forall k | 0 <= k < |d0|
      ensures IndexOf(init + [h], d0[k].key) == IndexOf(init, d0[k].key)
    {
      assert (init + [h])[..|init|] == init;
      IndexOfPrefix(init + [h], |init|, d0[k].key);
    }
  }

  /** Adding a known header to the mapping of the headers before it: an
      earlier occurrence keeps its place, a first occurrence goes last. */
  lemma MappingPut(init: seq<string>, h: string, fieldMap: map<string, string>, d0: seq<Entry<string, string>>)
    requires h in fieldMap
    requires DistinctKeys(d0)
    requires forall k :: 0 <= k < |d0| ==>
      d0[k].key in init && d0[k].key in fieldMap && d0[k].value == fieldMap[d0[k].key]
    requires forall x :: x in init && x in fieldMap ==> HasKey(d0, x)
    requires forall k, l :: 0 <= k < l < |d0| ==> IndexOf(init + [h], d0[k].key) < IndexOf(init + [h], d0[l].key)
    ensures var d := Put(d0, h, fieldMap[h]);
      && (forall k :: 0 <= k < |d| ==>
            d[k].key in init + [h] && d[k].key in fieldMap && d[k].value == fieldMap[d[k].key])
      && (forall x :: x in init + [h] && x in fieldMap ==> HasKey(d, x))
      && (forall k, l :: 0 <= k < l < |d| ==> IndexOf(init + [h], d[k].key) < IndexOf(init + [h], d[l].key))
  {
    var headers := init + [h];
    var d := Put(d0, h, fieldMap[h]);
    forall x | x in headers && x in fieldMap
      ensures HasKey(d, x)
    {
      PutHasKey(d0, h, fieldMap[h], x);
    }
    if !HasKey(d0, h) {
      assert h !in init;
      assert IndexOf(headers, h) == |init|;
    }
  }

  /** Cleaning of one cell: a missing cell becomes "0", every `%` is removed,
      and the result is cut to its first 200 characters. */
  function CleanCell(cell: Option<string>): (r: string)
    ensures cell.None? ==> r == MissingCell
    ensures '%' !in r
    ensures |r| <= MaxCellLength
    ensures cell.Some? && '%' !in cell.value && |cell.value| <= MaxCellLength ==> r == cell.value
    ensures cell.Some? ==> |r| <= |DeleteChar(cell.value, '%')| && r == DeleteChar(cell.value, '%')[..|r|]
    ensures cell.Some? ==>
      |r| == if |DeleteChar(cell.value, '%')| < MaxCellLength then |DeleteChar(cell.value, '%')| else MaxCellLength
  {
    var s := DeleteChar(cell.GetOr(MissingCell), '%');
    Take(s, MaxCellLength)
  }

  /** Cleaning a cleaned cell changes nothing. */
  lemma CleanCellIdempotent(cell: Option<string>)
    ensures CleanCell(Some(CleanCell(cell))) == CleanCell(cell)
  {
  }

  /** What pandas hands over for one CSV: its path, header, and rows of cells
      aligned to the header (None for an empty field). */
  datatype CsvFile = CsvFile(path: string, headers: seq<string>, rows: seq<seq<Option<string>>>)

  predicate WellShaped(f: CsvFile) {
    forall i :: 0 <= i < |f.rows| ==> |f.rows[i]| == |f.headers|
  }

  datatype CsvOutcome =
    | Skipped   // too few known columns in a `kpis` file: a warning, 0 rows
    | Rejected  // too few known columns otherwise: ValueError
    | Loaded(columns: seq<string>, rows: seq<seq<string>>)

  /** The selected, cleaned cells of one row, in mapping order. */
  function SelectRow(headers: seq<string>, row: seq<Option<string>>, source: seq<string>): (r: seq<string>)
    requires |row| == |headers|
    requires forall k :: 0 <= k < |source| ==> source[k] in headers
    ensures |r| == |source|
  {
    seq(|source|, k requires 0 <= k < |source| => CleanCell(row[IndexOf(headers, source[k])]))
  }

  /** One CSV file up to the insert: the mapped columns become the table's
      columns, every row becomes a tuple of cleaned cells of that width, and a
      file with at most three known columns is skipped (`kpis` in its
      lower-cased path) or rejected (otherwise). */
  function ProcessCsv(f: CsvFile, fieldMap: map<string, string>): (r: CsvOutcome)
    requires WellShaped(f)
    ensures var d := ColumnMapping(f.headers, fieldMap);
      && (r.Loaded? <==> |d| > MaxRejectedMatches)
      && (r.Skipped? <==> |d| <= MaxRejectedMatches && Contains(Lower(f.path), "kpis"))
      && (r.Loaded? ==>
            && r.columns == Values(d)
            && |r.rows| == |f.rows|
            && (forall i :: 0 <= i < |r.rows| ==> |r.rows[i]| == |r.columns|)
            && (forall i, k :: 0 <= i < |r.rows| && 0 <= k < |d| ==>
                  r.rows[i][k] == CleanCell(f.rows[i][IndexOf(f.headers, d[k].key)])))
  {
    var d := ColumnMapping(f.headers, fieldMap);
    if |d| <= MaxRejectedMatches then
      if Contains(Lower(f.path), "kpis") then Skipped else Rejected
    else
      var source := Keys(d);
      Loaded(Values(d), seq(|f.rows|, i requires 0 <= i < |f.rows| => SelectRow(f.headers, f.rows[i], source)))
  }

  // ---------------------------------------------------------------------
  // Data directories (`_find_data_directories`)
  // ---------------------------------------------------------------------

  /** A directory of the working tree: its path and its last component. */
  datatype Dir = Dir(path: string, name: string)

  /** Directory names that mark a report category. */
  const TagNames: set<string> := {"4G", "5G", "4g", "5g"}

  predicate IsTagged(d: Dir) {
    d.name in TagNames
  }

  function TagTable(name: string): string {
    Upper(name) + "_UD"
  }

  lemma TagTableValues(name: string)
    requires name in TagNames
    ensures TagTable(name) == "4G_UD" || TagTable(name) == "5G_UD"
  {
    assert Upper("4g") == "4G" && Upper("4G") == "4G";
    assert Upper("5g") == "5G" && Upper("5G") == "5G";
  }

  /** The tag pass over the recursive walk: a tagged directory claims its
      table unless an earlier one already has. */
  function TagTables(found: seq<Dir>): (d: seq<Entry<string, Dir>>)
    ensures DistinctKeys(d)
    ensures forall k :: 0 <= k < |d| ==>
      d[k].value in found && IsTagged(d[k].value) && d[k].key == TagTable(d[k].value.name)
    ensures forall j :: 0 <= j < |found| && IsTagged(found[j]) ==> HasKey(d, TagTable(found[j].name))
  {
    if |found| == 0 then []
    else
      var init := found[..|found| - 1];
      var x := found[|found| - 1];
      var d0 := TagTables(init);
      assert found == init + [x];
      if !IsTagged(x) || HasKey(d0, TagTable(x.name)) then d0
      else Put(d0, TagTable(x.name), x)
  }

  /** The first tagged directory found for a table name is the one kept. */
  lemma {:induction false} TagTablesFirstWins(found: seq<Dir>, k: int, j: int)
    requires 0 <= k < |TagTables(found)|
    requires 0 <= j < |found| && IsTagged(found[j])
    requires TagTable(found[j].name) == TagTables(found)[k].key
    ensures IndexOf(found, TagTables(found)[k].value) <= j
  {
    var d := TagTables(found);
    var init := found[..|found| - 1];
    var x := found[|found| - 1];
    var d0 := TagTables(init);
    assert found == init + [x];
    if k < |d0| && d[k] == d0[k] {
      assert found[..|found| - 1] == init;
      IndexOfPrefix(found, |found| - 1, d0[k].value);
      if j < |found| - 1 {
        assert init[j] == found[j];
        TagTablesFirstWins(init, k, j);
      } else {
        var j0 := IndexOf(init, d0[k].value);
      }
    } else {
      assert d[k].value == x;
    }
  }

  /** The fallback pass over the immediate subdirectories: `<name>_UD` each. */
  function ChildTables(children: seq<Dir>): (d: seq<Entry<string, Dir>>)
    ensures DistinctKeys(d)
    ensures forall k :: 0 <= k < |d| ==> d[k].value in children && d[k].key == d[k].value.name + "_UD"
    ensures forall j :: 0 <= j < |children| ==> HasKey(d, children[j].name + "_UD")
  {
    if |children| == 0 then []
    else
      var init := children[..|children| - 1];
      var x := children[|children| - 1];
      var d0 := ChildTables(init);
      assert children == init + [x];
      ChildTablesPut(init, x, d0);
      Put(d0, x.name + "_UD", x)
  }

  /** Assigning one more subdirectory's table to the tables of the ones
      before it. */
  lemma ChildTablesPut(init: seq<Dir>, x: Dir, d0: seq<Entry<string, Dir>>)
    requires DistinctKeys(d0)
    requires forall k :: 0 <= k < |d0| ==> d0[k].value in init && d0[k].key == d0[k].value.name + "_UD"
    requires forall j :: 0 <= j < |init| ==> HasKey(d0, init[j].name + "_UD")
    ensures var d := Put(d0, x.name + "_UD", x);
      && (forall k :: 0 <= k < |d| ==> d[k].value in init + [x] && d[k].key == d[k].value.name + "_UD")
      && (forall j :: 0 <= j < |init + [x]| ==> HasKey(d, (init + [x])[j].name + "_UD"))
  {
    var d := Put(d0, x.name + "_UD", x);
    var children := init + [x];
    forall j | 0 <= j < |children|
      ensures HasKey(d, children[j].name + "_UD")
    {
      PutHasKey(d0, x.name + "_UD", x, children[j].name + "_UD");
      if j < |init| {
        assert children[j] == init[j];
      }
    }
    forall k | 0 <= k < |d|
      ensures d[k].value in children && d[k].key == d[k].value.name + "_UD"
    {
      if k >= |d0| || d0[k].key == x.name + "_UD" {
        assert d[k].value == x;
      } else {
        assert d[k] == d0[k];
      }
    }
  }

  /** `{table: directory}` in insertion order.  When the walk finds any `4G`,
      `5G`, `4g` or `5g` directory the tables are `4G_UD`/`5G_UD`, each claimed
      by the first such directory found; otherwise every immediate
      subdirectory gets its own `<name>_UD` table. */
  function FindDataDirectories(walk: seq<Dir>, children: seq<Dir>): (d: seq<Entry<string, Dir>>)
    ensures DistinctKeys(d)
    ensures (exists j :: 0 <= j < |walk| && IsTagged(walk[j])) ==>
      && (forall k :: 0 <= k < |d| ==>
            && d[k].value in walk && IsTagged(d[k].value)
            && d[k].key == TagTable(d[k].value.name)
            && (d[k].key == "4G_UD" || d[k].key == "5G_UD"))
      && (forall j :: 0 <= j < |walk| && IsTagged(walk[j]) ==> HasKey(d, TagTable(walk[j].name)))
    ensures (forall j :: 0 <= j < |walk| ==> !IsTagged(walk[j])) ==>
      && (forall k :: 0 <= k < |d| ==> d[k].value in children && d[k].key == d[k].value.name + "_UD")
      && (forall j :: 0 <= j < |children| ==> HasKey(d, children[j].name + "_UD"))
  {
    var tagged := TagTables(walk);
    if |tagged| > 0 then
      assert IsTagged(walk[IndexOf(walk, tagged[0].value)]);
      assert forall k :: 0 <= k < |tagged| ==> tagged[k].key == "4G_UD" || tagged[k].key == "5G_UD" by {
        forall k | 0 <= k < |tagged|
          ensures tagged[k].key == "4G_UD" || tagged[k].key == "5G_UD"
        {
          TagTableValues(tagged[k].value.name);
        }
      }
      tagged
    else
      ChildTables(children)
  }

  // ---------------------------------------------------------------------
  // SQL script (`_execute_sql_script`)
  // ---------------------------------------------------------------------

  /** What happens on the script connection, in order. `index` is the
      statement's 1-based position in the split script. */
  datatype Step = Executed(index: nat, sql: string, succeeded: bool) | Committed

  /** A statement is sent unless it is blank or starts with `#` once stripped. */
  predicate Runnable(stmt: string) {
    var s := Strip(stmt);
    s != "" && !StartsWith(s, "#")
  }

  /** The statements that are sent, stripped, in script order. */
  function RunnableStatements(stmts: seq<string>): (r: seq<string>)
    ensures |r| <= |stmts|
  {
    if |stmts| == 0 then []
    else if Runnable(stmts[0]) then [Strip(stmts[0])] + RunnableStatements(stmts[1..])
    else RunnableStatements(stmts[1..])
  }

  function SentStatements(steps: seq<Step>): seq<string> {
    if |steps| == 0 then []
    else if steps[0].Executed? then [steps[0].sql] + SentStatements(steps[1..])
    else SentStatements(steps[1..])
  }

  /** `s` executes the stripped, runnable statement at its position of
      `stmts`, which is numbered from `first`. */
  predicate StepMatches(stmts: seq<string>, first: nat, s: Step) {
    && s.Executed?
    && first <= s.index < first + |stmts|
    && Runnable(stmts[s.index - first])
    && s.sql == Strip(stmts[s.index - first])
  }

  /** `steps` is how the loop runs over `stmts`, numbered from `first`,
      when the positions in `failing` raise: each step executes the
      stripped runnable statement at its position, positions strictly
      increase, and a step succeeds exactly when its position does not
      raise. */
  predicate Aligned(stmts: seq<string>, first: nat, failing: set<nat>, steps: seq<Step>) {
    && (forall k :: 0 <= k < |steps| ==> steps[k].Executed? && StepMatches(stmts, first, steps[k]))
    && (forall k, l :: 0 <= k < l < |steps| ==> steps[k].index < steps[l].index)
    && (forall k :: 0 <= k < |steps| ==> (steps[k].succeeded <==> steps[k].index !in failing))
  }

  /** The loop body over `stmts`, numbered from `first`; `failing` holds the
      positions whose execution raises.  There is one step per runnable
      statement, so with the positions distinct every runnable statement is
      executed. */
  function RunFrom(stmts: seq<string>, first: nat, failing: set<nat>): (steps: seq<Step>)
    ensures Aligned(stmts, first, failing, steps)
    ensures |steps| == |RunnableStatements(stmts)|
    ensures SentStatements(steps) == RunnableStatements(stmts)
  {
    if |stmts| == 0 then []
    else
      var rest := RunFrom(stmts[1..], first + 1, failing);
      RunFromShift(stmts, first, rest);
      if Runnable(stmts[0]) then
        var step := Executed(first, Strip(stmts[0]), first !in failing);
        var steps := [step] + rest;
        RunFromCons(stmts, first, failing, step, rest);
        assert steps[1..] == rest;
        steps
      else
        rest
  }

  /** Prepending the step of a runnable first statement keeps the loop
      aligned with the whole script. */
  lemma RunFromCons(stmts: seq<string>, first: nat, failing: set<nat>, step: Step, rest: seq<Step>)
    requires |stmts| > 0 && Runnable(stmts[0])
    requires step == Executed(first, Strip(stmts[0]), first !in failing)
    requires forall k :: 0 <= k < |rest| ==> rest[k].Executed? && StepMatches(stmts, first, rest[k])
    requires forall k :: 0 <= k < |rest| ==> first + 1 <= rest[k].index
    requires forall k, l :: 0 <= k < l < |rest| ==> rest[k].index < rest[l].index
    requires forall k :: 0 <= k < |rest| ==> (rest[k].succeeded <==> rest[k].index !in failing)
    ensures Aligned(stmts, first, failing, [step] + rest)
  {
    ConsMatches(stmts, first, step, rest);
    ConsSucceeded(failing, step, rest);
    ConsIncreasing(step, rest);
  }

  lemma ConsMatches(stmts: seq<string>, first: nat, step: Step, rest: seq<Step>)
    requires step.Executed? && StepMatches(stmts, first, step)
    requires forall k :: 0 <= k < |rest| ==> rest[k].Executed? && StepMatches(stmts, first, rest[k])
    ensures forall k :: 0 <= k < |[step] + rest| ==>
      ([step] + rest)[k].Executed? && StepMatches(stmts, first, ([step] + rest)[k])
  {
    var steps := [step] + rest;
    forall k | 0 <= k < |steps|
      ensures steps[k].Executed? && StepMatches(stmts, first, steps[k])
    {
      if k > 0 {
        assert steps[k] == rest[k - 1];
      }
    }
  }

  lemma ConsSucceeded(failing: set<nat>, step: Step, rest: seq<Step>)
    requires step.Executed? && (step.succeeded <==> step.index !in failing)
    requires forall k :: 0 <= k < |rest| ==> rest[k].Executed? && (rest[k].succeeded <==> rest[k].index !in failing)
    ensures forall k :: 0 <= k < |[step] + rest| ==>
      ([step] + rest)[k].Executed? && (([step] + rest)[k].succeeded <==> ([step] + rest)[k].index !in failing)
  {
    var steps := [step] + rest;
    forall k | 0 <= k < |steps|
      ensures steps[k].Executed? && (steps[k].succeeded <==> steps[k].index !in failing)
    {
      if k > 0 {
        assert steps[k] == rest[k - 1];
      }
    }
  }

  /** A step placed before steps at later positions keeps the positions
      strictly increasing. */
  lemma ConsIncreasing(step: Step, rest: seq<Step>)
    requires step.Executed? && forall k :: 0 <= k < |rest| ==> rest[k].Executed? && step.index < rest[k].index
    requires forall k, l :: 0 <= k < l < |rest| ==> rest[k].index < rest[l].index
    ensures forall k, l :: 0 <= k < l < |[step] + rest| ==> ([step] + rest)[k].index < ([step] + rest)[l].index
  {
    var steps := [step] + rest;
    forall k, l | 0 <= k < l < |steps|
      ensures steps[k].index < steps[l].index
    {
      assert steps[l] == rest[l - 1];
      if k > 0 {
        assert steps[k] == rest[k - 1];
      }
    }
  }

  /** The steps of the rest of the script, seen from the whole script. */
  lemma RunFromShift(stmts: seq<string>, first: nat, rest: seq<Step>)
    requires |stmts| > 0
    requires forall k :: 0 <= k < |rest| ==> StepMatches(stmts[1..], first + 1, rest[k])
    ensures forall k :: 0 <= k < |rest| ==> StepMatches(stmts, first, rest[k]) && first + 1 <= rest[k].index
  {
    forall k | 0 <= k < |rest|
      ensures StepMatches(stmts, first, rest[k])
    {
      StepShift(stmts, first, rest[k]);
    }
  }

  lemma StepShift(stmts: seq<string>, first: nat, s: Step)
    requires |stmts| > 0 && StepMatches(stmts[1..], first + 1, s)
    ensures StepMatches(stmts, first, s)
  {
    assert stmts[1..][s.index - (first + 1)] == stmts[s.index - first];
  }

  datatype ScriptRun =
    | NoScript                // the script file does not exist: a warning
    | Raised(steps: seq<Step>) // the connection or the final commit raised
    | Ran(steps: seq<Step>)

  /** The script stage: nothing when the file is missing; an exception
      before any statement when the connection fails (`connects` false);
      otherwise every runnable statement is sent in order whatever happened
      to the ones before it, and the transaction is committed exactly once,
      at the end, unless the commit itself raises (`commits` false). */
  function ExecuteScript(script: Option<seq<string>>, failing: set<nat>, connects: bool, commits: bool): (r: ScriptRun)
    ensures script.None? <==> r.NoScript?
    ensures r.Raised? <==> script.Some? && !(connects && commits)
    ensures r.Raised? && !connects ==> r.steps == []
    ensures r.Raised? && connects ==>
      && Aligned(script.value, 1, failing, r.steps)
      && |r.steps| == |RunnableStatements(script.value)|
    ensures r.Ran? ==>
      && |r.steps| >= 1 && r.steps[|r.steps| - 1] == Committed
      && Aligned(script.value, 1, failing, r.steps[..|r.steps| - 1])
      && |r.steps| - 1 == |RunnableStatements(script.value)|
    ensures script.Some? && connects ==> SentStatements(r.steps) == RunnableStatements(script.value)
  {
    match script
    case None => NoScript
    case Some(stmts) =>
      if !connects then Raised([])
      else
        var steps := RunFrom(stmts, 1, failing);
        if commits then
          SentStatementsAppend(steps, [Committed]);
          assert (steps + [Committed])[..|steps|] == steps;
          Ran(steps + [Committed])
        else Raised(steps)
  }

  lemma {:induction false} SentStatementsAppend(a: seq<Step>, b: seq<Step>)
    ensures SentStatements(a + b) == SentStatements(a) + SentStatements(b)
  {
    if |a| > 0 {
      assert (a + b)[1..] == a[1..] + b;
      SentStatementsAppend(a[1..], b);
    } else {
      assert a + b == b;
    }
  }

  /** A failing statement never stops the script: which statements are sent
      does not depend on which of them fail. */
  lemma FailuresDoNotStopScript(stmts: seq<string>, failing1: set<nat>, failing2: set<nat>, commits: bool)
    ensures SentStatements(ExecuteScript(Some(stmts), failing1, true, commits).steps)
         == SentStatements(ExecuteScript(Some(stmts), failing2, true, commits).steps)
  {
  }
}

=== FILE: tasklock.dfy ===
/**
 The service-wide task lock (`global_task_lock` in app/main.py): lock
 requests, new upload sessions and script runs are refused while it is
 held.  Every endpoint that touches the
 lock is a transition from the lock before the request to the lock after it
 plus the answer sent back; clocks, identifiers and the outcome of the work
 the request starts are parameters.
 */
module TaskLock {
  import opened Text
  import opened Dict
  import opened Json
  import opened History

  datatype Stage = Uploading | Processing

  /** The four keys of `global_task_lock`. */
  datatype Lock = Lock(locked: bool, taskId: Option<string>, stage: Option<Stage>, startedAt: Option<string>)

  /** The lock as the service starts, and as every release leaves it. */
  const Free := Lock(false, None, None, None)

  /** A held lock names its holder, its stage and its start time; a free
      lock names nothing. */
  predicate WellFormed(l: Lock) {
    if l.locked then l.taskId.Some? && l.stage.Some? && l.startedAt.Some? else l == Free
  }

  function Hold(id: string, stage: Stage, now: string): (l: Lock)
    ensures WellFormed(l) && l.locked
  {
    Lock(true, Some(id), Some(stage), Some(now))
  }

  /** The answer to a lock request: the new lock, or an HTTP refusal. */
  datatype Outcome = Granted(lock: Lock) | Refused(code: int)

  // ---------------------------------------------------------------------
  // lock_task / unlock_task
  // ---------------------------------------------------------------------

  /** `lock_task`: 409 while the lock is held, otherwise the caller holds it
      in the uploading stage. */
  function LockTask(l: Lock, id: string, now: string): (o: Outcome)
    ensures l.locked <==> o == Refused(409)
    ensures !l.locked ==> o == Granted(Lock(true, Some(id), Some(Uploading), Some(now)))
  {
    if l.locked then Refused(409) else Granted(Hold(id, Uploading, now))
  }

  /** `unlock_task`: a non-empty id that is not the holder's is refused with
      403; anything else (no id, an empty id, the holder's id) frees the
      lock. */
  function UnlockTask(l: Lock, id: Option<string>): (o: Outcome)
    ensures o.Refused? <==> (id.Some? && id.value != "" && l.taskId != id)
    ensures o.Refused? ==> o.code == 403
    ensures o.Granted? ==> o.lock == Free
  {
    if id.Some? && id.value != "" && l.taskId != id then Refused(403) else Granted(Free)
  }

  /** Locking and then unlocking with the same id returns the lock to its
      free state; any other non-empty id is refused and the lock stays
      held. */
  lemma LockUnlockRoundTrip(l: Lock, id: string, other: string, now: string)
    requires !l.locked
    requires other != "" && other != id
    ensures LockTask(l, id, now).Granted?
    ensures UnlockTask(LockTask(l, id, now).lock, Some(id)) == Granted(Free)
    ensures UnlockTask(LockTask(l, id, now).lock, Some(other)) == Refused(403)
  {
  }

  // ---------------------------------------------------------------------
  // get_global_task_status
  // ---------------------------------------------------------------------

  /** An entry of `processing_tasks`: its `status` (None when the key is
      absent) and its `logs`. */
  datatype Task = Task(status: Option<string>, logs: seq<string>)

  /** What the status endpoint reports. */
  datatype Report =
    | Idle
    | Held(taskId: Option<string>, stage: Option<Stage>, startedAt: Option<string>)
    | Running(task: string, logs: seq<string>)

  predicate Finished(status: Option<string>) {
    status == Some("completed") || status == Some("failed")
  }

  /** The holder's history record says it has finished. */
  predicate RecordFinished(records: seq<Obj>, id: string) {
    var r := GetRecord(records, id);
    r.Some? && (r.value.status == Str("completed") || r.value.status == Str("failed"))
  }

  /** The holder's in-memory task says it has finished. */
  predicate TaskFinished(tasks: seq<Entry<string, Task>>, id: string) {
    var t := Get(tasks, id);
    t.Some? && Finished(t.value.status)
  }

  /** The first task, in insertion order, whose status is "processing". */
  function FirstProcessing(tasks: seq<Entry<string, Task>>): (r: Option<Entry<string, Task>>)
    ensures r.None? <==> forall i :: 0 <= i < |tasks| ==> tasks[i].value.status != Some("processing")
    ensures r.Some? ==> r.value in tasks && r.value.value.status == Some("processing")
    ensures r.Some? ==>
      exists i :: 0 <= i < |tasks| && tasks[i] == r.value
        && forall j :: 0 <= j < i ==> tasks[j].value.status != Some("processing")
  {
    if |tasks| == 0 then None
    else if tasks[0].value.status == Some("processing") then Some(tasks[0])
    else
      var r := FirstProcessing(tasks[1..]);
      assert r.Some? ==>
        exists i :: 0 <= i < |tasks| && tasks[i] == r.value
          && forall j :: 0 <= j < i ==> tasks[j].value.status != Some("processing") by {
        if r.Some? {
          var i :| 0 <= i < |tasks[1..]| && tasks[1..][i] == r.value
            && forall j :: 0 <= j < i ==> tasks[1..][j].value.status != Some("processing");
          assert tasks[i + 1] == r.value;
          forall j | 0 <= j < i + 1 ensures tasks[j].value.status != Some("processing") {
            if j > 0 {
              assert tasks[j] == tasks[1..][j - 1];
            }
          }
        }
      }
      assert r.None? ==> forall i :: 0 <= i < |tasks| ==> tasks[i].value.status != Some("processing") by {
        if r.None? {
          forall i | 0 <= i < |tasks| ensures tasks[i].value.status != Some("processing") {
            if i > 0 {
              assert tasks[i] == tasks[1..][i - 1];
            }
          }
        }
      }
      r
  }

  /** `get_global_task_status`: a held lock whose holder has finished
      (according to its history record or its in-memory task) is released
      and nothing is reported active; a held lock otherwise reports its
      holder; a free lock reports the first task still processing. */
  function Status(l: Lock, records: seq<Obj>, tasks: seq<Entry<string, Task>>): (r: (Lock, Report))
    ensures l.locked && l.taskId.Some? && l.taskId.value != ""
            && (RecordFinished(records, l.taskId.value) || TaskFinished(tasks, l.taskId.value))
            ==> r == (Free, Idle)
    ensures l.locked && (l.taskId.None? || l.taskId.value == ""
            || !(RecordFinished(records, l.taskId.value) || TaskFinished(tasks, l.taskId.value)))
            ==> r == (l, Held(l.taskId, l.stage, l.startedAt))
    ensures !l.locked ==> r.0 == l
    ensures !l.locked ==> (r.1.Idle? <==> forall i :: 0 <= i < |tasks| ==> tasks[i].value.status != Some("processing"))
    ensures !l.locked && r.1.Running? ==>
      exists i :: 0 <= i < |tasks|
        && tasks[i] == Entry(r.1.task, Task(Some("processing"), r.1.logs))
        && forall j :: 0 <= j < i ==> tasks[j].value.status != Some("processing")
  {
    if l.locked then
      if l.taskId.Some? && l.taskId.value != "" && RecordFinished(records, l.taskId.value) then (Free, Idle)
      else if l.taskId.Some? && l.taskId.value != "" && TaskFinished(tasks, l.taskId.value) then (Free, Idle)
      else (l, Held(l.taskId, l.stage, l.startedAt))
    else
      match FirstProcessing(tasks)
      case None => (l, Idle)
      case Some(e) => (l, Running(e.key, e.value.logs))
  }

  /** Asking for the status never leaves a held lock with a finished holder,
      and never takes a lock. */
  lemma StatusReleasesFinished(l: Lock, records: seq<Obj>, tasks: seq<Entry<string, Task>>)
    requires WellFormed(l)
    ensures WellFormed(Status(l, records, tasks).0)
    ensures Status(l, records, tasks).0.locked ==> Status(l, records, tasks).0 == l
    ensures Status(l, records, tasks).0.locked && l.taskId.value != ""
            ==> !RecordFinished(records, l.taskId.value) && !TaskFinished(tasks, l.taskId.value)
    ensures !l.locked ==> !Status(l, records, tasks).0.locked
  {
  }

  // ---------------------------------------------------------------------
  // upload_files
  // ---------------------------------------------------------------------

  /** The answer to an upload: 400 without files, 409 when another task
      holds the lock, 500 when saving fails, or the session the files went
      to; `sessions` is the set of known session ids the request leaves. */
  datatype Upload =
    | NoFiles
    | Busy
    | SaveFailed(lock: Lock, sessions: set<string>)
    | Saved(lock: Lock, session: string, isNew: bool, sessions: set<string>)

  /** The request starts a new session: no session id, an empty one, or
      one the server does not know. */
  predicate NewSession(sessions: set<string>, sessionId: Option<string>) {
    sessionId.None? || sessionId.value == "" || sessionId.value !in sessions
  }

  /** `upload_files`'s handling of the lock.  A new session is refused while
      the lock is held and otherwise takes it under the timestamp `stamp`;
      an existing session is refused while another task holds the lock.
      A new session is registered before the files are saved, so it stays
      known even when saving fails (`saveOk` false), while the lock it took
      is given back. */
  function UploadFiles(l: Lock, sessions: set<string>, sessionId: Option<string>, hasFiles: bool,
                       stamp: string, now: string, saveOk: bool): (u: Upload)
    ensures !hasFiles <==> u.NoFiles?
    ensures u.Busy? <==> hasFiles && l.locked && (NewSession(sessions, sessionId) || l.taskId != sessionId)
    ensures u.Saved? && u.isNew ==> u.lock == Hold(stamp, Uploading, now) && u.session == stamp && !l.locked
    ensures u.Saved? && !u.isNew ==> u.lock == l && sessionId == Some(u.session) && u.session in sessions
    ensures u.Saved? ==> saveOk
    ensures u.Saved? ==> (u.isNew <==> NewSession(sessions, sessionId))
    ensures u.SaveFailed? ==> !saveOk && u.lock == (if NewSession(sessions, sessionId) then Free else l)
    ensures u.SaveFailed? || u.Saved? ==>
      u.sessions == if NewSession(sessions, sessionId) then sessions + {stamp} else sessions
  {
    if !hasFiles then NoFiles
    else if NewSession(sessions, sessionId) then
      if l.locked then Busy
      else if saveOk then Saved(Hold(stamp, Uploading, now), stamp, true, sessions + {stamp})
      else SaveFailed(Free, sessions + {stamp})
    else
      if l.locked && l.taskId != sessionId then Busy
      else if saveOk then Saved(l, sessionId.value, false, sessions)
      else SaveFailed(l, sessions)
  }

  /** The lock after an upload request: the one it leaves, or the one it
      found when it was refused. */
  function AfterUpload(l: Lock, u: Upload): Lock {
    match u
    case NoFiles => l
    case Busy => l
    case SaveFailed(after, _) => after
    case Saved(after, _, _, _) => after
  }

  /** The session ids known after an upload request. */
  function SessionsAfter(sessions: set<string>, u: Upload): set<string> {
    match u
    case NoFiles => sessions
    case Busy => sessions
    case SaveFailed(_, after) => after
    case Saved(_, _, _, after) => after
  }

  /** A failed upload leaves the lock exactly as the request found it, and
      no upload ever takes a lock from another task. */
  lemma UploadFailureRestores(l: Lock, sessions: set<string>, sessionId: Option<string>, hasFiles: bool,
                              stamp: string, now: string)
    requires WellFormed(l)
    ensures AfterUpload(l, UploadFiles(l, sessions, sessionId, hasFiles, stamp, now, false)) == l
  {
  }

  /** While a task holds the lock, only that task's own session can add
      files, and the lock stays with it. */
  lemma UploadKeepsHolder(l: Lock, sessions: set<string>, sessionId: Option<string>, hasFiles: bool,
                          stamp: string, now: string, saveOk: bool)
    requires l.locked
    ensures var u := UploadFiles(l, sessions, sessionId, hasFiles, stamp, now, saveOk);
      AfterUpload(l, u) == l && (u.Saved? ==> Some(u.session) == l.taskId)
  {
  }

  /** A new session whose save failed is still known, so a retry under its
      id is taken as an existing session: with the lock free it saves files
      without taking the lock. */
  lemma StaleSessionUploadsUnlocked(sessions: set<string>, stamp: string, retryStamp: string, now: string)
    requires stamp != ""
    ensures var u1 := UploadFiles(Free, sessions, None, true, stamp, now, false);
      && u1 == SaveFailed(Free, sessions + {stamp})
      && UploadFiles(AfterUpload(Free, u1), SessionsAfter(sessions, u1), Some(stamp), true, retryStamp, now, true)
         == Saved(Free, stamp, false, sessions + {stamp})
  {
  }

  // ---------------------------------------------------------------------
  // execute_script
  // ---------------------------------------------------------------------

  /** The answer to a script run: 409 while the lock is held, otherwise the
      lock held while the script runs, the lock once it has finished, and
      the status recorded for the task. */
  datatype ScriptRun = ScriptBusy | Ran(during: Lock, after: Lock, status: string)

  /** The task id `execute_script` makes up: "script_" and the first hex
      digits of a fresh UUID, here the parameter `token`. */
  function ScriptId(token: string): (id: string)
    ensures |id| > 0 && StartsWith(id, "script_")
  {
    "script_" + token
  }

  /** `execute_script`: refused while the lock is held; otherwise it holds
      the lock under a fresh script id in the processing stage while the
      script runs and, whether the script succeeds or fails, frees it in its
      `finally`. */
  function ExecuteScript(l: Lock, token: string, now: string, succeeded: bool): (r: ScriptRun)
    ensures l.locked <==> r.ScriptBusy?
    ensures r.Ran? ==> r.during.locked && r.during.taskId == Some(ScriptId(token)) && r.during.stage == Some(Processing)
    ensures r.Ran? ==> r.after == Free
    ensures r.Ran? ==> (r.status == "completed" <==> succeeded) && (r.status == "failed" <==> !succeeded)
  {
    if l.locked then ScriptBusy
    else Ran(Hold(ScriptId(token), Processing, now), Free, if succeeded then "completed" else "failed")
  }

  /** Once a script has run and its entry in `processing_tasks` records its
      status, the status endpoint reports nothing active as long as no other
      task is processing, whether it finds the lock already freed or (had
      the `finally` not yet run) still held by the script. */
  lemma ScriptEndsIdle(l: Lock, token: string, now: string, succeeded: bool, records: seq<Obj>,
                       tasks: seq<Entry<string, Task>>, logs: seq<string>)
    requires !l.locked
    requires DistinctKeys(tasks)
    requires forall i :: 0 <= i < |tasks| && tasks[i].key != ScriptId(token) ==>
      tasks[i].value.status != Some("processing")
    ensures var r := ExecuteScript(l, token, now, succeeded);
      var after := Put(tasks, ScriptId(token), Task(Some(r.status), logs));
      Status(r.after, records, after) == (Free, Idle)
        && Status(r.during, records, after) == (Free, Idle)
  {
    var r := ExecuteScript(l, token, now, succeeded);
    var id := ScriptId(token);
    var v := Task(Some(r.status), logs);
    var after := Put(tasks, id, v);
    GetPut(tasks, id, v, id);
    assert TaskFinished(after, id);
    forall i | 0 <= i < |after| ensures after[i].value.status != Some("processing") {
      if i < |tasks| {
        if tasks[i].key != id {
          assert after[i] == tasks[i];
        }
      } else {
        assert after == tasks + [Entry(id, v)];
      }
    }
  }

  // ---------------------------------------------------------------------
  // Lock invariants and refusals
  // ---------------------------------------------------------------------

  /** Every transition keeps the lock well formed. */
  lemma TransitionsWellFormed(l: Lock, id: string, other: Option<string>, now: string, sessions: set<string>,
                              hasFiles: bool, saveOk: bool, succeeded: bool)
    requires WellFormed(l)
    ensures LockTask(l, id, now).Granted? ==> WellFormed(LockTask(l, id, now).lock)
    ensures UnlockTask(l, other).Granted? ==> WellFormed(UnlockTask(l, other).lock)
    ensures WellFormed(AfterUpload(l, UploadFiles(l, sessions, other, hasFiles, id, now, saveOk)))
    ensures ExecuteScript(l, id, now, succeeded).Ran? ==> WellFormed(ExecuteScript(l, id, now, succeeded).during)
  {
  }

  /** A held lock turns away a lock request, a new upload session and a
      script run. */
  lemma HeldLockExcludes(l: Lock, id: string, now: string, sessions: set<string>, sessionId: Option<string>,
                         saveOk: bool, succeeded: bool)
    requires l.locked
    requires NewSession(sessions, sessionId)
    ensures LockTask(l, id, now) == Refused(409)
    ensures UploadFiles(l, sessions, sessionId, true, id, now, saveOk) == Busy
    ensures ExecuteScript(l, id, now, succeeded) == ScriptBusy
  {
  }
}

=== FILE: text.dfy ===
/**
 The string vocabulary the service relies on, written the way Python's `str`
 methods behave: `isspace`, `strip`, `lower`/`upper`, `in`, `startswith`,
 `split` on one character, `join` and `replace`.  Every other module imports
 this one; nothing here is specific to the service.
 */
module Text {

  /** The conventional Some/None datatype, standing for Python's `Optional`. */
  datatype Option<+T> = None | Some(value: T) {

    /** The wrapped value, or `default` for None (Python's `x or default`). */
    function GetOr(default: T): T {
      match this
      case Some(v) => v
      case None => default
    }
  }

  /** Python's `str.isspace()` for a single character. */
  predicate IsSpace(c: char) {
    || c == ' '
    || '\t' <= c <= '\r'
    || '\U{1c}' <= c <= '\U{1f}'
    || c == '\U{85}' || c == '\U{a0}' || c == '\U{1680}'
    || '\U{2000}' <= c <= '\U{200a}'
    || c == '\U{2028}' || c == '\U{2029}' || c == '\U{202f}'
    || c == '\U{205f}' || c == '\U{3000}'
  }

  predicate HasNoSpace(s: string) {
    forall i :: 0 <= i < |s| ==> !IsSpace(s[i])
  }

  /** Python's `s.lstrip()`: the suffix left after dropping leading whitespace. */
  function LStrip(s: string): (r: string)
    ensures |r| <= |s| && r == s[|s| - |r|..]
    ensures r == [] || !IsSpace(r[0])
    ensures forall i :: 0 <= i < |s| - |r| ==> IsSpace(s[i])
  {
    if |s| > 0 && IsSpace(s[0]) then LStrip(s[1..]) else s
  }

  /** Python's `s.rstrip()`: the prefix left after dropping trailing whitespace. */
  function RStrip(s: string): (r: string)
    ensures |r| <= |s| && r == s[..|r|]
    ensures r == [] || !IsSpace(r[|r| - 1])
    ensures forall i :: |r| <= i < |s| ==> IsSpace(s[i])
  {
    if |s| > 0 && IsSpace(s[|s| - 1]) then RStrip(s[..|s| - 1]) else s
  }

  /** `rstrip` keeps every character up to a non-whitespace one. */
  lemma RStripKeeps(s: string, n: nat)
    requires 0 < n <= |s| && !IsSpace(s[n - 1])
    ensures |RStrip(s)| >= n && RStrip(s)[..n] == s[..n]
  {
    var r := RStrip(s);
    assert !(|r| <= n - 1 < |s|) by {
      assert !IsSpace(s[n - 1]);
    }
    assert r[..n] == s[..|r|][..n];
  }

  /** No whitespace at either end. */
  predicate Trimmed(s: string) {
    s == [] || (!IsSpace(s[0]) && !IsSpace(s[|s| - 1]))
  }

  /** Python's `s.strip()`. */
  function Strip(s: string): (r: string)
    ensures |r| <= |s|
    ensures Trimmed(r)
  {
    RStrip(LStrip(s))
  }

  /** A string with no whitespace at either end is its own strip. */
  lemma StripOfStripped(s: string)
    requires Trimmed(s)
    ensures Strip(s) == s
  {
  }

  /** A string without whitespace is its own strip. */
  lemma StripOfSpaceless(s: string)
    requires HasNoSpace(s)
    ensures Strip(s) == s
  {
    if |s| > 0 {
      assert !IsSpace(s[0]) && !IsSpace(s[|s| - 1]);
    }
    StripOfStripped(s);
  }

  /** Python's `str.lower()` on one character, for the ASCII letters. */
  function LowerChar(c: char): char {
    if 'A' <= c <= 'Z' then (c as int + 32) as char else c
  }

  /** Python's `str.upper()` on one character, for the ASCII letters. */
  function UpperChar(c: char): char {
    if 'a' <= c <= 'z' then (c as int - 32) as char else c
  }

  function Lower(s: string): (r: string)
    ensures |r| == |s|
    ensures forall i :: 0 <= i < |s| ==> r[i] == LowerChar(s[i])
  {
    seq(|s|, i requires 0 <= i < |s| => LowerChar(s[i]))
  }

  function Upper(s: string): (r: string)
    ensures |r| == |s|
    ensures forall i :: 0 <= i < |s| ==> r[i] == UpperChar(s[i])
  {
    seq(|s|, i requires 0 <= i < |s| => UpperChar(s[i]))
  }

  /** Upper-casing commutes with taking a prefix. */
  lemma UpperPrefix(s: string, n: nat)
    requires n <= |s|
    ensures Upper(s)[..n] == Upper(s[..n])
  {
  }

  /** Python's `s.startswith(p)`. */
  predicate StartsWith(s: string, p: string) {
    |p| <= |s| && s[..|p|] == p
  }

  /** Python's `s.endswith(p)`. */
  predicate EndsWith(s: string, p: string) {
    |p| <= |s| && s[|s| - |p|..] == p
  }

  /** Python's `sub in s`: `sub` occurs at some position of `s`. */
  predicate Contains(s: string, sub: string)
    decreases |s|
  {
    StartsWith(s, sub) || (|s| > 0 && Contains(s[1..], sub))
  }

  /** `sub` occurs in `s` starting at index `i`. */
  predicate OccursAt(s: string, sub: string, i: int) {
    0 <= i <= |s| - |sub| && s[i..i + |sub|] == sub
  }

  /** The recursive definition of `Contains` agrees with "at some index". */
  lemma {:induction false} ContainsAt(s: string, sub: string)
    ensures Contains(s, sub) <==> exists i :: OccursAt(s, sub, i)
    decreases |s|
  {
    if StartsWith(s, sub) {
      assert OccursAt(s, sub, 0);
    } else if |s| > 0 {
      ContainsAt(s[1..], sub);
      if Contains(s[1..], sub) {
        var i :| OccursAt(s[1..], sub, i);
        assert OccursAt(s, sub, i + 1);
      }
      if exists i :: OccursAt(s, sub, i) {
        var i :| OccursAt(s, sub, i);
        assert i != 0;
        assert OccursAt(s[1..], sub, i - 1);
      }
    }
  }

  /** Python's `s[:n]` for `n >= 0`. */
  function Take(s: string, n: nat): (r: string)
    ensures |r| == if n < |s| then n else |s|
    ensures r == s[..|r|]
  {
    if n < |s| then s[..n] else s
  }

  /** Python's `s.replace(c, '')` for a one-character pattern. */
  function DeleteChar(s: string, c: char): (r: string)
    ensures c !in r
    ensures |r| <= |s|
    ensures c !in s ==> r == s
  {
    if |s| == 0 then ""
    else if s[0] == c then DeleteChar(s[1..], c)
    else [s[0]] + DeleteChar(s[1..], c)
  }

  /** Deleting a character distributes over concatenation. */
  lemma {:induction false} DeleteCharAppend(a: string, b: string, c: char)
    ensures DeleteChar(a + b, c) == DeleteChar(a, c) + DeleteChar(b, c)
  {
    if |a| == 0 {
      assert a + b == b;
    } else {
      assert (a + b)[0] == a[0];
      assert (a + b)[1..] == a[1..] + b;
      DeleteCharAppend(a[1..], b, c);
    }
  }

  /** A single character is dropped exactly when it is `c`. */
  lemma DeleteCharOne(x: char, c: char)
    ensures DeleteChar([x], c) == if x == c then "" else [x]
  {
  }

  /** Python's `s.replace(pat, rep)` for a non-empty pattern: occurrences are
      replaced left to right and never overlap. */
  function ReplaceAll(s: string, pat: string, rep: string): string
    requires |pat| > 0
    decreases |s|
  {
    if |s| == 0 then ""
    else if StartsWith(s, pat) then rep + ReplaceAll(s[|pat|..], pat, rep)
    else [s[0]] + ReplaceAll(s[1..], pat, rep)
  }

  /** Python's `s.replace(a, b)` for one-character `a` and `b`. */
  function ReplaceChar(s: string, a: char, b: char): (r: string)
    ensures |r| == |s|
    ensures forall i :: 0 <= i < |s| ==> r[i] == if s[i] == a then b else s[i]
  {
    seq(|s|, i requires 0 <= i < |s| => if s[i] == a then b else s[i])
  }

  /** A string holding no first character of the pattern has nothing to replace. */
  lemma {:induction false} ReplaceAllAbsent(s: string, pat: string, rep: string)
    requires |pat| > 0 && pat[0] !in s
    ensures ReplaceAll(s, pat, rep) == s
  {
    if |s| > 0 {
      assert s[0] != pat[0];
      ReplaceAllAbsent(s[1..], pat, rep);
    }
  }

  /** A prefix holding no first character of the pattern is copied as is. */
  lemma {:induction false} ReplaceAllPrefix(a: string, b: string, pat: string, rep: string)
    requires |pat| > 0 && pat[0] !in a
    ensures ReplaceAll(a + b, pat, rep) == a + ReplaceAll(b, pat, rep)
  {
    if |a| > 0 {
      assert (a + b)[0] == a[0] != pat[0];
      assert (a + b)[1..] == a[1..] + b;
      ReplaceAllPrefix(a[1..], b, pat, rep);
    } else {
      assert a + b == b;
    }
  }

  /** Number of occurrences of `c` in `s`. */
  function CountChar(s: string, c: char): nat {
    if |s| == 0 then 0 else (if s[0] == c then 1 else 0) + CountChar(s[1..], c)
  }

  lemma {:induction false} CountCharAppend(a: string, b: string, c: char)
    ensures CountChar(a + b, c) == CountChar(a, c) + CountChar(b, c)
  {
    if |a| > 0 {
      assert (a + b)[1..] == a[1..] + b;
      CountCharAppend(a[1..], b, c);
    } else {
      assert a + b == b;
    }
  }

  lemma {:induction false} CountCharAbsent(s: string, c: char)
    requires c !in s
    ensures CountChar(s, c) == 0
  {
    if |s| > 0 {
      CountCharAbsent(s[1..], c);
    }
  }

  /** Python's `sep.join(parts)`. */
  function Join(parts: seq<string>, sep: string): string
    decreases |parts|
  {
    if |parts| == 0 then ""
    else if |parts| == 1 then parts[0]
    else parts[0] + sep + Join(parts[1..], sep)
  }

  /** Python's `s.split(sep)` for a one-character separator: the maximal
      separator-free pieces, including empty ones, so never an empty list. */
  function Split(s: string, sep: char): (parts: seq<string>)
    ensures |parts| >= 1
    ensures forall k :: 0 <= k < |parts| ==> sep !in parts[k]
  {
    if |s| == 0 then [""]
    else if s[0] == sep then [""] + Split(s[1..], sep)
    else
      var rest := Split(s[1..], sep);
      [[s[0]] + rest[0]] + rest[1..]
  }

  /** A separator between two texts splits them apart: the pieces of the
      whole are the pieces of the first followed by those of the second. */
  lemma {:induction false} SplitAppend(a: string, sep: char, b: string)
    ensures Split(a + [sep] + b, sep) == Split(a, sep) + Split(b, sep)
  {
    if |a| == 0 {
      assert a + [sep] + b == [sep] + b;
      assert ([sep] + b)[1..] == b;
    } else {
      assert (a + [sep] + b)[0] == a[0];
      assert (a + [sep] + b)[1..] == a[1..] + [sep] + b;
      SplitAppend(a[1..], sep, b);
      if a[0] != sep {
        var p := Split(a[1..], sep);
        var q := Split(b, sep);
        assert (p + q)[0] == p[0];
        assert (p + q)[1..] == p[1..] + q;
      }
    }
  }

  /** Splitting and re-joining on the same separator gives the input back. */
  lemma {:induction false} JoinSplit(s: string, sep: char)
    ensures Join(Split(s, sep), [sep]) == s
  {
    if |s| > 0 {
      var rest := Split(s[1..], sep);
      JoinSplit(s[1..], sep);
      if s[0] == sep {
        assert Split(s, sep)[1..] == rest;
      } else {
        var parts := Split(s, sep);
        if |rest| == 1 {
          assert parts == [[s[0]] + rest[0]];
        } else {
          assert parts[1..] == rest[1..];
          assert Join(rest, [sep]) == rest[0] + [sep] + Join(rest[1..], [sep]);
        }
      }
    }
  }

  /** A separator-free piece followed by the separator splits off as one part. */
  lemma {:induction false} SplitAfterPiece(a: string, sep: char, b: string)
    requires sep !in a
    ensures Split(a + [sep] + b, sep) == [a] + Split(b, sep)
  {
    if |a| == 0 {
      assert a + [sep] + b == [sep] + b;
      assert ([sep] + b)[1..] == b;
    } else {
      assert (a + [sep] + b)[1..] == a[1..] + [sep] + b;
      SplitAfterPiece(a[1..], sep, b);
      assert [a[0]] + a[1..] == a;
    }
  }

  /** A string without the separator is one part. */
  lemma {:induction false} SplitNoSep(s: string, sep: char)
    requires sep !in s
    ensures Split(s, sep) == [s]
  {
    if |s| > 0 {
      SplitNoSep(s[1..], sep);
      assert [s[0]] + s[1..] == s;
    }
  }

  /** Position of the first occurrence of `x` in `s` (Python's `list.index`). */
  function IndexOf<T(==)>(s: seq<T>, x: T): (i: nat)
    requires x in s
    ensures i < |s| && s[i] == x && x !in s[..i]
  {
    if s[0] == x then 0
    else
      var i := IndexOf(s[1..], x);
      assert s[1..][..i] == s[1..i + 1];
      1 + i
  }

  /** Looking for `x` in a prefix that holds it finds the same position. */
  lemma IndexOfPrefix<T>(s: seq<T>, n: nat, x: T)
    requires n <= |s| && x in s[..n]
    ensures IndexOf(s, x) == IndexOf(s[..n], x)
  {
    var i1 := IndexOf(s[..n], x);
    var i2 := IndexOf(s, x);
    assert s[..n][..i1] == s[..i1];
  }
}
